=== FILE: README.md ===
# AIWebScraper core, modelled in Dafny

This project models the server side of AIWebScraper plus one client helper:

- `scrapeWebsite` fetches a page. It extracts the sections the user asked for: metadata with the `other` meta map, headings, paragraphs and reading statistics, links typed internal/external, and images typed by extension. It then enriches them with the local analyzer.
- The local analyzer, `analyzeWebContent`, produces:
  - main topic, content type, content age, key terms, sentiment and readability;
  - summary, themes, top keywords, key phrases and content quality;
  - link categories and importance;
  - image purpose, importance and context.
- The `POST /api/scrape` handler validates the request and checks the cache. The program looks only at the OLDEST stored scrape of the url and serves it when it is under an hour old; `Routes.HandleScrape` takes the cache check as a parameter, `OldestMatch` for the program and `NewestMatch` for the corrected check (see Findings). On a miss it scrapes and adds the OpenAI or the local insights, falling back from OpenAI to local. Then it stores the record.
- The `GET /api/scrapes/recent` and `GET /api/scrapes/:id` handlers serve stored scrapes, omitting `rawHtml` unless it is asked for.
- `MemStorage` holds users and scrapes under ids counted from 1.
- The client's `csvEscape` and the CSV text `downloadCsv` builds.

Everything is an immutable value and a pure function:

- A parsed page is a `Document.Page`. It records the facts the code reads with selectors:
  - texts, meta and link tags, headings, paragraphs and list items;
  - anchors and images with their ancestor and style flags;
  - element counts.
- Record sections are `JsonValue.Json` objects. Object spread is map union, the right side winning.
- `MemStorage` is a datatype. Ids are never reused, so each of its maps is a sequence in id order.
- The if/else chains of the analyzer are `Rules.FirstMatch` over an ordered rule table.
- Frequency ranking is a stable descending sort (`Ranking.SortDesc`) over the distinct items in first-occurrence order.

The outside world enters as parameters:

- the HTTP fetch outcome (`Scraper.FetchOutcome`) and the HTML parser (`string -> Page`);
- the clock: milliseconds for the routes, the ISO time stamp for the scraper, the current year for the analyzer;
- the locale date formatter, and the host name `new URL(u)` yields (`None` when it throws);
- the outcome of the OpenAI service (`Routes.AiOutcome`);
- the outcome of request validation (`Routes.ScrapeRequest`).

The routes import the analyzer from `ai-web-scraper-deployment/server/services/localAnalyzer.ts`. That file is not part of this model. The analyzer modelled is `server/services/localAnalyzer.ts`, taken to be the one both the scraper and the routes call.

## Model

| member | source | states |
|---|---|---|
| Scraper.ScrapeWebsite | ai-web-scraper-deployment/server/services/scraper.ts:6-208 | fails exactly when the fetch fails, with "Failed to scrape website: " and the fetch message; on success carries the url, the request's time stamp and the fetched html, and every section whose toggle is off stays `{}` or `[]` |
| Scraper.AnalysisFailureKeepsExtraction | ai-web-scraper-deployment/server/services/scraper.ts:158-201 | an analyzer that throws (bad url, links requested) is swallowed: the result is exactly the extracted data |
| Scraper.SectionsTakeAnalysis | ai-web-scraper-deployment/server/services/scraper.ts:162-168 | with a successful analysis, every field of the metadata and content insights is in the result with the analysis' value, even where extraction had the same name |
| Scraper.MetadataFromAnalysis | ai-web-scraper-deployment/server/services/scraper.ts:162-164 | with metadata requested, the scraped metadata is the extracted metadata spread with the local metadata insights |
| Scraper.ContentFromAnalysis | ai-web-scraper-deployment/server/services/scraper.ts:166-168 | with text requested, the scraped content is the extracted content spread with the local content insights |
| Scraper.SectionsGainAnalysis | ai-web-scraper-deployment/server/services/scraper.ts:162-168 | with a successful analysis, metadata and content hold the union of the extracted and the analysis field names, including `mainTopic`/`other` and `summary`/`stats` |
| Scraper.ExtractedLinkKeys | ai-web-scraper-deployment/server/services/scraper.ts:97-119 | the extracted links' `url` keys are the anchors' non-empty hrefs in document order |
| Scraper.CategorizedLinkKeys | server/services/localAnalyzer.ts:484-552 | the analyzer's link entries carry the same `url` keys in the same order |
| Scraper.ExtractedImageKeys | ai-web-scraper-deployment/server/services/scraper.ts:122-152 | the extracted images' `src` keys are the non-empty sources in document order |
| Scraper.AnalyzedImageKeys | server/services/localAnalyzer.ts:590-685 | the analyzer's image entries carry the same `src` keys in the same order |
| Scraper.Enrich | ai-web-scraper-deployment/server/services/scraper.ts:158-201 | url, date and html are kept; a section the analysis lacks or whose toggle is off stays as extracted; otherwise metadata and content are the extracted object spread with the analysis' (`JsonValue.Spread`: the analysis wins on a clash); merged links and images hold one entry per distinct extracted `url`/`src` key, in first-occurrence order (`KeyedMerge.MergeByKey`) |
| Scraper.LinkMergeOver | ai-web-scraper-deployment/server/services/scraper.ts:170-183 | merging analyzer entries over extracted links with the same urls keeps one per distinct url, each with the analyzer's fields and the extracted `attributes` |
| Scraper.ImageMergeOver | ai-web-scraper-deployment/server/services/scraper.ts:185-198 | merging analyzer entries over extracted images with the same sources keeps one per distinct source, each with the analyzer's fields and `size: null` |
| Scraper.LinkMergeEnriched | ai-web-scraper-deployment/server/services/scraper.ts:170-183 | the merged links are one per distinct href in first-occurrence order, each holding the analyzer's category, importance, text and type and still holding the extracted `attributes` |
| Scraper.ImageMergeEnriched | ai-web-scraper-deployment/server/services/scraper.ts:185-198 | the merged images are one per distinct source, each holding purpose, importance and context and still holding `size: null` |
| Scraper.EveryLinkEnriched | ai-web-scraper-deployment/server/services/scraper.ts:158-183 | the same as LinkMergeEnriched, for the links `scrapeWebsite` returns |
| Scraper.EveryImageEnriched | ai-web-scraper-deployment/server/services/scraper.ts:158-198 | the same as ImageMergeEnriched, for the images `scrapeWebsite` returns |
| Extractor.AssignKeys | ai-web-scraper-deployment/server/services/scraper.ts:52-58 | the map filled by a keyed loop has exactly the keys of the accepted items |
| Extractor.AssignLastWins | ai-web-scraper-deployment/server/services/scraper.ts:52-58 | each key holds the value of the last accepted item with that key |
| Extractor.OtherMetaLastWins | ai-web-scraper-deployment/server/services/scraper.ts:52-58 | `other` holds exactly the names of meta tags that have a name and a content and are not `og:`/`twitter:`, each with the content of the last such tag |
| Extractor.OtherLaterWins | ai-web-scraper-deployment/server/services/scraper.ts:55-56 | of two tags with the same name, the later content is kept |
| Extractor.ExtractMetadata | ai-web-scraper-deployment/server/services/scraper.ts:29-49 | the metadata object has exactly the eight documented keys; `title` is the title text; `description`, `language`, `canonical` and `favicon` take the attribute when it is non-empty and otherwise `""`, `""`, the url and "/favicon.ico"; `openGraph` and `twitter` have their documented keys; `other` is the meta map |
| Document.AttrOr | ai-web-scraper-deployment/server/services/scraper.ts:31-35 | the truthiness fallback of an attribute read: the attribute when present and non-empty, the fallback otherwise |
| Extractor.OtherJson | ai-web-scraper-deployment/server/services/scraper.ts:48-57 | the JSON `other` object has the meta map's keys with their string values |
| Extractor.HeadingLevelParses | ai-web-scraper-deployment/server/services/scraper.ts:66-68 | `parseInt` of the tag name after its first letter gives the heading's level back |
| Extractor.Headings | ai-web-scraper-deployment/server/services/scraper.ts:64-70 | one entry per `h1`..`h6` element, in order: tag `h` plus the level digit, the trimmed text, and the level itself |
| Extractor.HeadingOf | ai-web-scraper-deployment/server/services/scraper.ts:64-70 | the entry's tag is `h` plus the level digit, its text the trimmed text, and its level the heading's level |
| Extractor.Paragraphs | ai-web-scraper-deployment/server/services/scraper.ts:73-77 | exactly the trimmed texts of the non-blank paragraphs, in document order (`Text.Select` with `NotBlank` and `Trim`) |
| Extractor.ParagraphsKeepTrimmed | ai-web-scraper-deployment/server/services/scraper.ts:73-77 | paragraphs that are already trimmed and non-empty are all kept, in order |
| Extractor.TrimIdempotent | ai-web-scraper-deployment/server/services/scraper.ts:75 | trimming a trimmed text changes nothing |
| Extractor.ExtractContent | ai-web-scraper-deployment/server/services/scraper.ts:62-94 | one trimmed heading with its level per heading element; the paragraphs are the trimmed non-blank ones in order; the word count is the number of whitespace-separated tokens of the body; reading time times 200 is the word count |
| Extractor.ContentJson | ai-web-scraper-deployment/server/services/scraper.ts:84-93 | the content object has headings, paragraphs and stats, and stats hold the counts and the reading time |
| Extractor.ReadingTimeExample | ai-web-scraper-deployment/server/services/scraper.ts:82 | 400 words read in two minutes |
| Extractor.ExtractLinks | ai-web-scraper-deployment/server/services/scraper.ts:97-119 | one link per anchor with a non-empty href, in order (`Extractor.LinkOf`): the href, the trimmed text, external exactly when the url starts with "http" and does not contain the page url, and `rel`/`target` as given or null |
| Extractor.ExtractedUrls | ai-web-scraper-deployment/server/services/scraper.ts:98-118 | the links' urls are exactly the anchors' non-empty hrefs, in order |
| Extractor.LinksJson | ai-web-scraper-deployment/server/services/scraper.ts:112-117 | each link object carries its url and exactly the keys url, text, type, attributes |
| Extractor.AfterLastDot | ai-web-scraper-deployment/server/services/scraper.ts:133 | the extension is the dot-free suffix after the last `.`, or the whole source |
| Extractor.KindByExtension | ai-web-scraper-deployment/server/services/scraper.ts:133-140 | "name.ext" is typed by its last extension, in any letter case |
| Extractor.ExtractImages | ai-web-scraper-deployment/server/services/scraper.ts:122-152 | one image per image with a non-empty source, in order (`Extractor.ImageOf`): the source, `alt` or "", `width` and `height` as written, typed by its extension |
| Extractor.ExtractedSrcs | ai-web-scraper-deployment/server/services/scraper.ts:123-151 | the images' sources are exactly the non-empty `src` values, in order |
| Extractor.ImageJson | ai-web-scraper-deployment/server/services/scraper.ts:142-150 | `size` is always null; `width` is null or a non-zero number |
| Extractor.ImagesJson | ai-web-scraper-deployment/server/services/scraper.ts:142-150 | each image object carries its source and `size: null` |
| Document.AttrOrNull | ai-web-scraper-deployment/server/services/scraper.ts:101-102 | `attr || null` is never the empty string |
| Document.Dimension | ai-web-scraper-deployment/server/services/scraper.ts:126-127 | a size is present exactly when the attribute (or "0") parses to a non-zero integer |
| KeyedMerge.MergeMap | ai-web-scraper-deployment/server/services/scraper.ts:170-198 | the `Map` walk (set every base object, spread every analyzer object whose key is present, read the values back) computes the declarative merge |
| KeyedMerge.SetAll | ai-web-scraper-deployment/server/services/scraper.ts:173 | after the first pass the map's key order is the distinct base keys and each key holds the last base object with it |
| KeyedMerge.EnhanceAll | ai-web-scraper-deployment/server/services/scraper.ts:175-180 | after the second pass each key holds its base object with every matching analyzer object spread over it in order, and no key is added |
| KeyedMerge.MergedKeys | ai-web-scraper-deployment/server/services/scraper.ts:170-183 | `MergeByKey`: the merged list has one object per distinct base key, in first-occurrence order, each carrying its key; it is no longer than the base list |
| KeyedMerge.MergeKeepsUniqueBase | ai-web-scraper-deployment/server/services/scraper.ts:170-183 | base objects with unique keys stay one for one, in order, each enhanced by its own analyzer objects |
| KeyedMerge.UnmatchedDropped | ai-web-scraper-deployment/server/services/scraper.ts:176 | analyzer objects whose key no base object has change nothing |
| KeyedMerge.AnalyzerFieldsWin | ai-web-scraper-deployment/server/services/scraper.ts:178 | every field of the last matching analyzer object is in the merged object with the analyzer's value |
| KeyedMerge.BaseFieldKept | ai-web-scraper-deployment/server/services/scraper.ts:178 | a base field no analyzer object carries keeps the extracted value |
| KeyedMerge.EveryBaseEnriched | ai-web-scraper-deployment/server/services/scraper.ts:170-183 | when every base key has an analyzer object and all of those carry a field, every merged object carries it |
| KeyedMerge.MergeOverSameKeys | ai-web-scraper-deployment/server/services/scraper.ts:170-198 | for lists with the same keys, every merged object gains the analyzer's fields and keeps a base-only field's value from some base object |
| KeyedMerge.LastWithUnique | ai-web-scraper-deployment/server/services/scraper.ts:173 | with unique keys, the map holds each object under its own key |
| KeyedMerge.EnhanceSplit | ai-web-scraper-deployment/server/services/scraper.ts:175-180 | the enhancement is one object, the analyzer objects spread together, spread over the starting value |
| KeyedMerge.MergeIdempotent | ai-web-scraper-deployment/server/services/scraper.ts:170-198 | merging the same analyzer objects a second time changes nothing |
| JsonValue.Spread | ai-web-scraper-deployment/server/services/scraper.ts:163 | `{...a, ...b}` has the keys of both, the right side winning on a clash |
| JsonValue.FieldOr | ai-web-scraper-deployment/server/routes.ts:59-62 | `o.f \|\| fallback` is the field's value exactly when the field is present and truthy, and the fallback otherwise |
| LocalAnalyzer.AnalyzeWebContent | server/services/localAnalyzer.ts:7-45 | fails exactly when links are requested and the url does not parse; each section is present exactly when its toggle is on; metadata is `LocalAnalyzer.MetadataOf` (mainTopic, contentType, estimatedAge, keyTerms, sentiment and estimatedReadability from their analysers), content is `LocalAnalyzer.ContentOf` (summary, mainThemes, topKeywords with limit 10, keyPhrases, estimatedQuality), links and images are the categoriser's and the image analyser's results |
| LocalAnalyzer.AnalysisJson | server/services/localAnalyzer.ts:9-44 | the analysis object has a key for exactly the present sections |
| LocalAnalyzer.SectionsFollowToggles | server/services/localAnalyzer.ts:12-42 | each section key exists exactly when its toggle is on; with every toggle off the result is `{}` |
| LocalAnalyzer.SectionValues | server/services/localAnalyzer.ts:13-41 | each present key holds the JSON of its section |
| LocalAnalyzer.SectionKeys | server/services/localAnalyzer.ts:9-44 | a key is present exactly when its section is; no section gives `{}` |
| PageInsights.StripSiteSuffix | server/services/localAnalyzer.ts:59-63 | the title with its suffix from the last `-` or `\|` removed; shorter exactly when there is a separator |
| PageInsights.FirstLongClause | server/services/localAnalyzer.ts:66-71 | the clause found is the first one longer than 10 once trimmed, and none is found exactly when no clause is that long |
| PageInsights.MainTopicFromTitle | server/services/localAnalyzer.ts:50-62 | `MainTopic`: an `h1` longer than 5 is the topic; otherwise a non-empty title is, whole when it has no `-` or `\|`, else cut before its last separator and trimmed |
| PageInsights.MainTopicFromDescription | server/services/localAnalyzer.ts:50-74 | `MainTopic`: with no long `h1` and no title, the topic is the description fallback |
| PageInsights.DescriptionTopicIs | server/services/localAnalyzer.ts:64-74 | an empty description, or one with no clause longer than 10, gives "Unknown Topic"; otherwise the topic is the first such clause, trimmed |
| PageInsights.MainTopicDropsBrand | server/services/localAnalyzer.ts:50-75 | with no long `h1`, a title "Name - Brand" gives "Name" |
| PageInsights.MainTopicUnknown | server/services/localAnalyzer.ts:50-75 | with no long `h1`, no title and no long description clause, the topic is "Unknown Topic" |
| PageInsights.DetectContentTypePriority | server/services/localAnalyzer.ts:80-132 | `DetectContentType`: each content type is chosen exactly when its signals hold and those of every earlier type do not |
| PageInsights.YearAt | server/services/localAnalyzer.ts:162 | a match needs four digits at the position; a full range (four digits, a hyphen, en or em dash, four digits) captures its second year, anything else its first four digits |
| PageInsights.CopyrightYear | server/services/localAnalyzer.ts:161-163 | the capture at the leftmost position where the pattern matches, four digits; none exactly when it matches nowhere in the footer |
| PageInsights.EstimatedAgePriority | server/services/localAnalyzer.ts:137-174 | `EstimatedAge` tries the publish date, then the first `time[datetime]`, then the copyright year ("Updated this year" exactly when it is the current year), then answers "Age unknown" |
| PageInsights.CopyrightAge | server/services/localAnalyzer.ts:137-174 | with no publish date and no `time` element, a footer "© YYYY" reports that year, as "this year" exactly when it is the current one |
| PageInsights.SentimentMatchesScore | server/services/localAnalyzer.ts:245-253 | the cross-multiplied thresholds agree with the ratio `(pos - neg) / total` compared with ±0.25 |
| PageInsights.SentimentSymmetric | server/services/localAnalyzer.ts:245-253 | swapping the two counts swaps Positive and Negative and keeps Neutral |
| PageInsights.SentimentExtremes | server/services/localAnalyzer.ts:215-254 | `AnalyzeSentiment`: no listed word gives Neutral; only positive words give Positive; only negative words give Negative |
| PageInsights.ReadabilityMatchesRatios | server/services/localAnalyzer.ts:285-300 | the cross-multiplied thresholds agree with the average words per sentence and the complex-word percentage |
| PageInsights.ReadabilityLevels | server/services/localAnalyzer.ts:259-301 | `EstimateReadability`: "Unknown readability" exactly when there is no paragraph, sentence or word; "Academic/Advanced" exactly for long sentences or many complex words |
| PageInsights.FirstSummaryParagraph | server/services/localAnalyzer.ts:308-316 | the paragraph found is the first whose trimmed length is strictly between 50 and 300, and none is found exactly when no paragraph qualifies |
| PageInsights.GenerateSummary | server/services/localAnalyzer.ts:306-330 | the first paragraph whose trimmed length is strictly between 50 and 300, trimmed; without one, "title - description" when both are non-empty; otherwise the whitespace-collapsed body, cut to 250 characters plus "..." when longer |
| PageInsights.HeadingThemes | server/services/localAnalyzer.ts:338-344 | the trimmed texts of the `h1`-`h3` whose trimmed length is strictly between 3 and 60, in document order |
| PageInsights.BoldThemes | server/services/localAnalyzer.ts:346-352 | the trimmed bold texts whose length is strictly between 3 and 40, in document order |
| PageInsights.ItemThemes | server/services/localAnalyzer.ts:359-364 | the items whose trimmed length is strictly between 5 and 100, trimmed and with a leading `-`, `*` or `•` removed, in order; each shorter than 100 |
| PageInsights.ListThemes | server/services/localAnalyzer.ts:354-364 | the item themes of each list with 2 to 5 `li` children, list after list |
| PageInsights.IdentifyThemes | server/services/localAnalyzer.ts:335-367 | the first min(5, n) of the n distinct candidates (headings, then bold texts, then list items) in first-occurrence order; with at most five, all of them |
| PageInsights.QualityScore | server/services/localAnalyzer.ts:450-472 | length points plus one point per criterion met; 8 exactly when the page has over 1000 words and meets all six criteria, 0 exactly when it has at most 500 and meets none |
| PageInsights.LengthPoints | server/services/localAnalyzer.ts:454-458 | 2 points exactly above 1000 words, none exactly up to 500, otherwise 1 |
| PageInsights.QualityOf | server/services/localAnalyzer.ts:474-478 | "Excellent" exactly from 7, "Good" exactly for 5-6, "Average" for 3-4, "Basic" below 3 |
| PageInsights.EstimateQuality | server/services/localAnalyzer.ts:450-479 | the rating of the page's score by the 7/5/3 thresholds, each rating exactly for its score range |
| PageInsights.QualityFacts | server/services/localAnalyzer.ts:450-479 | a page of at most 500 words scores at most 6 and is never "Excellent"; a higher score never gives a lower rating |
| Keywords.StripPunctuation | server/services/localAnalyzer.ts:193-194 | only word characters and whitespace remain |
| Keywords.RawWords | server/services/localAnalyzer.ts:193-195 | every word consists of word characters only |
| Keywords.RankedTerms | server/services/localAnalyzer.ts:198-206 | at most `n` distinct words of the input, by non-increasing count; a word left out occurs no more often than any kept word, and then `n` were kept |
| Keywords.KeyTerms | server/services/localAnalyzer.ts:179-210 | at most ten distinct eligible words (longer than 3, not stop words), most frequent first, and a word left out is no more frequent than any kept |
| Keywords.TopKeywords | server/services/localAnalyzer.ts:372-402 | at most `count` distinct eligible words (longer than 3, not stop words, not numbers), most frequent first, and a word left out is no more frequent than any kept |
| Keywords.KeywordsAreKeyTermWords | server/services/localAnalyzer.ts:389 | the keyword filter only adds conditions to the key term filter |
| Keywords.NumberLiteralExamples | server/services/localAnalyzer.ts:389 | years, exponents and hex literals are numbers; "2024s" and "1_000" are not |
| Keywords.PhraseWords | server/services/localAnalyzer.ts:410-414 | every phrase word is longer than 2 |
| Keywords.PhraseOccurrenceShape | server/services/localAnalyzer.ts:420-438 | every counted phrase is two or three consecutive words starting at a valid position |
| Keywords.PhraseLengthGuards | server/services/localAnalyzer.ts:426-433 | for words longer than 2 the bigram and trigram length guards always pass |
| Keywords.RepeatedTop | server/services/localAnalyzer.ts:440-444 | at most five distinct phrases, each counted more than once, most frequent first; a repeated phrase left out means five were kept, each at least as frequent |
| Keywords.KeyPhrases | server/services/localAnalyzer.ts:407-445 | at most five distinct phrases counted more than once, most frequent first; a repeated phrase left out means five were kept, each at least as frequent |
| Keywords.KeyPhrasesAreWordRuns | server/services/localAnalyzer.ts:407-445 | every key phrase is a run of two or three consecutive words of the text |
| LinkInsights.ClassifyFacts | server/services/localAnalyzer.ts:496-539 | `Classify`: internal links keep internal categories and external ones external categories; unknown type exactly for "other"; "anchor" only for "#" hrefs; social, media, authentication, reference and contact mean external; navigation, information, product and content mean internal |
| LinkInsights.UnknownTypeExactly | server/services/localAnalyzer.ts:500-515 | the type is unknown exactly when the href matches none of the five shapes |
| LinkInsights.InitialClassFacts | server/services/localAnalyzer.ts:500-515 | the first classification pairs each type with its categories |
| LinkInsights.InternalRefinementFacts | server/services/localAnalyzer.ts:518-527 | refining an internal link keeps an internal category |
| LinkInsights.ExternalRefinementFacts | server/services/localAnalyzer.ts:528-539 | refining an external link keeps an external category |
| LinkInsights.LinkImportanceFacts | server/services/localAnalyzer.ts:557-585 | a link inside nav/header is primary navigation; "Standard Link" exactly when no signal holds; a footer link is in a footer and not in nav/header |
| LinkInsights.EntryOf | server/services/localAnalyzer.ts:542-548 | the entry carries the href, the trimmed anchor text or "(No text)", the `Classify` result for the href and trimmed text, and the anchor's importance |
| LinkInsights.CategorizeLinks | server/services/localAnalyzer.ts:484-552 | the k-th entry is the entry of the k-th anchor with a non-empty href: its url, text, class and importance |
| LinkInsights.CategorizedUrls | server/services/localAnalyzer.ts:489-549 | the entries' urls are exactly the anchors' non-empty hrefs, in order |
| LinkInsights.LinksJson | server/services/localAnalyzer.ts:542-548 | each entry object carries its url and exactly the keys url, text, type, category, importance |
| ImageInsights.SignalsOf | server/services/localAnalyzer.ts:636-638 | an image without alt text has the decorative signal |
| ImageInsights.PurposeChain | server/services/localAnalyzer.ts:602-674 | product signals decide first; decorative signals give one of the first four purposes; "Unknown" exactly when no condition holds |
| ImageInsights.EmptyAltPurpose | server/services/localAnalyzer.ts:636-644 | an image without alt text is never content, logo, avatar or unknown |
| ImageInsights.PurposeFacts | server/services/localAnalyzer.ts:602-674 | `PurposeOf`: a product image is recognised whatever else holds; "Unknown" exactly when no condition holds; importance "High" exactly for product, hero and logo |
| ImageInsights.ContextPlaced | server/services/localAnalyzer.ts:692-696 | an image in a page region gets that region's context, the header first |
| ImageInsights.ContextStandalone | server/services/localAnalyzer.ts:690-720 | "Standalone image" exactly when no rule of the chain holds |
| ImageInsights.ContextFacts | server/services/localAnalyzer.ts:690-720 | `ContextOf`: the header wins; a text-related context means the image is in no structural area; "Standalone image" exactly when nothing holds |
| ImageInsights.EntryOf | server/services/localAnalyzer.ts:676-681 | the entry carries the image's source, its `PurposeOf` purpose and its `ContextOf` context |
| ImageInsights.AnalyzeImages | server/services/localAnalyzer.ts:590-685 | the k-th entry is the entry of the k-th image with a non-empty source: its source, purpose and context |
| ImageInsights.AnalyzedSrcs | server/services/localAnalyzer.ts:593-682 | the entries' sources are exactly the non-empty `src` values, in order |
| ImageInsights.ImagesJson | server/services/localAnalyzer.ts:676-681 | each entry object carries its source and exactly the keys src, purpose, importance, context |
| Routes.ServerError | ai-web-scraper-deployment/server/routes.ts:101-104 | status 500 with the error's message, or the fallback when it is empty |
| Routes.CachedScrapeAsWritten | ai-web-scraper-deployment/server/routes.ts:23-37 | a hit is a stored scrape of the url younger than an hour |
| Routes.StaleFirstScrapeHidesFreshOne | ai-web-scraper-deployment/server/routes.ts:23-37 | a url whose first scrape is stale is never served from the cache, even with a scrape a minute old |
| Routes.LatestFor | ai-web-scraper-deployment/server/routes.ts:23-24 | the index of the newest scrape of a url, present exactly when the url was scraped |
| Routes.CachedScrapeHits | ai-web-scraper-deployment/server/routes.ts:23-37 | the corrected cache serves the newest scrape of the url when it is fresh; with scrapes in time order, it hits exactly when some scrape of the url is fresh |
| Routes.CacheAgreesOnSingleScrape | ai-web-scraper-deployment/server/routes.ts:23-37 | for a url scraped at most once, the corrected and the written cache agree |
| Routes.WithInsights | ai-web-scraper-deployment/server/routes.ts:57-85 | metadata gains `aiInsights` (and `error` on fallback) and keeps every other field; content gains `aiInsights`; links and images are the analysis' when present and truthy, else the scraped ones; html unchanged |
| Routes.Enhance | ai-web-scraper-deployment/server/routes.ts:46-87 | no html: record unchanged; OpenAI wanted and returning: its insights; otherwise it succeeds exactly when the local analysis does, with the local insights and, when OpenAI was wanted, the fallback note; failure only when the local analysis fails, with its message |
| Routes.OptionsJson | ai-web-scraper-deployment/server/routes.ts:40 | the key is written exactly when it is given |
| Routes.ScrapeJson | ai-web-scraper-deployment/server/routes.ts:139-144 | `rawHtml` is present exactly when asked for; the other fields are always present |
| Routes.CacheLookup | ai-web-scraper-deployment/server/routes.ts:23-37 | a hit is a fresh stored scrape of the url: under `OldestMatch` (the program) the oldest scrape of the url, under `NewestMatch` (corrected) the newest |
| Routes.OldestMatchIsFirst | ai-web-scraper-deployment/server/storage.ts:51-55 | the program's cache hit is the scrape of the url with the smallest id |
| Routes.HandleScrape | ai-web-scraper-deployment/server/routes.ts:12-105 | storage stays valid; a rejected request answers 400 with its message and changes nothing; storage changes only with a 200 answer; the status is 200, 400 or 500 |
| Routes.CacheHitServesStored | ai-web-scraper-deployment/server/routes.ts:25-36 | under either cache check, a hit is sent back whole and nothing is stored |
| Routes.StaleFirstScrapeHandled | ai-web-scraper-deployment/server/routes.ts:23-37 | with a stale first scrape and a fresh second one of the url, the program answers 500 when the fetch fails, where the corrected check serves the second scrape |
| Routes.FetchFailureIsServerError | ai-web-scraper-deployment/server/routes.ts:101-104 | a failed fetch stores nothing and answers 500 with the scraper's message |
| Routes.NewScrapeStored | ai-web-scraper-deployment/server/routes.ts:89-100 | a successful scrape is appended under the next id with the request time and options, and the response is that record |
| Routes.StoresEnhancedRecord | ai-web-scraper-deployment/server/routes.ts:89-100 | the stored links are the enhanced record's links, or `[]` when those are falsy |
| Routes.LocalInsightsLinks | ai-web-scraper-deployment/server/routes.ts:78 | the local analysis of a good url with links requested holds the categorised links |
| Routes.LocalEnhanceLinks | ai-web-scraper-deployment/server/routes.ts:76-86 | without OpenAI the record's links are the categorised entries |
| Routes.LocalLinksReplaceExtracted | ai-web-scraper-deployment/server/routes.ts:76-98 | the stored links are the analyzer's entries, replacing the extracted ones |
| Routes.OpenAIOnlyWhenWanted | ai-web-scraper-deployment/server/routes.ts:48 | without the switch and a key the OpenAI outcome changes nothing |
| Routes.EnhanceIgnoresOpenAI | ai-web-scraper-deployment/server/routes.ts:48-86 | the insights step ignores the OpenAI outcome when OpenAI is not wanted |
| Routes.OpenAIFailureFallsBack | ai-web-scraper-deployment/server/routes.ts:64-75 | when OpenAI throws, the record is built, `error` says so, and `aiInsights` is the local analysis' `metadata` when present and truthy, else `{}` |
| Routes.FallbackMetadataInsights | ai-web-scraper-deployment/server/routes.ts:64-75 | after an OpenAI failure `metadata.aiInsights` is exactly the local metadata insights object when metadata is requested, and `{}` when it is not |
| Routes.MetadataSection | ai-web-scraper-deployment/server/routes.ts:70 | `aiAnalysis.metadata \|\| {}` on the local analysis is its metadata section when present, `{}` otherwise |
| Routes.HandleRecent | ai-web-scraper-deployment/server/routes.ts:108-123 | 200 with an array whose i-th item is the i-th of the ten newest scrapes written without `rawHtml` |
| Routes.HandleGetById | ai-web-scraper-deployment/server/routes.ts:126-149 | 400 for an id that does not parse, 404 for an unknown id, otherwise the scrape with html only when asked |
| Routes.GetByIdHtmlOnlyWhenAsked | ai-web-scraper-deployment/server/routes.ts:126-149 | every stored id written in decimal finds its scrape, and html is sent exactly for `includeHtml=true` |
| Storage.EmptyValid | ai-web-scraper-deployment/server/storage.ts:21-26 | the new store is valid and holds nothing |
| Storage.GetUser | ai-web-scraper-deployment/server/storage.ts:29-31 | found exactly for ids 1..n, and it is that user |
| Storage.FindUser | ai-web-scraper-deployment/server/storage.ts:34-36 | `find` returns the first user satisfying the predicate, present exactly when some user does |
| Storage.GetUserByUsername | ai-web-scraper-deployment/server/storage.ts:33-37 | found exactly when a user has the name; the result is the earliest stored user with it (names may repeat) |
| Storage.CreateUser | ai-web-scraper-deployment/server/storage.ts:39-44 | the user gets the next id and is readable under it; the other users and all scrapes are unchanged |
| Storage.GetScrape | ai-web-scraper-deployment/server/storage.ts:47-49 | found exactly for ids 1..n, and it is the scrape with that id |
| Storage.FindScrape | ai-web-scraper-deployment/server/storage.ts:52-54 | `find` returns the first scrape satisfying the predicate |
| Storage.GetScrapeByUrl | ai-web-scraper-deployment/server/storage.ts:51-55 | found exactly when the url was scraped, and it is the oldest scrape of it |
| Storage.OrDefault | ai-web-scraper-deployment/server/storage.ts:76-79 | a truthy section is kept, a falsy one replaced |
| Storage.HtmlOrNull | ai-web-scraper-deployment/server/storage.ts:80 | html kept exactly when non-empty |
| Storage.CreateScrape | ai-web-scraper-deployment/server/storage.ts:67-86 | the scrape gets the next id and the current time; falsy sections get `{}`/`[]`/null; it is appended and nothing else changes |
| Storage.CreatedSectionsTruthy | ai-web-scraper-deployment/server/storage.ts:76-79 | every stored section is truthy |
| Storage.ConsecutiveIds | ai-web-scraper-deployment/server/storage.ts:68 | two creates get consecutive ids and the first stays readable |
| Storage.SliceTo | ai-web-scraper-deployment/server/storage.ts:64 | `slice(0, end)` keeps a prefix, counting a negative end from the back |
| Storage.RecentAreNewest | ai-web-scraper-deployment/server/storage.ts:57-65 | `GetRecentScrapes`: the `limit` newest scrapes, newest first, all stored, no repeats, none left out newer than one returned |
| Storage.RecentNegativeLimit | ai-web-scraper-deployment/server/storage.ts:57-65 | a negative limit drops that many of the oldest |
| Ranking.SortDescSpec | ai-web-scraper-deployment/server/storage.ts:58-63 | the sort keeps exactly the same items, ordered by descending key, without creating repeats |
| Ranking.TopByKey | server/services/localAnalyzer.ts:204-206 | the first `n` by descending key, from the input; an item left out ranks no higher than any kept |
| Ranking.Distinct | server/services/localAnalyzer.ts:198-204 | the distinct items: each from the input, each input item present, no repeats |
| Ranking.DistinctFirstOccurrenceOrder | server/services/localAnalyzer.ts:198-204 | the distinct items come in the order of their first occurrence in the input, as object keys do |
| Ranking.SortDescStable | server/services/localAnalyzer.ts:204-205 | items with equal keys keep their input order after the sort |
| Text.Tokens | ai-web-scraper-deployment/server/services/scraper.ts:81 | the tokens are non-empty and free of whitespace |
| Text.TokensOfJoin | ai-web-scraper-deployment/server/services/scraper.ts:81 | tokenising words joined by single spaces gives the words back |
| Text.TrimEmptyIffBlank | ai-web-scraper-deployment/server/services/scraper.ts:75-76 | a text trims to empty exactly when it is all whitespace |
| Text.ParseIntOfIntToString | ai-web-scraper-deployment/server/routes.ts:128-131 | `parseInt` reads every decimal integer back |
| CsvExport.FieldRoundTrip | ai-web-scraper-deployment/client/src/utils/downloadUtils.ts:86-93 | `CsvEscape`: every escaped text reads back as itself, the delimiter after it left in place |
| CsvExport.QuotedRoundTrip | ai-web-scraper-deployment/client/src/utils/downloadUtils.ts:89-90 | a quoted field with doubled quotes reads back as the original text |
| CsvExport.PlainUnchanged | ai-web-scraper-deployment/client/src/utils/downloadUtils.ts:92 | a text without comma, quote or newline is written as it is |
| CsvExport.RecordRoundTrip | ai-web-scraper-deployment/client/src/utils/downloadUtils.ts:86-93 | a record of escaped fields reads back as its fields |
| CsvExport.CsvIsRecords | ai-web-scraper-deployment/client/src/utils/downloadUtils.ts:15-50 | `CsvContent`: the text is the data-URI prefix followed by the records, one per line, in the source's section order |
| CsvExport.SummaryRowReadsBack | ai-web-scraper-deployment/client/src/utils/downloadUtils.ts:20 | the corrected data row reads back as url, date, title and description |
| CsvExport.CommaInUrlSplitsRow | ai-web-scraper-deployment/client/src/utils/downloadUtils.ts:20 | as written, a url with a comma reads back as five fields |
| CsvExport.LinkRowReadsBack | ai-web-scraper-deployment/client/src/utils/downloadUtils.ts:27-29 | a link row reads back as url, text and type |
| CsvExport.ImageRowReadsBack | ai-web-scraper-deployment/client/src/utils/downloadUtils.ts:37-39 | an image row reads back as source, alt, the two sizes and type |
| CsvExport.ParagraphReadsBack | ai-web-scraper-deployment/client/src/utils/downloadUtils.ts:47-49 | a paragraph record reads back as the paragraph, newlines included |
| CsvExport.RecordCount | ai-web-scraper-deployment/client/src/utils/downloadUtils.ts:19-50 | three summary records, and three plus one per item for each section written; the content section is written even for an empty paragraph list |

## Left out

- The HTTP fetch (`axios.get`), the HTML parser (`cheerio.load`) and the selector engine are parameters. So are the clock, the locale date formatter, the URL parser and the OpenAI service. The OpenAI analysis itself (`analyzeWithOpenAI`) is not part of this model.
- Request validation with zod is an outcome parameter (`ScrapeRequest`). Console logging is not modelled.
- Selector evaluation is abstracted. This covers `:contains`, `.parents()`, `.closest()`, `.css()` reads and `.clone().children().remove()`. Their results are recorded as facts of the `Page`, so the model trusts the parser for them.
- Lower-casing is ASCII only. String lengths count characters, not UTF-16 code units. Both differ from JavaScript outside the ASCII and Basic Multilingual Plane ranges.
- Floating-point boundaries are not modelled. Sentiment and readability thresholds are cross-multiplied integers, proved equal to the exact rational formulas. JavaScript doubles can differ exactly at a boundary.
- The frequency objects iterate with `Object.entries`, which orders integer-like keys first. The model uses first-occurrence order, so tie order among equal counts may differ. Keywords.RankedTerms therefore states only counts and membership, not the order among ties.
- A `__proto__` word or meta name is not treated specially.
- Keywords.KeyTerms: does not model the word "constructor". The source's `wordFrequency[word] || 0` reads the inherited `Object.prototype.constructor`, so that word's count becomes a string and the sort comparator gives NaN. The order then depends on the engine. For the body "apple constructor banana" followed by four more "banana", an engine may return [apple, constructor, banana], while the model gives [banana, apple, constructor].
- Keywords.TopKeywords: does not model the word "constructor", for the same reason.
- PageInsights.CopyrightAge: covers one footer shape only, a footer starting "© YYYY". The general statement of `estimateContentAge` is EstimatedAgePriority, with CopyrightYear for the footer match.
- The routes' `setHours(getHours() - 1)` is taken as exactly one hour earlier. Daylight-saving transitions are left out, and the clock is read once per request.
- A response body from `axios` that is not a string is not modelled.
- `downloadCsv`'s `encodeURI`, the DOM link and the click (downloadUtils.ts:52-58) are left out, as are `formatDateForFilename`, `downloadJson` and `copyToClipboard`. The model stops at the CSV text.
- CsvExport.LinkRowReadsBack: assumes the link type has no comma, quote or newline, because the source writes it unescaped. The types the server produces never have one.
- CsvExport.ImageRowReadsBack: assumes the same of the image type.
- Extracted images keep the raw `width`/`height` attributes. They are parsed when the record is serialised (`Dimension`), which gives the same JSON.
- `getRecentScrapes` sorts `Date` objects. Stored times are milliseconds here, so the `instanceof Date` branch is dropped.
- Users have no route in this core. Only `MemStorage`'s user methods are modelled.

## Findings

| source | as written | input that shows it | evidently intended | confidence | as-written member | corrected member |
|---|---|---|---|---|---|---|
| ai-web-scraper-deployment/server/routes.ts:24-36 with ai-web-scraper-deployment/server/storage.ts:51-55 | the cache check looks only at the scrape `getScrapeByUrl` returns, which is the OLDEST scrape of the url | scrape "u" at time 0, again at 7,140,000 ms, then request "u" at 7,200,000 ms: the one-minute-old scrape is not served and a third scrape is made | serve a scrape of the url from the last hour, the newest one | not executed | Routes.CachedScrapeAsWritten / Routes.StaleFirstScrapeHidesFreshOne / Routes.StaleFirstScrapeHandled (`Routes.HandleScrape` with `OldestMatch`) | Routes.CachedScrape / Routes.CachedScrapeHits (`Routes.HandleScrape` with `NewestMatch`) |
| ai-web-scraper-deployment/client/src/utils/downloadUtils.ts:20 | `url` and `scrapeDate` are written without `csvEscape` | url "a,b" with no title or description: the data row reads back as five fields "a", "b", date, "", "" | escape every field of the row, as the other rows do | not executed | CsvExport.SummaryRowAsWritten / CsvExport.CommaInUrlSplitsRow | CsvExport.SummaryRow / CsvExport.SummaryRowReadsBack (used by CsvExport.CsvContent) |

=== FILE: csv_export.dfy ===
/** The CSV download of the client
    (ai-web-scraper-deployment/client/src/utils/downloadUtils.ts):
    `csvEscape` and the text `downloadCsv` builds before URI-encoding it.

    `ReadRecord` is a reader for the quoting rule `csvEscape` follows
    (fields separated by `,`, records ended by a newline, a field in double
    quotes may hold both and writes `"` as `""`); it is the partner the
    round-trip lemmas read the output back with. */
module CsvExport {
  import opened Wrappers
  import opened Text

  // ---------------------------------------------------------------- escaping

  /** `s.replace(/"/g, '""')`. */
  function DoubleQuotes(s: string): string {
    if |s| == 0 then ""
    else (if s[0] == '"' then "\"\"" else [s[0]]) + DoubleQuotes(s[1..])
  }

  /** The characters that force quoting. */
  predicate NeedsQuotes(s: string) {
    ',' in s || '"' in s || '\n' in s
  }

  /** `csvEscape(text)`: "" for an empty text, the text in quotes with its
      quotes doubled when it holds a comma, a quote or a newline, the text
      itself otherwise. */
  function CsvEscape(s: string): string {
    if s == "" then ""
    else if NeedsQuotes(s) then "\"" + DoubleQuotes(s) + "\""
    else s
  }

  /** `csvEscape` of a property that may be `undefined`. */
  function EscapeOpt(s: Option<string>): string {
    match s
    case None => ""
    case Some(t) => CsvEscape(t)
  }

  // ----------------------------------------------------------------- reading

  predicate IsDelimiter(c: char) { c == ',' || c == '\n' }

  /** An unquoted field: everything up to the next delimiter. */
  function ReadUnquoted(t: string): (r: (string, string))
    ensures r.0 + r.1 == t
  {
    if |t| == 0 || IsDelimiter(t[0]) then ("", t)
    else
      var (f, rest) := ReadUnquoted(t[1..]);
      ([t[0]] + f, rest)
  }

  /** The rest of a quoted field after its opening quote: `""` stands for
      `"`, a lone `"` ends the field. */
  function ReadQuoted(t: string): (r: (string, string))
    ensures |r.1| <= |t|
  {
    if |t| == 0 then ("", "")
    else if t[0] == '"' then
      if |t| > 1 && t[1] == '"' then
        var (f, rest) := ReadQuoted(t[2..]);
        ("\"" + f, rest)
      else ("", t[1..])
    else
      var (f, rest) := ReadQuoted(t[1..]);
      ([t[0]] + f, rest)
  }

  function ReadField(t: string): (r: (string, string))
    ensures |r.1| <= |t|
  {
    if |t| > 0 && t[0] == '"' then ReadQuoted(t[1..]) else ReadUnquoted(t)
  }

  /** The fields of one record and the text after its newline. */
  function ReadRecord(t: string): (r: (seq<string>, string))
    ensures |r.0| >= 1
    decreases |t|
  {
    var (f, rest) := ReadField(t);
    if |rest| > 0 && rest[0] == ',' then
      var (fs, after) := ReadRecord(rest[1..]);
      ([f] + fs, after)
    else if |rest| > 0 && rest[0] == '\n' then ([f], rest[1..])
    else ([f], rest)
  }

  // ------------------------------------------------------------ round trips

  lemma {:induction false} QuotedRoundTrip(s: string, rest: string)
    requires |rest| == 0 || rest[0] != '"'
    ensures ReadQuoted(DoubleQuotes(s) + "\"" + rest) == (s, rest)
  {
    if |s| > 0 {
      QuotedRoundTrip(s[1..], rest);
      var tail := DoubleQuotes(s[1..]) + "\"" + rest;
      if s[0] == '"' {
        assert DoubleQuotes(s) + "\"" + rest == "\"\"" + tail;
        assert ("\"\"" + tail)[2..] == tail;
      } else {
        assert DoubleQuotes(s) + "\"" + rest == [s[0]] + tail;
        assert ([s[0]] + tail)[1..] == tail;
      }
      assert s == [s[0]] + s[1..];
    } else {
      assert DoubleQuotes(s) + "\"" + rest == "\"" + rest;
      assert ("\"" + rest)[1..] == rest;
      assert |"\"" + rest| > 1 ==> ("\"" + rest)[1] == rest[0];
    }
  }

  lemma {:induction false} UnquotedRoundTrip(s: string, rest: string)
    requires forall i :: 0 <= i < |s| ==> !IsDelimiter(s[i])
    requires |rest| == 0 || IsDelimiter(rest[0])
    ensures ReadUnquoted(s + rest) == (s, rest)
  {
    if |s| > 0 {
      assert (s + rest)[1..] == s[1..] + rest;
      UnquotedRoundTrip(s[1..], rest);
      assert s == [s[0]] + s[1..];
    } else {
      assert s + rest == rest;
    }
  }

  /** Every escaped field reads back as the text it came from, with the
      delimiter that follows it left in place. */
  lemma FieldRoundTrip(s: string, rest: string)
    requires |rest| == 0 || IsDelimiter(rest[0])
    ensures ReadField(CsvEscape(s) + rest) == (s, rest)
  {
    if s == "" {
      UnquotedRoundTrip("", rest);
      assert CsvEscape(s) + rest == rest;
    } else if NeedsQuotes(s) {
      var t := CsvEscape(s) + rest;
      assert t == "\"" + (DoubleQuotes(s) + "\"" + rest);
      QuotedRoundTrip(s, rest);
    } else {
      assert forall i :: 0 <= i < |s| ==> !IsDelimiter(s[i]) by {
        forall i | 0 <= i < |s| ensures !IsDelimiter(s[i]) {
          assert s[i] in s;
        }
      }
      assert s[0] != '"' by { assert s[0] in s; }
      UnquotedRoundTrip(s, rest);
    }
  }

  /** Cells joined with commas. */
  function Join(cells: seq<string>): string
    requires |cells| >= 1
  {
    if |cells| == 1 then cells[0] else cells[0] + "," + Join(cells[1..])
  }

  function EscapeAll(fields: seq<string>): (r: seq<string>)
    ensures |r| == |fields|
  {
    if |fields| == 0 then [] else [CsvEscape(fields[0])] + EscapeAll(fields[1..])
  }

  /** A record of escaped fields reads back as its fields. */
  lemma {:induction false} RecordRoundTrip(fields: seq<string>, rest: string)
    requires |fields| >= 1
    ensures ReadRecord(Join(EscapeAll(fields)) + "\n" + rest) == (fields, rest)
  {
    var cells := EscapeAll(fields);
    var t := Join(cells) + "\n" + rest;
    assert cells[0] == CsvEscape(fields[0]);
    if |fields| == 1 {
      assert t == CsvEscape(fields[0]) + ("\n" + rest);
      FieldRoundTrip(fields[0], "\n" + rest);
      assert ("\n" + rest)[1..] == rest;
      assert fields == [fields[0]];
    } else {
      assert cells[1..] == EscapeAll(fields[1..]);
      var tail := Join(EscapeAll(fields[1..])) + "\n" + rest;
      assert t == CsvEscape(fields[0]) + ("," + tail);
      FieldRoundTrip(fields[0], "," + tail);
      assert ("," + tail)[1..] == tail;
      RecordRoundTrip(fields[1..], rest);
      assert fields == [fields[0]] + fields[1..];
    }
  }

  lemma Join3(a: string, b: string, c: string)
    ensures Join([a, b, c]) == a + "," + b + "," + c
  {
    assert [a, b, c][1..] == [b, c];
    assert [b, c][1..] == [c];
    assert Join([c]) == c;
    assert Join([b, c]) == b + "," + c;
  }

  lemma Join4(a: string, b: string, c: string, d: string)
    ensures Join([a, b, c, d]) == a + "," + b + "," + c + "," + d
  {
    assert [a, b, c, d][1..] == [b, c, d];
    Join3(b, c, d);
  }

  lemma Join5(a: string, b: string, c: string, d: string, e: string)
    ensures Join([a, b, c, d, e]) == a + "," + b + "," + c + "," + d + "," + e
  {
    assert [a, b, c, d, e][1..] == [b, c, d, e];
    Join4(b, c, d, e);
  }

  lemma EscapeAll3(a: string, b: string, c: string)
    ensures EscapeAll([a, b, c]) == [CsvEscape(a), CsvEscape(b), CsvEscape(c)]
  {
    assert [a, b, c][1..] == [b, c];
    assert [b, c][1..] == [c];
    assert [c][1..] == [];
    assert EscapeAll([c]) == [CsvEscape(c)] + [];
    assert EscapeAll([b, c]) == [CsvEscape(b)] + [CsvEscape(c)];
  }

  lemma EscapeAll4(a: string, b: string, c: string, d: string)
    ensures EscapeAll([a, b, c, d]) == [CsvEscape(a), CsvEscape(b), CsvEscape(c), CsvEscape(d)]
  {
    assert [a, b, c, d][1..] == [b, c, d];
    EscapeAll3(b, c, d);
  }

  lemma EscapeAll5(a: string, b: string, c: string, d: string, e: string)
    ensures EscapeAll([a, b, c, d, e]) == [CsvEscape(a), CsvEscape(b), CsvEscape(c), CsvEscape(d), CsvEscape(e)]
  {
    assert [a, b, c, d, e][1..] == [b, c, d, e];
    EscapeAll4(b, c, d, e);
  }

  /** A text without a comma, quote or newline is written as it is. */
  lemma PlainUnchanged(s: string)
    requires !NeedsQuotes(s)
    ensures CsvEscape(s) == s
  {
  }

  // ------------------------------------------------------------ the document

  datatype CsvLink = CsvLink(url: string, text: string, linkType: string)

  datatype CsvImage = CsvImage(src: string, alt: string, width: Option<int>, height: Option<int>, imageType: string)

  /** The fields of the scrape `downloadCsv` reads; `None` for a missing
      title, description or list. */
  datatype CsvData = CsvData(
    url: string,
    scrapeDate: string,
    title: Option<string>,
    description: Option<string>,
    links: Option<seq<CsvLink>>,
    images: Option<seq<CsvImage>>,
    paragraphs: Option<seq<string>>)

  const DataUriPrefix := "data:text/csv;charset=utf-8,"

  const HeaderRecord := "URL,Scrape Date,Title,Description"

  /** `${image.width || ''}`: empty for a missing or zero size. */
  function SizeText(n: Option<int>): string {
    if n.Some? && n.value != 0 then IntToString(n.value) else ""
  }

  /** The data row as written: url and date are inserted unescaped. */
  function SummaryRowAsWritten(d: CsvData): string {
    d.url + "," + d.scrapeDate + "," + EscapeOpt(d.title) + "," + EscapeOpt(d.description)
  }

  /** The data row with every field escaped. */
  function SummaryRow(d: CsvData): string {
    CsvEscape(d.url) + "," + CsvEscape(d.scrapeDate) + "," + EscapeOpt(d.title) + "," + EscapeOpt(d.description)
  }

  function LinkRow(l: CsvLink): string {
    CsvEscape(l.url) + "," + CsvEscape(l.text) + "," + l.linkType
  }

  function ImageRow(i: CsvImage): string {
    CsvEscape(i.src) + "," + CsvEscape(i.alt) + "," + SizeText(i.width) + "," + SizeText(i.height) + "," + i.imageType
  }

  function LinkLines(ls: seq<CsvLink>): string {
    if |ls| == 0 then "" else LinkRow(ls[0]) + "\n" + LinkLines(ls[1..])
  }

  function ImageLines(imgs: seq<CsvImage>): string {
    if |imgs| == 0 then "" else ImageRow(imgs[0]) + "\n" + ImageLines(imgs[1..])
  }

  function ParagraphLines(ps: seq<string>): string {
    if |ps| == 0 then "" else CsvEscape(ps[0]) + "\n" + ParagraphLines(ps[1..])
  }

  predicate HasLinks(d: CsvData) { d.links.Some? && |d.links.value| > 0 }
  predicate HasImages(d: CsvData) { d.images.Some? && |d.images.value| > 0 }

  function LinksText(d: CsvData): string {
    if HasLinks(d) then "\nLINKS\n" + "URL,Text,Type\n" + LinkLines(d.links.value) else ""
  }

  function ImagesText(d: CsvData): string {
    if HasImages(d) then "\nIMAGES\n" + "Source,Alt Text,Width,Height,Type\n" + ImageLines(d.images.value) else ""
  }

  /** Written whenever the paragraph list exists, even when it is empty. */
  function ContentText(d: CsvData): string {
    if d.paragraphs.Some? then "\nCONTENT\n" + "Paragraphs\n" + ParagraphLines(d.paragraphs.value) else ""
  }

  /** The text `downloadCsv` builds, appended in the source's order around a
      given data row. */
  function CsvWith(d: CsvData, summary: string): string {
    DataUriPrefix + SummaryText(summary) + LinksText(d) + ImagesText(d) + ContentText(d)
  }

  /** The column header and the data row, then a blank line. */
  function SummaryText(summary: string): string {
    HeaderRecord + "\n" + summary + "\n\n"
  }

  function CsvContentAsWritten(d: CsvData): string {
    CsvWith(d, SummaryRowAsWritten(d))
  }

  function CsvContent(d: CsvData): string {
    CsvWith(d, SummaryRow(d))
  }

  // --------------------------------------------------------------- records

  /** Each record followed by a newline. */
  function Lines(rs: seq<string>): string {
    if |rs| == 0 then "" else rs[0] + "\n" + Lines(rs[1..])
  }

  function LinkRecords(ls: seq<CsvLink>): (r: seq<string>)
    ensures |r| == |ls| && forall i :: 0 <= i < |ls| ==> r[i] == LinkRow(ls[i])
  {
    seq(|ls|, i requires 0 <= i < |ls| => LinkRow(ls[i]))
  }

  function ImageRecords(imgs: seq<CsvImage>): (r: seq<string>)
    ensures |r| == |imgs| && forall i :: 0 <= i < |imgs| ==> r[i] == ImageRow(imgs[i])
  {
    seq(|imgs|, i requires 0 <= i < |imgs| => ImageRow(imgs[i]))
  }

  function ParagraphRecords(ps: seq<string>): (r: seq<string>)
    ensures |r| == |ps| && forall i :: 0 <= i < |ps| ==> r[i] == CsvEscape(ps[i])
  {
    seq(|ps|, i requires 0 <= i < |ps| => CsvEscape(ps[i]))
  }

  function LinksRecords(d: CsvData): seq<string> {
    if HasLinks(d) then ["", "LINKS", "URL,Text,Type"] + LinkRecords(d.links.value) else []
  }

  function ImagesRecords(d: CsvData): seq<string> {
    if HasImages(d) then ["", "IMAGES", "Source,Alt Text,Width,Height,Type"] + ImageRecords(d.images.value) else []
  }

  function ContentRecords(d: CsvData): seq<string> {
    if d.paragraphs.Some? then ["", "CONTENT", "Paragraphs"] + ParagraphRecords(d.paragraphs.value) else []
  }

  /** The document as a list of records (a blank record opens each
      section). */
  function Records(d: CsvData, summary: string): seq<string> {
    [HeaderRecord, summary, ""] + LinksRecords(d) + ImagesRecords(d) + ContentRecords(d)
  }

  lemma {:induction false} LinesAppend(a: seq<string>, b: seq<string>)
    ensures Lines(a + b) == Lines(a) + Lines(b)
  {
    if |a| > 0 {
      assert (a + b)[1..] == a[1..] + b;
      LinesAppend(a[1..], b);
    } else {
      assert a + b == b;
    }
  }

  lemma {:induction false} LinkLinesRecords(ls: seq<CsvLink>)
    ensures LinkLines(ls) == Lines(LinkRecords(ls))
  {
    if |ls| > 0 {
      LinkLinesRecords(ls[1..]);
      assert LinkRecords(ls)[1..] == LinkRecords(ls[1..]);
    }
  }

  lemma {:induction false} ImageLinesRecords(imgs: seq<CsvImage>)
    ensures ImageLines(imgs) == Lines(ImageRecords(imgs))
  {
    if |imgs| > 0 {
      ImageLinesRecords(imgs[1..]);
      assert ImageRecords(imgs)[1..] == ImageRecords(imgs[1..]);
    }
  }

  lemma {:induction false} ParagraphLinesRecords(ps: seq<string>)
    ensures ParagraphLines(ps) == Lines(ParagraphRecords(ps))
  {
    if |ps| > 0 {
      ParagraphLinesRecords(ps[1..]);
      assert ParagraphRecords(ps)[1..] == ParagraphRecords(ps[1..]);
    }
  }

  lemma Lines3(a: string, b: string, c: string)
    ensures Lines([a, b, c]) == a + "\n" + b + "\n" + c + "\n"
  {
    assert [a, b, c][1..] == [b, c];
    assert [b, c][1..] == [c];
    assert [c][1..] == [];
    assert Lines([c]) == c + "\n";
    assert Lines([b, c]) == b + "\n" + (c + "\n");
  }

  lemma SectionLines(title: string, header: string, body: seq<string>)
    ensures Lines(["", title, header] + body) == "\n" + title + "\n" + header + "\n" + Lines(body)
  {
    LinesAppend(["", title, header], body);
    Lines3("", title, header);
  }

  lemma LinksTextRecords(d: CsvData)
    ensures LinksText(d) == Lines(LinksRecords(d))
  {
    if HasLinks(d) {
      SectionLines("LINKS", "URL,Text,Type", LinkRecords(d.links.value));
      LinkLinesRecords(d.links.value);
    }
  }

  lemma ImagesTextRecords(d: CsvData)
    ensures ImagesText(d) == Lines(ImagesRecords(d))
  {
    if HasImages(d) {
      SectionLines("IMAGES", "Source,Alt Text,Width,Height,Type", ImageRecords(d.images.value));
      ImageLinesRecords(d.images.value);
    }
  }

  lemma ContentTextRecords(d: CsvData)
    ensures ContentText(d) == Lines(ContentRecords(d))
  {
    if d.paragraphs.Some? {
      SectionLines("CONTENT", "Paragraphs", ParagraphRecords(d.paragraphs.value));
      ParagraphLinesRecords(d.paragraphs.value);
    }
  }

  lemma Lines4(a: seq<string>, b: seq<string>, c: seq<string>, e: seq<string>)
    ensures Lines(a + b + c + e) == Lines(a) + Lines(b) + Lines(c) + Lines(e)
  {
    LinesAppend(a + b + c, e);
    LinesAppend(a + b, c);
    LinesAppend(a, b);
  }

  lemma SummaryLines(summary: string)
    ensures Lines([HeaderRecord, summary, ""]) == SummaryText(summary)
  {
    Lines3(HeaderRecord, summary, "");
    assert "\n" + "" + "\n" == "\n\n";
  }

  lemma Regroup<T>(p: seq<T>, a: seq<T>, b: seq<T>, c: seq<T>, e: seq<T>)
    ensures p + a + b + c + e == p + (a + b + c + e)
  {
  }

  /** The text is the records, one per line, after the data URI prefix. */
  lemma CsvIsRecords(d: CsvData, summary: string)
    ensures CsvWith(d, summary) == DataUriPrefix + Lines(Records(d, summary))
  {
    var head: seq<string> := [HeaderRecord, summary, ""];
    var ls, imgs, ps := LinksRecords(d), ImagesRecords(d), ContentRecords(d);
    assert Records(d, summary) == head + ls + imgs + ps;
    Lines4(head, ls, imgs, ps);
    SummaryLines(summary);
    LinksTextRecords(d);
    ImagesTextRecords(d);
    ContentTextRecords(d);
    Regroup(DataUriPrefix, SummaryText(summary), LinksText(d), ImagesText(d), ContentText(d));
  }

  /** The document has the three summary records, then three more records
      plus one per item for each section it writes. */
  lemma RecordCount(d: CsvData, summary: string)
    ensures |Records(d, summary)|
            == 3 + (if HasLinks(d) then 3 + |d.links.value| else 0)
                 + (if HasImages(d) then 3 + |d.images.value| else 0)
                 + (if d.paragraphs.Some? then 3 + |d.paragraphs.value| else 0)
  {
  }

  /** With every field escaped, the data row reads back as exactly the four
      values, a missing title or description as "". */
  lemma SummaryRowReadsBack(d: CsvData, rest: string)
    ensures ReadRecord(SummaryRow(d) + "\n" + rest)
            == ([d.url, d.scrapeDate, d.title.GetOr(""), d.description.GetOr("")], rest)
  {
    var title, description := d.title.GetOr(""), d.description.GetOr("");
    assert EscapeOpt(d.title) == CsvEscape(title);
    assert EscapeOpt(d.description) == CsvEscape(description);
    EscapeAll4(d.url, d.scrapeDate, title, description);
    Join4(CsvEscape(d.url), CsvEscape(d.scrapeDate), CsvEscape(title), CsvEscape(description));
    RecordRoundTrip([d.url, d.scrapeDate, title, description], rest);
  }

  /** As written, a url holding a comma splits the data row: it reads back as
      five fields, the url cut in two. */
  lemma CommaInUrlSplitsRow(a: string, b: string, date: string, rest: string)
    requires !NeedsQuotes(a) && !NeedsQuotes(b) && !NeedsQuotes(date)
    ensures var d := CsvData(a + "," + b, date, None, None, None, None, None);
            ReadRecord(SummaryRowAsWritten(d) + "\n" + rest) == ([a, b, date, "", ""], rest)
  {
    var d := CsvData(a + "," + b, date, None, None, None, None, None);
    PlainUnchanged(a);
    PlainUnchanged(b);
    PlainUnchanged(date);
    EscapeAll5(a, b, date, "", "");
    Join5(a, b, date, "", "");
    assert SummaryRowAsWritten(d) == a + "," + b + "," + date + "," + "" + "," + "";
    RecordRoundTrip([a, b, date, "", ""], rest);
  }

  /** A link row reads back as url, text and type, for a type without a
      delimiter (`internal`, `external`, `unknown`). */
  lemma LinkRowReadsBack(l: CsvLink, rest: string)
    requires !NeedsQuotes(l.linkType)
    ensures ReadRecord(LinkRow(l) + "\n" + rest) == ([l.url, l.text, l.linkType], rest)
  {
    PlainUnchanged(l.linkType);
    EscapeAll3(l.url, l.text, l.linkType);
    Join3(CsvEscape(l.url), CsvEscape(l.text), l.linkType);
    RecordRoundTrip([l.url, l.text, l.linkType], rest);
  }

  lemma NoQuotesInNumeral(n: int)
    ensures !NeedsQuotes(SizeText(Some(n)))
  {
    var s := SizeText(Some(n));
    if n != 0 {
      var m: nat := if n < 0 then -n else n;
      var digits := NatToString(m);
      assert forall i :: 0 <= i < |s| ==> s[i] == '-' || IsAsciiDigit(s[i]) by {
        if n < 0 {
          forall i | 0 <= i < |s| ensures s[i] == '-' || IsAsciiDigit(s[i]) {
            if i > 0 { assert s[i] == digits[i - 1]; }
          }
        }
      }
    }
  }

  /** An image row reads back as source, alt text, the two sizes and the
      type. */
  lemma ImageRowReadsBack(img: CsvImage, rest: string)
    requires !NeedsQuotes(img.imageType)
    ensures ReadRecord(ImageRow(img) + "\n" + rest)
            == ([img.src, img.alt, SizeText(img.width), SizeText(img.height), img.imageType], rest)
  {
    var w, h := SizeText(img.width), SizeText(img.height);
    if img.width.Some? { NoQuotesInNumeral(img.width.value); }
    if img.height.Some? { NoQuotesInNumeral(img.height.value); }
    PlainUnchanged(w);
    PlainUnchanged(h);
    PlainUnchanged(img.imageType);
    EscapeAll5(img.src, img.alt, w, h, img.imageType);
    Join5(CsvEscape(img.src), CsvEscape(img.alt), w, h, img.imageType);
    RecordRoundTrip([img.src, img.alt, w, h, img.imageType], rest);
  }

  /** A paragraph record reads back as the paragraph, newlines and all. */
  lemma ParagraphReadsBack(p: string, rest: string)
    ensures ReadRecord(CsvEscape(p) + "\n" + rest) == ([p], rest)
  {
    assert EscapeAll([p]) == [CsvEscape(p)];
    RecordRoundTrip([p], rest);
  }
}

=== FILE: document.dfy ===
/** The parsed page, as the facts the extractor and the analyzer read from it.
    Selector evaluation (`:contains`, `.parents()`, inline `.css()` reads) is
    not modelled: its outcome is recorded here as texts, counts and flags. */
module Document {
  import opened Wrappers
  import opened Text

  type HeadingLevel = x: int | 1 <= x <= 6 witness 1

  /** A `<meta>` element's `name`, `property` and `content` attributes. */
  datatype MetaTag = MetaTag(name: Option<string>, property: Option<string>, content: Option<string>)

  /** A `<link>` element's `rel` and `href` attributes. */
  datatype LinkTag = LinkTag(rel: Option<string>, href: Option<string>)

  /** An `h1`..`h6` element: the digit of its tag name and its raw text. */
  datatype HeadingNode = HeadingNode(level: HeadingLevel, text: string)

  /** A `ul`/`ol` element: how many `li` children it has, and the raw texts of
      all its `li` descendants in document order. */
  datatype ListNode = ListNode(childItems: nat, itemTexts: seq<string>)

  /** An `a` element. */
  datatype Anchor = Anchor(
    href: Option<string>,
    text: string,
    rel: Option<string>,
    target: Option<string>,
    inNavOrHeader: bool,      // has a `nav` or `header` ancestor
    hasButtonClass: bool,     // class `button`
    displayBlock: bool,       // inline style `display` is `block`
    hasPadding: bool,         // inline style sets `padding`
    hasBackgroundColor: bool, // inline style sets `background-color`
    inFooter: bool,           // has a `footer` ancestor
    inContentArea: bool,      // has an `article`, `main`, `.content` or `#content` ancestor
    containsImage: bool)      // has an `img` descendant

  /** An `img` element. */
  datatype Image = Image(
    src: Option<string>,
    alt: Option<string>,
    width: Option<string>,
    height: Option<string>,
    inProductItem: bool,        // ancestor whose `itemtype` contains "Product"
    inProductClass: bool,       // `.product` ancestor
    inHeader: bool,             // `header` ancestor
    parentHeroClass: bool,      // parent has class `hero`
    hasBannerClass: bool,       // class `banner`
    inBannerArea: bool,         // `.banner`, `.hero` or `.jumbotron` ancestor
    hasIconClass: bool,         // class `icon`
    parentBackgroundImage: bool,// parent's inline style sets `background-image`
    parentZIndexMinusOne: bool, // parent's inline `z-index` is exactly "-1"
    inContentArea: bool,        // `article`, `.content`, `#content` or `main` ancestor
    inParagraphOrFigure: bool,  // `p` or `figure` ancestor
    hasLogoClass: bool,         // class `logo`
    inHomeLink: bool,           // nearest enclosing `a` has `href` exactly "/"
    hasAvatarClass: bool,       // class `avatar`
    hasProfileClass: bool,      // class `profile`
    inFooter: bool,             // `footer` ancestor
    inSidebar: bool,            // `aside` or `.sidebar` ancestor
    inArticle: bool,            // `article` ancestor
    inNav: bool,                // `nav` ancestor
    prevHeadingOrParaText: string, // text of the previous sibling if it is a `p` or `h1`..`h6`, else ""
    nextHeadingOrParaText: string, // likewise for the next sibling
    parentHasHeading: bool,     // the parent contains an `h1`..`h6`
    parentIsAnchor: bool,       // the parent is an `a`
    parentOwnText: string)      // the parent's text without its child elements

  /** Numbers of elements matching the selectors the content-type and
      quality rules count. */
  datatype Counts = Counts(
    productClass: nat,       // `.product`
    productId: nat,          // `#product`
    productItemtype: nat,    // `[itemtype*="Product"]`
    buyButtons: nat,         // `button:contains("Buy")`
    articles: nat,           // `article`
    postClass: nat,          // `.post`
    blogClass: nat,          // `.blog`
    articleItemtype: nat,    // `[itemtype*="Article"]`
    forms: nat,              // `form`
    emailTypeInputs: nat,    // `input[type="email"]`
    emailNamedInputs: nat,   // `input[name*="email"]`
    textareas: nat,          // `textarea`
    messageNamedInputs: nat, // `input[name*="message"]`
    navs: nat,               // `nav`
    sections: nat,           // `section`
    aboutClass: nat,         // `.about`
    aboutId: nat,            // `#about`
    videoEmbeds: nat,        // `video, iframe[src*="youtube"]`
    italics: nat)            // `em, i`

  datatype Page = Page(
    lang: Option<string>,       // `html[lang]`
    bodyId: Option<string>,
    bodyClass: Option<string>,
    bodyText: string,           // `$('body').text()`
    titles: seq<string>,        // text of each `title`
    metas: seq<MetaTag>,
    linkTags: seq<LinkTag>,
    headings: seq<HeadingNode>, // every `h1`..`h6`, document order
    paragraphs: seq<string>,    // raw text of every `p`, document order
    boldTexts: seq<string>,     // raw text of every `strong`/`b`
    lists: seq<ListNode>,       // every `ul`/`ol`
    times: seq<Option<string>>, // the `datetime` attribute of every `time`
    footerText: string,         // `$('footer').text()`
    anchors: seq<Anchor>,
    images: seq<Image>,
    counts: Counts)

  /** `$('title').text()`: the texts of all title elements, concatenated. */
  function TitleText(p: Page): string {
    Concat(p.titles)
  }

  /** `$('h1').first().text()`, "" when there is no `h1`. */
  function FirstH1Text(hs: seq<HeadingNode>): string {
    if |hs| == 0 then "" else if hs[0].level == 1 then hs[0].text else FirstH1Text(hs[1..])
  }

  /** `$('meta[name="<n>"]').attr('content')`: the content of the first meta
      tag so named (missing if that tag has none). */
  function MetaByName(ms: seq<MetaTag>, n: string): Option<string> {
    if |ms| == 0 then None
    else if ms[0].name == Some(n) then ms[0].content
    else MetaByName(ms[1..], n)
  }

  /** `$('meta[property="<n>"]').attr('content')`. */
  function MetaByProperty(ms: seq<MetaTag>, n: string): Option<string> {
    if |ms| == 0 then None
    else if ms[0].property == Some(n) then ms[0].content
    else MetaByProperty(ms[1..], n)
  }

  /** `$('link[rel="<rel>"]').attr('href')`. */
  function LinkHrefByRel(ls: seq<LinkTag>, rel: string): Option<string> {
    if |ls| == 0 then None
    else if ls[0].rel == Some(rel) then ls[0].href
    else LinkHrefByRel(ls[1..], rel)
  }

  /** `$('time[datetime]').first().attr('datetime')`. */
  function FirstDatetime(ts: seq<Option<string>>): Option<string> {
    if |ts| == 0 then None else if ts[0].Some? then ts[0] else FirstDatetime(ts[1..])
  }

  /** An attribute that is present and non-empty, i.e. truthy. */
  predicate Given(a: Option<string>) { a.Some? && a.value != "" }

  /** `attr(...) || fallback`: a missing or empty attribute gives `fallback`. */
  function AttrOr(a: Option<string>, fallback: string): (r: string)
    ensures Given(a) ==> r == a.value
    ensures !Given(a) ==> r == fallback
  {
    match a
    case Some(v) => if v != "" then v else fallback
    case None => fallback
  }

  /** `attr(...) || null`. */
  function AttrOrNull(a: Option<string>): (r: Option<string>)
    ensures r.Some? ==> r.value != ""
  {
    match a
    case Some(v) => if v != "" then Some(v) else None
    case None => None
  }

  /** `parseInt(attr || '0') || null`: the numeric value of a width/height
      attribute, missing when it does not parse or is zero. */
  function Dimension(a: Option<string>): (r: Option<int>)
    ensures r.Some? ==> r.value != 0
    ensures r.Some? <==> ParseInt(AttrOr(a, "0")).Some? && ParseInt(AttrOr(a, "0")).value != 0
  {
    match ParseInt(AttrOr(a, "0"))
    case Some(n) => if n != 0 then Some(n) else None
    case None => None
  }

  /** Number of headings of level 1 to 3 (`$('h1, h2, h3').length`). */
  function UpperHeadingCount(hs: seq<HeadingNode>): nat {
    if |hs| == 0 then 0 else (if hs[0].level <= 3 then 1 else 0) + UpperHeadingCount(hs[1..])
  }

  /** Number of anchors whose `href` starts with "http" (`$('a[href^="http"]').length`). */
  function AbsoluteLinkCount(as_: seq<Anchor>): nat {
    if |as_| == 0 then 0
    else (if as_[0].href.Some? && StartsWith(as_[0].href.value, "http") then 1 else 0)
         + AbsoluteLinkCount(as_[1..])
  }

  /** Number of strings containing `part` (`$('sel:contains("part")').length`). */
  function CountContaining(ss: seq<string>, part: string): nat {
    if |ss| == 0 then 0 else (if Contains(ss[0], part) then 1 else 0) + CountContaining(ss[1..], part)
  }

  /** Texts of the level-1 headings. */
  function H1Texts(hs: seq<HeadingNode>): seq<string> {
    if |hs| == 0 then [] else (if hs[0].level == 1 then [hs[0].text] else []) + H1Texts(hs[1..])
  }

  /** `$(el).attr('href') || ''` is non-empty. */
  predicate HasHref(a: Anchor) { a.href.Some? && a.href.value != "" }

  /** `$(el).attr('src') || ''` is non-empty. */
  predicate HasSrc(img: Image) { img.src.Some? && img.src.value != "" }

  /** The non-empty `href` values of the anchors, in document order. */
  function Hrefs(anchors: seq<Anchor>): seq<string> {
    if |anchors| == 0 then []
    else if anchors[0].href.Some? && anchors[0].href.value != "" then [anchors[0].href.value] + Hrefs(anchors[1..])
    else Hrefs(anchors[1..])
  }

  /** The non-empty `src` values of the images, in document order. */
  function Srcs(images: seq<Image>): seq<string> {
    if |images| == 0 then []
    else if images[0].src.Some? && images[0].src.value != "" then [images[0].src.value] + Srcs(images[1..])
    else Srcs(images[1..])
  }
}

=== FILE: extractor.dfy ===
/** The extraction half of `scrapeWebsite`
    (ai-web-scraper-deployment/server/services/scraper.ts): metadata with the
    `other` meta map, headings, paragraphs and reading statistics, links typed
    internal/external, and images typed by file extension. */
module Extractor {
  import opened Wrappers
  import opened Text
  import opened JsonValue
  import opened Document

  // ------------------------------------------------------------------ metadata

  /** `$(el).attr('name') || $(el).attr('property')`, "" when neither is set. */
  function MetaKey(m: MetaTag): string {
    AttrOr(m.name, AttrOr(m.property, ""))
  }

  function MetaContent(m: MetaTag): string {
    AttrOr(m.content, "")
  }

  /** A meta tag that goes into `other`: a key and a content, and the key is
      not an Open Graph or Twitter name. */
  predicate InOther(m: MetaTag) {
    MetaKey(m) != "" && MetaContent(m) != ""
    && !StartsWith(MetaKey(m), "og:") && !StartsWith(MetaKey(m), "twitter:")
  }

  /** The map built by visiting `xs` in order and, for each item `keep`
      accepts, setting `key(x)` to `val(x)`: later items overwrite earlier
      ones with the same key. */
  function Assign<T>(xs: seq<T>, keep: T -> bool, key: T -> string, val: T -> string): map<string, string> {
    if |xs| == 0 then map[]
    else
      var prev := Assign(xs[..|xs| - 1], keep, key, val);
      var last := xs[|xs| - 1];
      if keep(last) then prev[key(last) := val(last)] else prev
  }

  /** The keys are exactly those of the accepted items. */
  lemma {:induction false} AssignKeys<T>(xs: seq<T>, keep: T -> bool, key: T -> string, val: T -> string)
    ensures forall k :: k in Assign(xs, keep, key, val) <==> exists i :: 0 <= i < |xs| && keep(xs[i]) && key(xs[i]) == k
  {
    if |xs| > 0 {
      var prefix := xs[..|xs| - 1];
      AssignKeys(prefix, keep, key, val);
      assert forall i :: 0 <= i < |prefix| ==> prefix[i] == xs[i];
    }
  }

  /** Each key holds the value of the last accepted item with that key. */
  lemma {:induction false} AssignLastWins<T>(xs: seq<T>, keep: T -> bool, key: T -> string, val: T -> string, k: string)
    requires k in Assign(xs, keep, key, val)
    ensures exists i :: 0 <= i < |xs| && keep(xs[i]) && key(xs[i]) == k
                        && Assign(xs, keep, key, val)[k] == val(xs[i])
                        && forall j :: i < j < |xs| && keep(xs[j]) ==> key(xs[j]) != k
  {
    var prefix := xs[..|xs| - 1];
    var last := xs[|xs| - 1];
    var prev := Assign(prefix, keep, key, val);
    assert Assign(xs, keep, key, val) == if keep(last) then prev[key(last) := val(last)] else prev;
    if keep(last) && key(last) == k {
      assert Assign(xs, keep, key, val)[k] == val(xs[|xs| - 1]);
    } else {
      assert k in prev && Assign(xs, keep, key, val)[k] == prev[k];
      AssignLastWins(prefix, keep, key, val, k);
      var i :| 0 <= i < |prefix| && keep(prefix[i]) && key(prefix[i]) == k
               && prev[k] == val(prefix[i])
               && forall j :: i < j < |prefix| && keep(prefix[j]) ==> key(prefix[j]) != k;
      assert prefix[i] == xs[i];
      forall j | i < j < |xs| && keep(xs[j]) ensures key(xs[j]) != k {
        if j < |prefix| { assert prefix[j] == xs[j]; }
      }
    }
  }

  /** `result.metadata.other`. */
  function OtherMeta(ms: seq<MetaTag>): map<string, string> {
    Assign(ms, InOther, MetaKey, MetaContent)
  }

  /** `other` holds exactly the keys of the qualifying tags, each with the
      content of the last qualifying tag that has it. */
  lemma OtherMetaLastWins(ms: seq<MetaTag>)
    ensures forall k :: k in OtherMeta(ms) <==> exists i :: 0 <= i < |ms| && InOther(ms[i]) && MetaKey(ms[i]) == k
    ensures forall k :: k in OtherMeta(ms) ==>
              exists i :: 0 <= i < |ms| && InOther(ms[i]) && MetaKey(ms[i]) == k
                          && OtherMeta(ms)[k] == MetaContent(ms[i])
                          && forall j :: i < j < |ms| && InOther(ms[j]) ==> MetaKey(ms[j]) != k
  {
    AssignKeys(ms, InOther, MetaKey, MetaContent);
    forall k | k in OtherMeta(ms)
      ensures exists i :: 0 <= i < |ms| && InOther(ms[i]) && MetaKey(ms[i]) == k
                          && OtherMeta(ms)[k] == MetaContent(ms[i])
                          && forall j :: i < j < |ms| && InOther(ms[j]) ==> MetaKey(ms[j]) != k
    {
      AssignLastWins(ms, InOther, MetaKey, MetaContent, k);
    }
  }

  function OtherJson(other: map<string, string>): (r: Obj)
    ensures r.Keys == other.Keys
    ensures forall k :: k in other ==> r[k] == JStr(other[k])
  {
    map k | k in other :: JStr(other[k])
  }

  /** `result.metadata` when metadata parsing is on. */
  function ExtractMetadata(p: Page, url: string): (r: Obj)
    ensures r.Keys == {"title", "description", "canonical", "language", "favicon", "openGraph", "twitter", "other"}
    ensures r["canonical"] == JStr(AttrOr(LinkHrefByRel(p.linkTags, "canonical"), url))
    ensures r["title"] == JStr(TitleText(p))
    ensures var d := MetaByName(p.metas, "description");
            r["description"] == JStr(if Given(d) then d.value else "")
    ensures r["language"] == JStr(if Given(p.lang) then p.lang.value else "")
    ensures var icon := LinkHrefByRel(p.linkTags, "icon");
            r["favicon"] == JStr(if Given(icon) then icon.value else "/favicon.ico")
    ensures r["openGraph"].JObj? && r["openGraph"].fields.Keys == {"title", "description", "image", "url", "type"}
    ensures r["twitter"].JObj? && r["twitter"].fields.Keys == {"card", "site", "creator"}
    ensures r["other"] == JObj(OtherJson(OtherMeta(p.metas)))
  {
    map[
      "title" := JStr(TitleText(p)),
      "description" := JStr(AttrOr(MetaByName(p.metas, "description"), "")),
      "canonical" := JStr(AttrOr(LinkHrefByRel(p.linkTags, "canonical"), url)),
      "language" := JStr(AttrOr(p.lang, "")),
      "favicon" := JStr(AttrOr(LinkHrefByRel(p.linkTags, "icon"), "/favicon.ico")),
      "openGraph" := JObj(map[
        "title" := JStr(AttrOr(MetaByProperty(p.metas, "og:title"), "")),
        "description" := JStr(AttrOr(MetaByProperty(p.metas, "og:description"), "")),
        "image" := StrOrNull(AttrOrNull(MetaByProperty(p.metas, "og:image"))),
        "url" := JStr(AttrOr(MetaByProperty(p.metas, "og:url"), "")),
        "type" := JStr(AttrOr(MetaByProperty(p.metas, "og:type"), ""))]),
      "twitter" := JObj(map[
        "card" := JStr(AttrOr(MetaByName(p.metas, "twitter:card"), "")),
        "site" := StrOrNull(AttrOrNull(MetaByName(p.metas, "twitter:site"))),
        "creator" := StrOrNull(AttrOrNull(MetaByName(p.metas, "twitter:creator")))]),
      "other" := JObj(OtherJson(OtherMeta(p.metas)))]
  }

  /** Two tags with the same key: the later one's content is kept. */
  lemma {:induction false} OtherLaterWins(ms: seq<MetaTag>, a: MetaTag, b: MetaTag)
    requires InOther(a) && InOther(b) && MetaKey(a) == MetaKey(b)
    ensures OtherMeta(ms + [a, b]) == OtherMeta(ms)[MetaKey(a) := MetaContent(b)]
  {
    var s := ms + [a, b];
    var t := ms + [a];
    assert s[..|s| - 1] == t && s[|s| - 1] == b;
    assert t[..|t| - 1] == ms && t[|t| - 1] == a;
    assert OtherMeta(t) == OtherMeta(ms)[MetaKey(a) := MetaContent(a)];
    assert OtherMeta(s) == OtherMeta(t)[MetaKey(b) := MetaContent(b)];
  }

  // ------------------------------------------------------------------- content

  datatype HeadingOut = HeadingOut(tag: string, text: string, level: int)

  datatype ExtractedContent = ExtractedContent(
    headings: seq<HeadingOut>,
    paragraphs: seq<string>,
    wordCount: nat,
    readingTimeMinutes: real)

  /** The tag name of a heading, `h1` .. `h6`. */
  function HeadingTag(level: HeadingLevel): string {
    "h" + [DigitChar(level)]
  }

  /** `{ type, text: trim(text), level: parseInt(type.substring(1)) }`: the
      level read back from the tag name is the heading's own level. */
  function HeadingOf(h: HeadingNode): (r: HeadingOut)
    ensures r.tag == "h" + [DigitChar(h.level)]
    ensures r.text == Trim(h.text)
    ensures r.level == h.level as int
  {
    var tag := HeadingTag(h.level);
    HeadingLevelParses(h.level);
    HeadingOut(tag, Trim(h.text), ParseInt(tag[1..]).GetOr(0))
  }

  lemma HeadingLevelParses(level: HeadingLevel)
    ensures ParseInt(HeadingTag(level)[1..]) == Some(level as int)
  {
    assert HeadingTag(level)[1..] == [DigitChar(level)];
    assert NatToString(level) == [DigitChar(level)];
    assert IntToString(level) == NatToString(level);
    ParseIntOfIntToString(level);
  }

  /** One entry per heading, in order: its tag name, trimmed text and
      level. */
  function Headings(hs: seq<HeadingNode>): (r: seq<HeadingOut>)
    ensures |r| == |hs|
    ensures forall i :: 0 <= i < |hs| ==>
              r[i].tag == "h" + [DigitChar(hs[i].level)] && r[i].text == Trim(hs[i].text) && r[i].level == hs[i].level as int
  {
    seq(|hs|, i requires 0 <= i < |hs| => HeadingOf(hs[i]))
  }

  /** The trimmed texts of the paragraphs that are not blank, in order. */
  function Paragraphs(ps: seq<string>): (r: seq<string>)
    ensures r == Select(ps, NotBlank, Trim)
    ensures AllTrimmed(r)
    ensures |r| <= |ps|
  {
    if |ps| == 0 then []
    else
      var t := Trim(ps[0]);
      var rest := Paragraphs(ps[1..]);
      TrimEmptyIffBlank(ps[0]);
      if t != "" then
        TrimIdempotent(ps[0]);
        AllTrimmedCons(t, rest);
        [t] + rest
      else rest
  }

  predicate AllTrimmed(ps: seq<string>) {
    forall i :: 0 <= i < |ps| ==> ps[i] != "" && ps[i] == Trim(ps[i])
  }

  lemma AllTrimmedCons(t: string, rest: seq<string>)
    requires t != "" && t == Trim(t)
    requires AllTrimmed(rest)
    ensures AllTrimmed([t] + rest)
  {
    var ps := [t] + rest;
    forall i | 0 <= i < |ps| ensures ps[i] != "" && ps[i] == Trim(ps[i]) {
      if i > 0 { assert ps[i] == rest[i - 1]; }
    }
  }

  lemma TrimIdempotent(s: string)
    ensures Trim(Trim(s)) == Trim(s)
  {
    var t := Trim(s);
    if |t| > 0 {
      assert !IsWhitespace(t[0]) && !IsWhitespace(t[|t| - 1]);
    }
  }


  /** A page whose paragraphs are all non-blank and already trimmed keeps
      them all, in order. */
  lemma {:induction false} ParagraphsKeepTrimmed(ps: seq<string>)
    requires AllTrimmed(ps)
    ensures Paragraphs(ps) == ps
  {
    if |ps| > 0 {
      AllTrimmedTail(ps);
      ParagraphsKeepTrimmed(ps[1..]);
      assert Trim(ps[0]) == ps[0] != "";
      assert Paragraphs(ps) == [ps[0]] + Paragraphs(ps[1..]);
    }
  }

  lemma AllTrimmedTail(ps: seq<string>)
    requires |ps| > 0 && AllTrimmed(ps)
    ensures AllTrimmed(ps[1..])
  {
    forall i | 0 <= i < |ps| - 1 ensures ps[1..][i] != "" && ps[1..][i] == Trim(ps[1..][i]) {
      assert ps[1..][i] == ps[i + 1];
    }
  }


  function ExtractContent(p: Page): (r: ExtractedContent)
    ensures |r.headings| == |p.headings|
    ensures forall i :: 0 <= i < |p.headings| ==>
              r.headings[i].text == Trim(p.headings[i].text) && r.headings[i].level == p.headings[i].level as int
    ensures r.paragraphs == Select(p.paragraphs, NotBlank, Trim)
    ensures r.wordCount == |Tokens(p.bodyText)|
    ensures r.readingTimeMinutes * 200.0 == r.wordCount as real
  {
    var words := |Tokens(p.bodyText)|;
    ExtractedContent(Headings(p.headings), Paragraphs(p.paragraphs), words, words as real / 200.0)
  }

  function HeadingJson(h: HeadingOut): Json {
    JObj(map["type" := JStr(h.tag), "text" := JStr(h.text), "level" := JNum(h.level as real)])
  }

  /** `result.content` when text parsing is on. */
  function ContentJson(c: ExtractedContent): (r: Obj)
    ensures r.Keys == {"headings", "paragraphs", "stats"}
    ensures r["stats"] == JObj(map[
              "wordCount" := JNum(c.wordCount as real),
              "paragraphCount" := JNum(|c.paragraphs| as real),
              "readingTimeMinutes" := JNum(c.readingTimeMinutes),
              "headingCount" := JNum(|c.headings| as real)])
  {
    map[
      "headings" := JArr(seq(|c.headings|, i requires 0 <= i < |c.headings| => HeadingJson(c.headings[i]))),
      "paragraphs" := StrArr(c.paragraphs),
      "stats" := JObj(map[
        "wordCount" := JNum(c.wordCount as real),
        "paragraphCount" := JNum(|c.paragraphs| as real),
        "readingTimeMinutes" := JNum(c.readingTimeMinutes),
        "headingCount" := JNum(|c.headings| as real)])]
  }

  /** 400 words read in exactly two minutes. */
  lemma ReadingTimeExample(p: Page)
    requires |Tokens(p.bodyText)| == 400
    ensures ExtractContent(p).readingTimeMinutes == 2.0
  {
  }

  // --------------------------------------------------------------------- links

  datatype BasicLink = BasicLink(url: string, text: string, external: bool, rel: Option<string>, target: Option<string>)

  /** "external" exactly when the href is absolute and does not mention the
      scraped url. */
  predicate IsExternal(href: string, pageUrl: string) {
    StartsWith(href, "http") && !Contains(href, pageUrl)
  }

  /** The entry of one anchor with an `href`: the trimmed anchor text, and
      `rel` and `target` as given or `null`. */
  function LinkOf(a: Anchor, pageUrl: string): BasicLink
    requires HasHref(a)
  {
    BasicLink(a.href.value, Trim(a.text), IsExternal(a.href.value, pageUrl), AttrOrNull(a.rel), AttrOrNull(a.target))
  }

  function LinkFor(pageUrl: string): Anchor --> BasicLink {
    a requires HasHref(a) => LinkOf(a, pageUrl)
  }

  /** One entry per anchor with a non-empty `href`, in document order. */
  function ExtractLinks(anchors: seq<Anchor>, pageUrl: string): (r: seq<BasicLink>)
    ensures |r| <= |anchors|
    ensures AllLinksWellFormed(r, pageUrl)
    ensures MapsEach(r, Filter(anchors, HasHref), LinkFor(pageUrl))
  {
    if |anchors| == 0 then []
    else
      var a := anchors[0];
      var rest := ExtractLinks(anchors[1..], pageUrl);
      var r := if HasHref(a) then [LinkOf(a, pageUrl)] + rest else rest;
      MapsEachFilterStep(r, rest, anchors, HasHref, LinkFor(pageUrl));
      if HasHref(a) then
        assert LinkWellFormed(LinkOf(a, pageUrl), pageUrl);
        LinksWellFormedCons(LinkOf(a, pageUrl), rest, pageUrl);
        r
      else r
  }

  /** A non-empty url typed by `IsExternal`, and `rel`/`target` missing or
      non-empty. */
  predicate LinkWellFormed(l: BasicLink, pageUrl: string) {
    && l.url != ""
    && (l.external <==> IsExternal(l.url, pageUrl))
    && (l.rel.Some? ==> l.rel.value != "")
    && (l.target.Some? ==> l.target.value != "")
  }

  predicate AllLinksWellFormed(ls: seq<BasicLink>, pageUrl: string) {
    forall i :: 0 <= i < |ls| ==> LinkWellFormed(ls[i], pageUrl)
  }

  lemma LinksWellFormedCons(l: BasicLink, rest: seq<BasicLink>, pageUrl: string)
    requires LinkWellFormed(l, pageUrl) && AllLinksWellFormed(rest, pageUrl)
    ensures AllLinksWellFormed([l] + rest, pageUrl)
  {
    var ls := [l] + rest;
    forall i | 0 <= i < |ls| ensures LinkWellFormed(ls[i], pageUrl) {
      if i > 0 { assert ls[i] == rest[i - 1]; }
    }
  }

  /** The extracted links' urls are the anchors' non-empty hrefs, in order. */
  lemma {:induction false} ExtractedUrls(anchors: seq<Anchor>, pageUrl: string)
    ensures var ls := ExtractLinks(anchors, pageUrl);
            |ls| == |Hrefs(anchors)| && forall i :: 0 <= i < |ls| ==> ls[i].url == Hrefs(anchors)[i]
  {
    if |anchors| > 0 {
      ExtractedUrls(anchors[1..], pageUrl);
      var rest := ExtractLinks(anchors[1..], pageUrl);
      if HasHref(anchors[0]) {
        var l := LinkOf(anchors[0], pageUrl);
        assert ExtractLinks(anchors, pageUrl) == [l] + rest;
        assert Hrefs(anchors) == [l.url] + Hrefs(anchors[1..]);
      } else {
        assert ExtractLinks(anchors, pageUrl) == rest;
        assert Hrefs(anchors) == Hrefs(anchors[1..]);
      }
    }
  }

  function LinkJson(l: BasicLink): Obj {
    map[
      "url" := JStr(l.url),
      "text" := JStr(l.text),
      "type" := JStr(if l.external then "external" else "internal"),
      "attributes" := JObj(map["rel" := StrOrNull(l.rel), "target" := StrOrNull(l.target)])]
  }

  function LinksJson(ls: seq<BasicLink>): (r: seq<Obj>)
    ensures |r| == |ls|
    ensures forall i :: 0 <= i < |ls| ==> Field(r[i], "url") == Some(JStr(ls[i].url))
    ensures forall i :: 0 <= i < |ls| ==> r[i].Keys == {"url", "text", "type", "attributes"}
  {
    seq(|ls|, i requires 0 <= i < |ls| => LinkJson(ls[i]))
  }

  // -------------------------------------------------------------------- images

  datatype ImageKind = Jpg | Png | Svg | Gif | Webp | UnknownKind

  function KindName(k: ImageKind): string {
    match k
    case Jpg => "JPG"
    case Png => "PNG"
    case Svg => "SVG"
    case Gif => "GIF"
    case Webp => "WEBP"
    case UnknownKind => "Unknown"
  }

  /** `s.split('.').pop()`: the text after the last `.`, or all of `s`. */
  function AfterLastDot(s: string): (r: string)
    ensures |r| <= |s| && r == s[|s| - |r|..]
    ensures forall i :: 0 <= i < |r| ==> r[i] != '.'
    ensures |r| < |s| ==> s[|s| - |r| - 1] == '.'
  {
    if |s| == 0 then ""
    else if s[|s| - 1] == '.' then ""
    else
      var r := AfterLastDot(s[..|s| - 1]);
      r + [s[|s| - 1]]
  }

  function KindOf(extension: string): ImageKind {
    if extension == "jpg" || extension == "jpeg" then Jpg
    else if extension == "png" then Png
    else if extension == "svg" then Svg
    else if extension == "gif" then Gif
    else if extension == "webp" then Webp
    else UnknownKind
  }

  function ImageKindOf(src: string): ImageKind {
    KindOf(ToLower(AfterLastDot(src)))
  }

  /** A file name "name.ext" is typed by its last extension, in any case. */
  lemma {:induction false} KindByExtension(name: string, ext: string)
    requires forall i :: 0 <= i < |ext| ==> ext[i] != '.'
    ensures ImageKindOf(name + "." + ext) == KindOf(ToLower(ext))
  {
    AfterLastDotSuffix(name + ".", ext);
  }

  lemma {:induction false} AfterLastDotSuffix(s: string, ext: string)
    requires |s| > 0 && s[|s| - 1] == '.'
    requires forall i :: 0 <= i < |ext| ==> ext[i] != '.'
    ensures AfterLastDot(s + ext) == ext
    decreases |ext|
  {
    if |ext| > 0 {
      var t := s + ext;
      assert t[..|t| - 1] == s + ext[..|ext| - 1];
      AfterLastDotSuffix(s, ext[..|ext| - 1]);
      assert ext == ext[..|ext| - 1] + [ext[|ext| - 1]];
    } else {
      assert s + ext == s;
    }
  }

  /** An extracted image; the `width` and `height` attributes are kept as
      written and parsed when the record is serialised. */
  datatype BasicImage = BasicImage(src: string, alt: string, width: Option<string>, height: Option<string>, kind: ImageKind)

  /** The entry of one image with a `src`: `alt` or "", and `width` and
      `height` as written. */
  function ImageOf(img: Image): BasicImage
    requires HasSrc(img)
  {
    BasicImage(img.src.value, AttrOr(img.alt, ""), img.width, img.height, ImageKindOf(img.src.value))
  }

  /** One entry per image with a non-empty `src`, in document order. */
  function ExtractImages(images: seq<Image>): (r: seq<BasicImage>)
    ensures |r| <= |images|
    ensures AllImagesWellFormed(r)
    ensures MapsEach(r, Filter(images, HasSrc), ImageOf)
  {
    if |images| == 0 then []
    else
      var img := images[0];
      var rest := ExtractImages(images[1..]);
      var r := if HasSrc(img) then [ImageOf(img)] + rest else rest;
      MapsEachFilterStep(r, rest, images, HasSrc, ImageOf);
      if HasSrc(img) then
        assert ImageWellFormed(ImageOf(img));
        ImagesWellFormedCons(ImageOf(img), rest);
        r
      else r
  }

  /** A non-empty source typed by its extension. */
  predicate ImageWellFormed(b: BasicImage) {
    b.src != "" && b.kind == ImageKindOf(b.src)
  }

  predicate AllImagesWellFormed(bs: seq<BasicImage>) {
    forall i :: 0 <= i < |bs| ==> ImageWellFormed(bs[i])
  }

  lemma ImagesWellFormedCons(b: BasicImage, rest: seq<BasicImage>)
    requires ImageWellFormed(b) && AllImagesWellFormed(rest)
    ensures AllImagesWellFormed([b] + rest)
  {
    var bs := [b] + rest;
    forall i | 0 <= i < |bs| ensures ImageWellFormed(bs[i]) {
      if i > 0 { assert bs[i] == rest[i - 1]; }
    }
  }

  /** The extracted images' sources are the non-empty `src` values, in order. */
  lemma {:induction false} ExtractedSrcs(images: seq<Image>)
    ensures var bs := ExtractImages(images);
            |bs| == |Srcs(images)| && forall i :: 0 <= i < |bs| ==> bs[i].src == Srcs(images)[i]
  {
    if |images| > 0 {
      ExtractedSrcs(images[1..]);
      var rest := ExtractImages(images[1..]);
      if HasSrc(images[0]) {
        var b := ImageOf(images[0]);
        var bs, ss := ExtractImages(images), Srcs(images);
        assert bs == [b] + rest;
        assert ss == [b.src] + Srcs(images[1..]);
        forall i | 0 <= i < |bs| ensures bs[i].src == ss[i] {
          if i > 0 {
            assert bs[i] == rest[i - 1];
          }
        }
      } else {
        assert ExtractImages(images) == rest;
        assert Srcs(images) == Srcs(images[1..]);
      }
    }
  }

  /** `size` is always `null`: the markup says nothing about file size;
      `width` and `height` are `null` or a non-zero number. */
  function ImageJson(b: BasicImage): (r: Obj)
    ensures "size" in r && r["size"] == JNull
    ensures "width" in r && (r["width"] == JNull || (r["width"].JNum? && r["width"].n != 0.0))
  {
    map[
      "src" := JStr(b.src),
      "alt" := JStr(b.alt),
      "width" := IntOrNull(Dimension(b.width)),
      "height" := IntOrNull(Dimension(b.height)),
      "type" := JStr(KindName(b.kind)),
      "size" := JNull]
  }

  function ImagesJson(bs: seq<BasicImage>): (r: seq<Obj>)
    ensures |r| == |bs|
    ensures forall i :: 0 <= i < |bs| ==> Field(r[i], "src") == Some(JStr(bs[i].src))
    ensures forall i :: 0 <= i < |bs| ==> "size" in r[i] && r[i]["size"] == JNull
  {
    seq(|bs|, i requires 0 <= i < |bs| => ImageJson(bs[i]))
  }
}

=== FILE: image_insights.dfy ===
/** Image analysis of the local analyzer (server/services/localAnalyzer.ts,
    `analyzeImages` and `determineImageContext`): each image with a non-empty
    `src` gets a purpose, an importance and a context. */
module ImageInsights {
  import opened Wrappers
  import opened Text
  import opened Rules
  import opened Document
  import opened JsonValue

  datatype Purpose = ProductImage | HeroBanner | Icon | Decorative | ContentImage | Logo | AvatarProfile | UnknownPurpose

  datatype Importance = High | Medium | Low

  datatype Context =
    | InHeader | InFooter | InSidebar | InArticle | InNavigation
    | Illustration | SectionVisual | LinkedImage | EmbeddedInText | Standalone

  datatype ImageEntry = ImageEntry(src: string, purpose: Purpose, context: Context)

  function PurposeName(p: Purpose): string {
    match p
    case ProductImage => "Product Image"
    case HeroBanner => "Hero/Banner Image"
    case Icon => "Icon"
    case Decorative => "Decorative"
    case ContentImage => "Content Image"
    case Logo => "Logo"
    case AvatarProfile => "Avatar/Profile"
    case UnknownPurpose => "Unknown"
  }

  function ImportanceName(i: Importance): string {
    match i
    case High => "High"
    case Medium => "Medium"
    case Low => "Low"
  }

  function ContextName(c: Context): string {
    match c
    case InHeader => "Header"
    case InFooter => "Footer"
    case InSidebar => "Sidebar"
    case InArticle => "Article"
    case InNavigation => "Navigation"
    case Illustration => "Illustration for adjacent text"
    case SectionVisual => "Section visual"
    case LinkedImage => "Linked image"
    case EmbeddedInText => "Embedded in text"
    case Standalone => "Standalone image"
  }

  /** Every branch of the purpose chain sets the importance with the purpose;
      "Unknown" keeps the initial "Low". */
  function ImportanceOf(p: Purpose): Importance {
    match p
    case ProductImage => High
    case HeroBanner => High
    case Logo => High
    case ContentImage => Medium
    case AvatarProfile => Medium
    case _ => Low
  }

  predicate ContainsAny(s: string, parts: seq<string>) {
    exists i :: 0 <= i < |parts| && Contains(s, parts[i])
  }

  predicate ProductSignals(img: Image, alt: string) {
    img.inProductItem || img.inProductClass || Contains(ToLower(alt), "product")
  }

  predicate HeroSignals(img: Image, width: Option<int>) {
    img.inHeader || (width.Some? && width.value > 800) || img.parentHeroClass
    || img.hasBannerClass || img.inBannerArea
  }

  /** `src.includes('icon')` and `alt.includes('icon')` are case-sensitive. */
  predicate IconSignals(img: Image, src: string, alt: string, width: Option<int>, height: Option<int>) {
    (width.Some? && width.value < 50 && height.Some? && height.value < 50)
    || Contains(src, "icon") || Contains(alt, "icon") || img.hasIconClass
  }

  predicate DecorativeSignals(img: Image, alt: string) {
    alt == "" || img.parentBackgroundImage || img.parentZIndexMinusOne
  }

  predicate ContentSignals(img: Image) {
    img.inContentArea || img.inParagraphOrFigure
  }

  predicate LogoSignals(img: Image, src: string, alt: string) {
    Contains(ToLower(src), "logo") || Contains(ToLower(alt), "logo") || img.hasLogoClass || img.inHomeLink
  }

  predicate AvatarSignals(img: Image, src: string, alt: string) {
    ContainsAny(ToLower(src), ["avatar", "profile"]) || ContainsAny(ToLower(alt), ["profile", "avatar"])
    || img.hasAvatarClass || img.hasProfileClass
  }

  /** Which of the purpose chain's conditions hold, in chain order. */
  datatype Signals = Signals(product: bool, hero: bool, icon: bool, decorative: bool,
                             content: bool, logo: bool, avatar: bool)

  function SignalsOf(img: Image, src: string): (g: Signals)
    ensures AttrOr(img.alt, "") == "" ==> g.decorative
  {
    var alt := AttrOr(img.alt, "");
    var width := Dimension(img.width);
    var height := Dimension(img.height);
    Signals(ProductSignals(img, alt), HeroSignals(img, width), IconSignals(img, src, alt, width, height),
            DecorativeSignals(img, alt), ContentSignals(img), LogoSignals(img, src, alt), AvatarSignals(img, src, alt))
  }

  function PurposeRules(g: Signals): seq<Rule<Purpose>> {
    [ Rule(g.product, ProductImage),
      Rule(g.hero, HeroBanner),
      Rule(g.icon, Icon),
      Rule(g.decorative, Decorative),
      Rule(g.content, ContentImage),
      Rule(g.logo, Logo),
      Rule(g.avatar, AvatarProfile) ]
  }

  function PurposeFrom(g: Signals): Purpose {
    FirstMatch(PurposeRules(g), UnknownPurpose)
  }

  function PurposeOf(img: Image, src: string): Purpose {
    PurposeFrom(SignalsOf(img, src))
  }

  /** How the chain resolves: the first condition that holds decides, and
      "Unknown" means none holds. */
  lemma PurposeChain(g: Signals)
    ensures g.product ==> PurposeFrom(g) == ProductImage
    ensures g.decorative ==> PurposeFrom(g) in {ProductImage, HeroBanner, Icon, Decorative}
    ensures PurposeFrom(g) == UnknownPurpose
            <==> !g.product && !g.hero && !g.icon && !g.decorative && !g.content && !g.logo && !g.avatar
  {
    var rules := PurposeRules(g);
    if g.product {
      FirstMatchPicks(rules, UnknownPurpose, 0);
    } else if g.hero {
      FirstMatchPicks(rules, UnknownPurpose, 1);
    } else if g.icon {
      FirstMatchPicks(rules, UnknownPurpose, 2);
    } else if g.decorative {
      FirstMatchPicks(rules, UnknownPurpose, 3);
    } else if g.content {
      FirstMatchPicks(rules, UnknownPurpose, 4);
    } else if g.logo {
      FirstMatchPicks(rules, UnknownPurpose, 5);
    } else if g.avatar {
      FirstMatchPicks(rules, UnknownPurpose, 6);
    } else {
      FirstMatchDefault(rules, UnknownPurpose);
    }
  }

  /** An image without alternative text is never classed as content, logo,
      avatar or unknown: the "Decorative" rule catches it first. */
  lemma EmptyAltPurpose(img: Image, src: string)
    requires AttrOr(img.alt, "") == ""
    ensures PurposeOf(img, src) in {ProductImage, HeroBanner, Icon, Decorative}
  {
    PurposeChain(SignalsOf(img, src));
  }

  /** A product image is recognised whatever else holds; the purpose is
      "Unknown" exactly when no condition holds; the importance is "High"
      exactly for products, hero images and logos. */
  lemma PurposeFacts(img: Image, src: string)
    ensures ProductSignals(img, AttrOr(img.alt, "")) ==> PurposeOf(img, src) == ProductImage
    ensures var g := SignalsOf(img, src);
            PurposeOf(img, src) == UnknownPurpose
            <==> !g.product && !g.hero && !g.icon && !g.decorative && !g.content && !g.logo && !g.avatar
    ensures ImportanceOf(PurposeOf(img, src)) == High <==> PurposeOf(img, src) in {ProductImage, HeroBanner, Logo}
  {
    PurposeChain(SignalsOf(img, src));
  }

  /** `$(x).text().trim().length > 0`. */
  predicate HasText(s: string) { |Trim(s)| > 0 }

  /** The context chain, given whether a neighbouring paragraph or heading
      has text and whether the parent has text of its own. */
  function ContextRules(img: Image, adjacentText: bool, ownText: bool): seq<Rule<Context>> {
    [ Rule(img.inHeader, InHeader),
      Rule(img.inFooter, InFooter),
      Rule(img.inSidebar, InSidebar),
      Rule(img.inArticle, InArticle),
      Rule(img.inNav, InNavigation),
      Rule(adjacentText, Illustration),
      Rule(img.parentHasHeading, SectionVisual),
      Rule(img.parentIsAnchor, LinkedImage),
      Rule(ownText, EmbeddedInText) ]
  }

  function ContextFrom(img: Image, adjacentText: bool, ownText: bool): Context {
    FirstMatch(ContextRules(img, adjacentText, ownText), Standalone)
  }

  function ContextOf(img: Image): Context {
    ContextFrom(img, HasText(img.prevHeadingOrParaText) || HasText(img.nextHeadingOrParaText), HasText(img.parentOwnText))
  }

  /** An image inside a page region gets that region's context, the
      header first. */
  lemma ContextPlaced(img: Image, adjacentText: bool, ownText: bool)
    ensures img.inHeader ==> ContextFrom(img, adjacentText, ownText) == InHeader
    ensures img.inHeader || img.inFooter || img.inSidebar || img.inArticle || img.inNav
            ==> ContextFrom(img, adjacentText, ownText) in {InHeader, InFooter, InSidebar, InArticle, InNavigation}
  {
    var rules := ContextRules(img, adjacentText, ownText);
    if img.inHeader {
      FirstMatchPicks(rules, Standalone, 0);
    } else if img.inFooter {
      FirstMatchPicks(rules, Standalone, 1);
    } else if img.inSidebar {
      FirstMatchPicks(rules, Standalone, 2);
    } else if img.inArticle {
      FirstMatchPicks(rules, Standalone, 3);
    } else if img.inNav {
      FirstMatchPicks(rules, Standalone, 4);
    }
  }

  /** "Standalone" exactly when no rule of the chain holds. */
  lemma ContextStandalone(img: Image, adjacentText: bool, ownText: bool)
    ensures ContextFrom(img, adjacentText, ownText) == Standalone
            <==> !img.inHeader && !img.inFooter && !img.inSidebar && !img.inArticle && !img.inNav
                 && !adjacentText && !img.parentHasHeading && !img.parentIsAnchor && !ownText
  {
    var rules := ContextRules(img, adjacentText, ownText);
    if img.inHeader || img.inFooter || img.inSidebar || img.inArticle || img.inNav
       || adjacentText || img.parentHasHeading || img.parentIsAnchor || ownText {
      var j := if img.inHeader then 0 else if img.inFooter then 1 else if img.inSidebar then 2
               else if img.inArticle then 3 else if img.inNav then 4 else if adjacentText then 5
               else if img.parentHasHeading then 6 else if img.parentIsAnchor then 7 else 8;
      assert rules[j].holds;
      FirstMatchHolding(rules, Standalone, j);
      var i :| 0 <= i <= j && rules[i].holds && FirstMatch(rules, Standalone) == rules[i].outcome;
      assert rules[i].outcome != Standalone;
    } else {
      assert forall j :: 0 <= j < |rules| ==> !rules[j].holds;
      FirstMatchDefault(rules, Standalone);
    }
  }

  lemma ContextChain(img: Image, adjacentText: bool, ownText: bool)
    ensures img.inHeader ==> ContextFrom(img, adjacentText, ownText) == InHeader
    ensures ContextFrom(img, adjacentText, ownText) in {Illustration, SectionVisual, LinkedImage, EmbeddedInText, Standalone}
            ==> !img.inHeader && !img.inFooter && !img.inSidebar && !img.inArticle && !img.inNav
    ensures ContextFrom(img, adjacentText, ownText) == Standalone
            <==> !img.inHeader && !img.inFooter && !img.inSidebar && !img.inArticle && !img.inNav
                 && !adjacentText && !img.parentHasHeading && !img.parentIsAnchor && !ownText
  {
    ContextPlaced(img, adjacentText, ownText);
    ContextStandalone(img, adjacentText, ownText);
  }

  /** Structural areas come before the relation to text: an image in a
      header is a header image whatever surrounds it, a text-related context
      means the image is in none of the structural areas, and "Standalone
      image" means no rule applies at all. */
  lemma ContextFacts(img: Image)
    ensures img.inHeader ==> ContextOf(img) == InHeader
    ensures ContextOf(img) in {Illustration, SectionVisual, LinkedImage, EmbeddedInText, Standalone}
            ==> !img.inHeader && !img.inFooter && !img.inSidebar && !img.inArticle && !img.inNav
    ensures ContextOf(img) == Standalone
            <==> !img.inHeader && !img.inFooter && !img.inSidebar && !img.inArticle && !img.inNav
                 && !HasText(img.prevHeadingOrParaText) && !HasText(img.nextHeadingOrParaText)
                 && !img.parentHasHeading && !img.parentIsAnchor && !HasText(img.parentOwnText)
  {
    ContextChain(img, HasText(img.prevHeadingOrParaText) || HasText(img.nextHeadingOrParaText), HasText(img.parentOwnText));
  }

  function EntryOf(img: Image): (e: ImageEntry)
    requires HasSrc(img)
    ensures e.src == img.src.value
    ensures e.purpose == PurposeOf(img, img.src.value) && e.context == ContextOf(img)
  {
    ImageEntry(img.src.value, PurposeOf(img, img.src.value), ContextOf(img))
  }

  /** `analyzeImages`: one entry per image with a non-empty `src`, in
      document order. */
  function AnalyzeImages(images: seq<Image>): (r: seq<ImageEntry>)
    ensures |r| <= |images|
    ensures AllSourced(r)
    ensures MapsEach(r, Filter(images, HasSrc), EntryOf)
  {
    if |images| == 0 then []
    else
      var rest := AnalyzeImages(images[1..]);
      var r := if HasSrc(images[0]) then [EntryOf(images[0])] + rest else rest;
      MapsEachFilterStep(r, rest, images, HasSrc, EntryOf);
      if HasSrc(images[0]) then
        AllSourcedCons(EntryOf(images[0]), rest);
        r
      else r
  }

  /** Every entry has a source. */
  predicate AllSourced(es: seq<ImageEntry>) {
    forall i :: 0 <= i < |es| ==> es[i].src != ""
  }

  lemma AllSourcedCons(e: ImageEntry, rest: seq<ImageEntry>)
    requires e.src != "" && AllSourced(rest)
    ensures AllSourced([e] + rest)
  {
    var es := [e] + rest;
    forall i | 0 <= i < |es| ensures es[i].src != "" {
      if i > 0 { assert es[i] == rest[i - 1]; }
    }
  }

  /** The entries keep the images' order: their sources are exactly the
      non-empty `src` values. */
  lemma {:induction false} AnalyzedSrcs(images: seq<Image>)
    ensures var es := AnalyzeImages(images);
            |es| == |Srcs(images)| && forall i :: 0 <= i < |es| ==> es[i].src == Srcs(images)[i]
  {
    if |images| > 0 {
      AnalyzedSrcs(images[1..]);
      var rest := AnalyzeImages(images[1..]);
      if HasSrc(images[0]) {
        var e := EntryOf(images[0]);
        var es, ss := AnalyzeImages(images), Srcs(images);
        assert es == [e] + rest;
        assert ss == [images[0].src.value] + Srcs(images[1..]);
        forall i | 0 <= i < |es| ensures es[i].src == ss[i] {
          if i > 0 {
            assert es[i] == rest[i - 1];
          }
        }
      } else {
        assert AnalyzeImages(images) == rest;
        assert Srcs(images) == Srcs(images[1..]);
      }
    }
  }

  function EntryJson(e: ImageEntry): Obj {
    map[ "src" := JStr(e.src),
         "purpose" := JStr(PurposeName(e.purpose)),
         "importance" := JStr(ImportanceName(ImportanceOf(e.purpose))),
         "context" := JStr(ContextName(e.context)) ]
  }

  function ImagesJson(es: seq<ImageEntry>): (r: seq<Obj>)
    ensures |r| == |es|
    ensures forall i :: 0 <= i < |es| ==> Field(r[i], "src") == Some(JStr(es[i].src))
    ensures forall i :: 0 <= i < |es| ==> r[i].Keys == {"src", "purpose", "importance", "context"}
  {
    seq(|es|, i requires 0 <= i < |es| => EntryJson(es[i]))
  }
}

=== FILE: json.dfy ===
/** JSON values as the scraper stores and serves them: the record sections are
    plain objects, merged with JavaScript's object spread. */
module JsonValue {
  import opened Wrappers

  datatype Json =
    | JNull
    | JBool(b: bool)
    | JNum(n: real)
    | JStr(s: string)
    | JArr(items: seq<Json>)
    | JObj(fields: map<string, Json>)

  /** A JSON object; the order of its keys is not observable in this model. */
  type Obj = map<string, Json>

  /** JavaScript truthiness (`NaN` is not representable here). */
  predicate Truthy(j: Json) {
    match j
    case JNull => false
    case JBool(b) => b
    case JNum(n) => n != 0.0
    case JStr(s) => s != ""
    case _ => true
  }

  /** `o.name`: `None` when the property is missing (`undefined`). */
  function Field(o: Obj, name: string): Option<Json> {
    if name in o then Some(o[name]) else None
  }

  /** `o.name || fallback`. */
  function FieldOr(o: Obj, name: string, fallback: Json): (r: Json)
    ensures name in o && Truthy(o[name]) ==> r == o[name]
    ensures !(name in o && Truthy(o[name])) ==> r == fallback
  {
    if name in o && Truthy(o[name]) then o[name] else fallback
  }

  /** `{ ...a, ...b }`: every key of either side, the right side winning. */
  function Spread(a: Obj, b: Obj): (r: Obj)
    ensures r.Keys == a.Keys + b.Keys
    ensures forall k :: k in b ==> r[k] == b[k]
    ensures forall k :: k in a && k !in b ==> r[k] == a[k]
  {
    a + b
  }

  /** Spreading the same object twice adds nothing. */
  lemma SpreadIdempotent(a: Obj, b: Obj)
    ensures Spread(Spread(a, b), b) == Spread(a, b)
  {
  }

  lemma SpreadAssociative(a: Obj, b: Obj, c: Obj)
    ensures Spread(Spread(a, b), c) == Spread(a, Spread(b, c))
  {
  }

  /** A string, or `null` for a missing one. */
  function StrOrNull(s: Option<string>): Json {
    match s
    case Some(v) => JStr(v)
    case None => JNull
  }

  /** An integer, or `null` for a missing one. */
  function IntOrNull(n: Option<int>): Json {
    match n
    case Some(v) => JNum(v as real)
    case None => JNull
  }

  function StrArr(ss: seq<string>): (r: Json)
    ensures r.JArr? && |r.items| == |ss|
    ensures forall i :: 0 <= i < |ss| ==> r.items[i] == JStr(ss[i])
  {
    JArr(seq(|ss|, i requires 0 <= i < |ss| => JStr(ss[i])))
  }

  function ObjArr(os: seq<Obj>): (r: Json)
    ensures r.JArr? && |r.items| == |os|
  {
    JArr(seq(|os|, i requires 0 <= i < |os| => JObj(os[i])))
  }
}

=== FILE: keyed_merge.dfy ===
/** The list merge at the end of `scrapeWebsite`
    (ai-web-scraper-deployment/server/services/scraper.ts): the extracted
    objects go into a JavaScript `Map` keyed by one of their fields, each
    analyzer object whose key is already in the map is spread over the stored
    value, and the map's values become the new list.

    `MergeByKey` says what the result is, key by key; `MergeMap` follows the
    `Map` step by step and is proved to compute it. */
module KeyedMerge {
  import opened Wrappers
  import opened JsonValue
  import opened Ranking

  /** `o[key]` used as a `Map` key; `None` stands for `undefined`. */
  function KeyOf(o: Obj, key: string): Option<Json> {
    Field(o, key)
  }

  function KeysOf(os: seq<Obj>, key: string): (r: seq<Option<Json>>)
    ensures |r| == |os| && forall i :: 0 <= i < |os| ==> r[i] == KeyOf(os[i], key)
  {
    seq(|os|, i requires 0 <= i < |os| => KeyOf(os[i], key))
  }

  /** What the map holds for `k` after `os.forEach(o => map.set(o[key], o))`:
      the last object with that key (`{}` when there is none). */
  function LastWith(os: seq<Obj>, key: string, k: Option<Json>): Obj {
    if |os| == 0 then map[]
    else if KeyOf(os[|os| - 1], key) == k then os[|os| - 1]
    else LastWith(os[..|os| - 1], key, k)
  }

  /** `v` after every object of `enh` whose key is `k` has been spread over
      it, in order. */
  function EnhanceWith(v: Obj, enh: seq<Obj>, key: string, k: Option<Json>): Obj {
    if |enh| == 0 then v
    else
      var prev := EnhanceWith(v, enh[..|enh| - 1], key, k);
      var e := enh[|enh| - 1];
      if KeyOf(e, key) == k then Spread(prev, e) else prev
  }

  /** One object per distinct key of `base`, in order of first occurrence:
      the last base object with that key, enhanced by the analyzer objects
      with the same key. */
  function MergeByKey(base: seq<Obj>, enh: seq<Obj>, key: string): seq<Obj> {
    var order := Distinct(KeysOf(base, key));
    seq(|order|, i requires 0 <= i < |order| => EnhanceWith(LastWith(base, key, order[i]), enh, key, order[i]))
  }

  /** The `Map` walk of the source: set every base object under its key, then
      for each analyzer object whose key `has` an entry, store the spread of
      the two; return `Array.from(map.values())`. */
  method MergeMap(base: seq<Obj>, enh: seq<Obj>, key: string) returns (r: seq<Obj>)
    ensures r == MergeByKey(base, enh, key)
  {
    var order, stored := SetAll(base, key);
    var vals := EnhanceAll(base, enh, key, stored);
    r := seq(|order|, i requires 0 <= i < |order| => vals[order[i]]);
  }

  /** `base.forEach(o => map.set(o[key], o))`: `order` is the map's key
      order, `vals` its contents. */
  method SetAll(base: seq<Obj>, key: string) returns (order: seq<Option<Json>>, vals: map<Option<Json>, Obj>)
    ensures order == Distinct(KeysOf(base, key))
    ensures forall k :: k in vals <==> k in order
    ensures forall k :: k in vals ==> vals[k] == LastWith(base, key, k)
  {
    order := [];
    vals := map[];
    for i := 0 to |base|
      invariant order == Distinct(KeysOf(base[..i], key))
      invariant forall k :: k in vals <==> k in order
      invariant forall k :: k in vals ==> vals[k] == LastWith(base[..i], key, k)
    {
      SetStep(base, key, i);
      forall k | k in vals
        ensures LastWith(base[..i + 1], key, k) == LastWith(base[..i], key, k) || KeyOf(base[i], key) == k
      {
        LastWithStep(base, key, i, k);
      }
      LastWithStep(base, key, i, KeyOf(base[i], key));
      if KeyOf(base[i], key) !in vals {
        order := order + [KeyOf(base[i], key)];
      }
      vals := vals[KeyOf(base[i], key) := base[i]];
    }
    assert base[..|base|] == base;
  }

  /** `enh.forEach(e => { if (map.has(e[key])) map.set(e[key], { ...map.get(e[key]), ...e }) })`. */
  method EnhanceAll(base: seq<Obj>, enh: seq<Obj>, key: string, stored: map<Option<Json>, Obj>)
    returns (vals: map<Option<Json>, Obj>)
    requires forall k :: k in stored ==> stored[k] == LastWith(base, key, k)
    ensures vals.Keys == stored.Keys
    ensures forall k :: k in vals ==> vals[k] == EnhanceWith(LastWith(base, key, k), enh, key, k)
  {
    vals := stored;
    for j := 0 to |enh|
      invariant vals.Keys == stored.Keys
      invariant forall k :: k in vals ==> vals[k] == EnhanceWith(LastWith(base, key, k), enh[..j], key, k)
    {
      EnhanceStep(base, enh, key, j);
      if KeyOf(enh[j], key) in vals {
        vals := vals[KeyOf(enh[j], key) := Spread(vals[KeyOf(enh[j], key)], enh[j])];
      }
    }
    assert enh[..|enh|] == enh;
  }

  /** One `map.set(o[key], o)` of the first pass. */
  lemma SetStep(base: seq<Obj>, key: string, i: int)
    requires 0 <= i < |base|
    ensures var d := Distinct(KeysOf(base[..i], key));
            var k := KeyOf(base[i], key);
            Distinct(KeysOf(base[..i + 1], key)) == (if k in d then d else d + [k])
  {
    var xs := KeysOf(base[..i + 1], key);
    assert base[..i + 1][..i] == base[..i];
    assert xs[..i] == KeysOf(base[..i], key);
    assert xs[i] == KeyOf(base[i], key);
    DistinctLast(xs);
  }

  lemma LastWithStep(base: seq<Obj>, key: string, i: int, k: Option<Json>)
    requires 0 <= i < |base|
    ensures LastWith(base[..i + 1], key, k)
            == (if KeyOf(base[i], key) == k then base[i] else LastWith(base[..i], key, k))
  {
    var p := base[..i + 1];
    assert p[|p| - 1] == base[i] && p[..|p| - 1] == base[..i];
  }

  lemma DistinctLast<T>(xs: seq<T>)
    requires |xs| > 0
    ensures var d := Distinct(xs[..|xs| - 1]);
            Distinct(xs) == (if xs[|xs| - 1] in d then d else d + [xs[|xs| - 1]])
  {
  }

  /** One analyzer object of the second pass. */
  lemma EnhanceStep(base: seq<Obj>, enh: seq<Obj>, key: string, j: int)
    requires 0 <= j < |enh|
    ensures forall k :: EnhanceWith(LastWith(base, key, k), enh[..j + 1], key, k)
                        == (if KeyOf(enh[j], key) == k
                            then Spread(EnhanceWith(LastWith(base, key, k), enh[..j], key, k), enh[j])
                            else EnhanceWith(LastWith(base, key, k), enh[..j], key, k))
  {
    assert enh[..j + 1][..j] == enh[..j];
  }

  // ------------------------------------------------------------ helper facts

  lemma {:induction false} LastWithKey(os: seq<Obj>, key: string, k: Option<Json>)
    requires k in KeysOf(os, key)
    ensures KeyOf(LastWith(os, key, k), key) == k
  {
    var n := |os| - 1;
    if KeyOf(os[n], key) != k {
      var i :| 0 <= i < |os| && KeysOf(os, key)[i] == k;
      assert KeysOf(os[..n], key)[i] == k;
      LastWithKey(os[..n], key, k);
    }
  }

  /** With unique keys, the map holds each object under its own key. */
  lemma {:induction false} LastWithUnique(os: seq<Obj>, key: string, i: int)
    requires NoDups(KeysOf(os, key)) && 0 <= i < |os|
    ensures LastWith(os, key, KeyOf(os[i], key)) == os[i]
  {
    var n := |os| - 1;
    if i < n {
      assert KeysOf(os, key)[i] != KeysOf(os, key)[n];
      var prefix := os[..n];
      assert forall a :: 0 <= a < n ==> KeysOf(prefix, key)[a] == KeysOf(os, key)[a];
      LastWithUnique(prefix, key, i);
    }
  }

  lemma {:induction false} EnhanceKeepsKey(v: Obj, enh: seq<Obj>, key: string, k: Option<Json>)
    requires KeyOf(v, key) == k
    ensures KeyOf(EnhanceWith(v, enh, key, k), key) == k
  {
    if |enh| > 0 {
      EnhanceKeepsKey(v, enh[..|enh| - 1], key, k);
    }
  }

  /** Analyzer objects with other keys leave the value alone. */
  lemma {:induction false} EnhanceNoMatch(v: Obj, enh: seq<Obj>, key: string, k: Option<Json>)
    requires forall j :: 0 <= j < |enh| ==> KeyOf(enh[j], key) != k
    ensures EnhanceWith(v, enh, key, k) == v
  {
    if |enh| > 0 {
      EnhanceNoMatch(v, enh[..|enh| - 1], key, k);
    }
  }

  /** The enhancement is one fixed object spread over the starting value. */
  lemma {:induction false} EnhanceSplit(v: Obj, enh: seq<Obj>, key: string, k: Option<Json>)
    ensures EnhanceWith(v, enh, key, k) == Spread(v, EnhanceWith(map[], enh, key, k))
  {
    if |enh| > 0 {
      EnhanceSplit(v, enh[..|enh| - 1], key, k);
    }
  }

  /** The value after the last matching object `enh[j]` holds all of that
      object's fields. */
  lemma {:induction false} EnhanceLastWins(v: Obj, enh: seq<Obj>, key: string, k: Option<Json>, j: int)
    requires 0 <= j < |enh| && KeyOf(enh[j], key) == k
    requires forall m :: j < m < |enh| ==> KeyOf(enh[m], key) != k
    ensures forall f :: f in enh[j] ==> f in EnhanceWith(v, enh, key, k) && EnhanceWith(v, enh, key, k)[f] == enh[j][f]
  {
    if j < |enh| - 1 {
      EnhanceLastWins(v, enh[..|enh| - 1], key, k, j);
    } else {
      assert enh[|enh| - 1] == enh[j];
    }
  }

  /** A field no matching analyzer object carries keeps its starting value. */
  lemma {:induction false} EnhanceKeepsField(v: Obj, enh: seq<Obj>, key: string, k: Option<Json>, f: string)
    requires f in v
    requires forall j :: 0 <= j < |enh| && KeyOf(enh[j], key) == k ==> f !in enh[j]
    ensures f in EnhanceWith(v, enh, key, k) && EnhanceWith(v, enh, key, k)[f] == v[f]
  {
    if |enh| > 0 {
      EnhanceKeepsField(v, enh[..|enh| - 1], key, k, f);
    }
  }

  /** A field every analyzer object carries is present once one of them
      matches. */
  lemma {:induction false} EnhanceAddsField(v: Obj, enh: seq<Obj>, key: string, k: Option<Json>, f: string, j: int)
    requires 0 <= j < |enh| && KeyOf(enh[j], key) == k
    requires forall m :: 0 <= m < |enh| ==> f in enh[m]
    ensures f in EnhanceWith(v, enh, key, k)
  {
    var n := |enh| - 1;
    if KeyOf(enh[n], key) != k {
      EnhanceAddsField(v, enh[..n], key, k, f, j);
    }
  }

  lemma {:induction false} DistinctOfUnique<T>(xs: seq<T>)
    requires NoDups(xs)
    ensures Distinct(xs) == xs
  {
    if |xs| > 0 {
      var n := |xs| - 1;
      assert NoDups(xs[..n]);
      DistinctOfUnique(xs[..n]);
      assert xs[n] !in xs[..n];
      assert xs == xs[..n] + [xs[n]];
    }
  }

  // ------------------------------------------------------------- properties

  /** The merged list has one object per distinct key of `base`, in order of
      first occurrence, and each carries its key: keys are unique and never
      come from the analyzer side. */
  lemma MergedKeys(base: seq<Obj>, enh: seq<Obj>, key: string)
    ensures KeysOf(MergeByKey(base, enh, key), key) == Distinct(KeysOf(base, key))
    ensures NoDups(KeysOf(MergeByKey(base, enh, key), key))
    ensures |MergeByKey(base, enh, key)| <= |base|
  {
    var order := Distinct(KeysOf(base, key));
    var r := MergeByKey(base, enh, key);
    forall i | 0 <= i < |order|
      ensures KeyOf(r[i], key) == order[i]
    {
      LastWithKey(base, key, order[i]);
      EnhanceKeepsKey(LastWith(base, key, order[i]), enh, key, order[i]);
    }
    DistinctNotLonger(KeysOf(base, key));
  }

  lemma {:induction false} DistinctNotLonger<T>(xs: seq<T>)
    ensures |Distinct(xs)| <= |xs|
  {
    if |xs| > 0 {
      DistinctNotLonger(xs[..|xs| - 1]);
    }
  }

  /** Base objects with unique keys stay one for one, in order, each
      enhanced by its own analyzer objects. */
  lemma MergeKeepsUniqueBase(base: seq<Obj>, enh: seq<Obj>, key: string)
    requires NoDups(KeysOf(base, key))
    ensures |MergeByKey(base, enh, key)| == |base|
    ensures forall i :: 0 <= i < |base| ==>
              MergeByKey(base, enh, key)[i] == EnhanceWith(base[i], enh, key, KeyOf(base[i], key))
  {
    DistinctOfUnique(KeysOf(base, key));
    forall i | 0 <= i < |base|
      ensures LastWith(base, key, KeyOf(base[i], key)) == base[i]
    {
      LastWithUnique(base, key, i);
    }
  }

  /** Analyzer objects whose key no base object has are dropped: they change
      nothing. */
  lemma UnmatchedDropped(base: seq<Obj>, enh: seq<Obj>, key: string)
    requires forall j :: 0 <= j < |enh| ==> KeyOf(enh[j], key) !in KeysOf(base, key)
    ensures MergeByKey(base, enh, key) == MergeByKey(base, [], key)
  {
    var order := Distinct(KeysOf(base, key));
    forall i | 0 <= i < |order|
      ensures EnhanceWith(LastWith(base, key, order[i]), enh, key, order[i]) == LastWith(base, key, order[i])
    {
      EnhanceNoMatch(LastWith(base, key, order[i]), enh, key, order[i]);
    }
  }

  /** The analyzer wins: every field of the last analyzer object with a key
      is in the merged object with that key, with the analyzer's value. */
  lemma AnalyzerFieldsWin(base: seq<Obj>, enh: seq<Obj>, key: string, i: int, j: int)
    requires 0 <= i < |MergeByKey(base, enh, key)|
    requires 0 <= j < |enh| && KeyOf(enh[j], key) == Distinct(KeysOf(base, key))[i]
    requires forall m :: j < m < |enh| ==> KeyOf(enh[m], key) != KeyOf(enh[j], key)
    ensures forall f :: f in enh[j] ==>
              f in MergeByKey(base, enh, key)[i] && MergeByKey(base, enh, key)[i][f] == enh[j][f]
  {
    var k := Distinct(KeysOf(base, key))[i];
    EnhanceLastWins(LastWith(base, key, k), enh, key, k, j);
  }

  /** A field of the base object that no analyzer object with its key
      carries keeps the extracted value. */
  lemma BaseFieldKept(base: seq<Obj>, enh: seq<Obj>, key: string, i: int, f: string)
    requires 0 <= i < |MergeByKey(base, enh, key)|
    requires f in LastWith(base, key, Distinct(KeysOf(base, key))[i])
    requires forall j :: 0 <= j < |enh| ==> f !in enh[j]
    ensures f in MergeByKey(base, enh, key)[i]
    ensures MergeByKey(base, enh, key)[i][f] == LastWith(base, key, Distinct(KeysOf(base, key))[i])[f]
  {
    var k := Distinct(KeysOf(base, key))[i];
    EnhanceKeepsField(LastWith(base, key, k), enh, key, k, f);
  }

  /** When every base key has an analyzer object and every analyzer object
      carries field `f`, every merged object carries `f`. */
  lemma EveryBaseEnriched(base: seq<Obj>, enh: seq<Obj>, key: string, f: string)
    requires forall i :: 0 <= i < |base| ==> KeyOf(base[i], key) in KeysOf(enh, key)
    requires forall m :: 0 <= m < |enh| ==> f in enh[m]
    ensures forall i :: 0 <= i < |MergeByKey(base, enh, key)| ==> f in MergeByKey(base, enh, key)[i]
  {
    var order := Distinct(KeysOf(base, key));
    forall i | 0 <= i < |order|
      ensures f in EnhanceWith(LastWith(base, key, order[i]), enh, key, order[i])
    {
      var b :| 0 <= b < |base| && KeysOf(base, key)[b] == order[i];
      var j :| 0 <= j < |enh| && KeysOf(enh, key)[j] == KeyOf(base[b], key);
      EnhanceAddsField(LastWith(base, key, order[i]), enh, key, order[i], f, j);
    }
  }

  /** Base and analyzer lists with the same key sequence: every merged
      object carries the analyzer's `added` fields and keeps the base value
      of `kept`, a field no analyzer object has. */
  lemma MergeOverSameKeys(base: seq<Obj>, enh: seq<Obj>, key: string, added: set<string>, kept: string)
    requires KeysOf(base, key) == KeysOf(enh, key)
    requires forall m :: 0 <= m < |enh| ==> added <= enh[m].Keys && kept !in enh[m]
    requires forall b :: 0 <= b < |base| ==> kept in base[b]
    ensures KeysOf(MergeByKey(base, enh, key), key) == Distinct(KeysOf(base, key))
    ensures forall i :: 0 <= i < |MergeByKey(base, enh, key)| ==>
              added <= MergeByKey(base, enh, key)[i].Keys && kept in MergeByKey(base, enh, key)[i]
              && exists b :: 0 <= b < |base| && MergeByKey(base, enh, key)[i][kept] == base[b][kept]
  {
    var m := MergeByKey(base, enh, key);
    var order := Distinct(KeysOf(base, key));
    MergedKeys(base, enh, key);
    forall i | 0 <= i < |m|
      ensures added <= m[i].Keys && kept in m[i]
      ensures exists b :: 0 <= b < |base| && m[i][kept] == base[b][kept]
    {
      var k := order[i];
      var b0 :| 0 <= b0 < |base| && KeysOf(base, key)[b0] == k;
      assert KeysOf(enh, key)[b0] == k;
      forall f | f in added ensures f in m[i] {
        EnhanceAddsField(LastWith(base, key, k), enh, key, k, f, b0);
      }
      LastWithIndex(base, key, k);
      var b :| 0 <= b < |base| && LastWith(base, key, k) == base[b];
      BaseFieldKept(base, enh, key, i, kept);
    }
  }

  /** The object the map holds for a key of `os` is one of `os`. */
  lemma {:induction false} LastWithIndex(os: seq<Obj>, key: string, k: Option<Json>)
    requires k in KeysOf(os, key)
    ensures exists b :: 0 <= b < |os| && LastWith(os, key, k) == os[b]
  {
    var n := |os| - 1;
    if KeyOf(os[n], key) != k {
      var i :| 0 <= i < |os| && KeysOf(os, key)[i] == k;
      assert KeysOf(os[..n], key)[i] == k;
      LastWithIndex(os[..n], key, k);
      var b :| 0 <= b < n && LastWith(os[..n], key, k) == os[..n][b];
      assert os[..n][b] == os[b];
    }
  }

  /** Each merged entry is its own merge with the analyzer objects. */
  lemma MergeIdempotentAt(base: seq<Obj>, enh: seq<Obj>, key: string, i: int)
    requires NoDups(KeysOf(MergeByKey(base, enh, key), key))
    requires 0 <= i < |MergeByKey(base, enh, key)|
    ensures var m := MergeByKey(base, enh, key);
            var k := KeyOf(m[i], key);
            EnhanceWith(LastWith(m, key, k), enh, key, k) == m[i]
  {
    var m := MergeByKey(base, enh, key);
    var order := Distinct(KeysOf(base, key));
    MergedKeys(base, enh, key);
    assert KeysOf(m, key)[i] == order[i];
    var k := order[i];
    LastWithUnique(m, key, i);
    var v := LastWith(base, key, k);
    var u := EnhanceWith(map[], enh, key, k);
    EnhanceSplit(v, enh, key, k);
    EnhanceSplit(m[i], enh, key, k);
    assert m[i] == Spread(v, u);
    SpreadIdempotent(v, u);
  }

  /** Merging the same analyzer objects a second time changes nothing. */
  lemma MergeIdempotent(base: seq<Obj>, enh: seq<Obj>, key: string)
    ensures MergeByKey(MergeByKey(base, enh, key), enh, key) == MergeByKey(base, enh, key)
  {
    var m := MergeByKey(base, enh, key);
    MergedKeys(base, enh, key);
    DistinctOfUnique(KeysOf(m, key));
    var order := Distinct(KeysOf(m, key));
    assert |order| == |m|;
    forall i | 0 <= i < |m|
      ensures EnhanceWith(LastWith(m, key, order[i]), enh, key, order[i]) == m[i]
    {
      assert order[i] == KeyOf(m[i], key);
      MergeIdempotentAt(base, enh, key, i);
    }
  }
}

=== FILE: keywords.dfy ===
/** Frequency-based term extraction of the local analyzer
    (server/services/localAnalyzer.ts): key terms, top keywords and key
    phrases, all read from the lower-cased body text with punctuation removed. */
module Keywords {
  import opened Text
  import opened Ranking

  /** `text.replace(/[^\w\s]/g, '')`. */
  function StripPunctuation(s: string): (r: string)
    ensures forall i :: 0 <= i < |r| ==> IsWordChar(r[i]) || IsWhitespace(r[i])
    ensures |r| <= |s|
  {
    var r := Filter(s, (c: char) => IsWordChar(c) || IsWhitespace(c));
    assert forall i :: 0 <= i < |r| ==> r[i] in r;
    r
  }

  /** `text.toLowerCase().replace(/[^\w\s]/g, '').split(/\s+/)`. */
  function RawWords(body: string): (r: seq<string>)
    ensures forall k, i :: 0 <= k < |r| && 0 <= i < |r[k]| ==> IsWordChar(r[k][i])
  {
    var t := StripPunctuation(ToLower(body));
    var pieces := SplitBy(t, IsWhitespace);
    SplitPiecesAreWords(t, pieces);
    pieces
  }

  lemma SplitPiecesAreWords(t: string, pieces: seq<string>)
    requires forall i :: 0 <= i < |t| ==> IsWordChar(t[i]) || IsWhitespace(t[i])
    requires pieces == SplitBy(t, IsWhitespace)
    ensures forall k, i :: 0 <= k < |pieces| && 0 <= i < |pieces[k]| ==> IsWordChar(pieces[k][i])
  {
    SplitPiecesFromText(t, IsWhitespace);
    forall k, i | 0 <= k < |pieces| && 0 <= i < |pieces[k]| ensures IsWordChar(pieces[k][i]) {
      assert pieces[k][i] in t;
    }
  }

  /** Every character of every piece comes from the split text. */
  lemma {:induction false} SplitPiecesFromText(t: string, isSep: char -> bool)
    ensures forall k, i :: 0 <= k < |SplitBy(t, isSep)| && 0 <= i < |SplitBy(t, isSep)[k]| ==> SplitBy(t, isSep)[k][i] in t
  {
    if |t| > 0 {
      SplitPiecesFromText(t[1..], isSep);
      var rest := SplitBy(t[1..], isSep);
      assert forall k, i :: 0 <= k < |rest| && 0 <= i < |rest[k]| ==> rest[k][i] in t by {
        forall k, i | 0 <= k < |rest| && 0 <= i < |rest[k]| ensures rest[k][i] in t {
          var m :| 0 <= m < |t[1..]| && t[1..][m] == rest[k][i];
          assert t[m + 1] == rest[k][i];
        }
      }
    }
  }

  /** The words of `words` counted by frequency, most frequent first (ties
      in order of first occurrence), at most `n` of them. */
  function RankedTerms(words: seq<string>, n: nat): (r: seq<string>)
    ensures |r| <= n && NoDups(r)
    ensures forall i :: 0 <= i < |r| ==> r[i] in words
    ensures SortedDesc(r, (w: string) => Count(words, w))
    ensures forall w :: w in words && w !in r ==> |r| == n && forall i :: 0 <= i < |r| ==> Count(words, w) <= Count(words, r[i])
  {
    var key := (w: string) => Count(words, w);
    TopOfDistinct(words, key, n);
    TopByKey(Distinct(words), key, n)
  }

  // ----------------------------------------------------------------- key terms

  const KeyTermStopWords: set<string> := {
    "the", "and", "a", "an", "in", "on", "at", "to", "for", "of", "with",
    "by", "as", "is", "are", "was", "were", "be", "this", "that", "it",
    "or", "not", "but", "what", "which", "who", "whom", "whose", "when",
    "where", "why", "how", "all", "any", "both", "each", "few", "more",
    "most", "some", "such", "than", "too", "very", "can", "will", "just",
    "should", "now" }

  predicate IsKeyTermWord(w: string) { |w| > 3 && w !in KeyTermStopWords }

  function KeyTermWords(body: string): seq<string> {
    Filter(RawWords(body), IsKeyTermWord)
  }

  /** `extractKeyTerms`: the ten most frequent words longer than three letters
      that are not stop words. */
  function KeyTerms(body: string): (r: seq<string>)
    ensures |r| <= 10 && NoDups(r)
    ensures forall i :: 0 <= i < |r| ==> IsKeyTermWord(r[i]) && Count(KeyTermWords(body), r[i]) >= 1
    ensures forall i, j :: 0 <= i < j < |r| ==> Count(KeyTermWords(body), r[i]) >= Count(KeyTermWords(body), r[j])
    ensures forall w :: w in KeyTermWords(body) && w !in r
                        ==> |r| == 10 && forall i :: 0 <= i < |r| ==> Count(KeyTermWords(body), w) <= Count(KeyTermWords(body), r[i])
  {
    var words := KeyTermWords(body);
    var r := RankedTerms(words, 10);
    forall i | 0 <= i < |r| ensures Count(words, r[i]) >= 1 {
      CountPositive(words, r[i]);
    }
    r
  }

  // -------------------------------------------------------------- top keywords

  const KeywordStopWords: set<string> := KeyTermStopWords + {
    "from", "about", "would", "could", "their", "they",
    "them", "these", "those", "then", "your", "our", "we", "us" }

  predicate AllIn(s: string, ok: char -> bool) {
    forall i :: 0 <= i < |s| ==> ok(s[i])
  }

  /** `!isNaN(Number(w))` for a word of lower-case `\w` characters: decimal
      digits with an optional exponent, or a `0x`, `0b` or `0o` literal. */
  predicate IsNumberLiteral(w: string) {
    (|w| > 0 && AllIn(w, IsAsciiDigit))
    || (exists e :: 0 < e < |w| - 1 && w[e] == 'e' && AllIn(w[..e], IsAsciiDigit) && AllIn(w[e + 1..], IsAsciiDigit))
    || (|w| > 2 && w[0] == '0' && w[1] == 'x' && AllIn(w[2..], c => IsDigitIn(c, 16)))
    || (|w| > 2 && w[0] == '0' && w[1] == 'b' && AllIn(w[2..], c => IsDigitIn(c, 2)))
    || (|w| > 2 && w[0] == '0' && w[1] == 'o' && AllIn(w[2..], c => IsDigitIn(c, 8)))
  }

  predicate IsKeywordWord(w: string) {
    |w| > 3 && w !in KeywordStopWords && !IsNumberLiteral(w)
  }

  function KeywordWords(body: string): seq<string> {
    Filter(RawWords(body), IsKeywordWord)
  }

  /** `extractTopKeywords(count)`: as the key terms, over a longer stop list
      and without numbers. */
  function TopKeywords(body: string, count: nat): (r: seq<string>)
    ensures |r| <= count && NoDups(r)
    ensures forall i :: 0 <= i < |r| ==> IsKeywordWord(r[i]) && Count(KeywordWords(body), r[i]) >= 1
    ensures forall i, j :: 0 <= i < j < |r| ==> Count(KeywordWords(body), r[i]) >= Count(KeywordWords(body), r[j])
    ensures forall w :: w in KeywordWords(body) && w !in r
                        ==> |r| == count && forall i :: 0 <= i < |r| ==> Count(KeywordWords(body), w) <= Count(KeywordWords(body), r[i])
  {
    var words := KeywordWords(body);
    var r := RankedTerms(words, count);
    forall i | 0 <= i < |r| ensures Count(words, r[i]) >= 1 {
      CountPositive(words, r[i]);
    }
    r
  }

  /** Every top keyword is also eligible as a key term: the keyword filter
      only adds conditions. */
  lemma KeywordsAreKeyTermWords(w: string)
    ensures IsKeywordWord(w) ==> IsKeyTermWord(w)
  {
  }

  /** Years, exponents and hexadecimal literals are numbers; a word with a
      letter suffix or an underscore is not. */
  lemma NumberLiteralExamples()
    ensures IsNumberLiteral("2024") && IsNumberLiteral("1e10") && IsNumberLiteral("0x1f")
    ensures !IsNumberLiteral("2024s") && !IsNumberLiteral("1_000")
  {
    assert "1e10"[1] == 'e' && "1e10"[..1] == "1" && "1e10"[2..] == "10";
    assert "2024s"[4] == 's';
    assert !("1_000"[1] == 'e');
    assert !AllIn("1_000", IsAsciiDigit) by { assert "1_000"[1] == '_'; }
    forall e | 0 < e < 4 && "1_000"[e] == 'e' ensures false { }
  }

  // --------------------------------------------------------------- key phrases

  const PhraseStopWords: set<string> := { "the", "and", "a", "an", "in", "on", "at", "to", "for", "of", "with" }

  function PhraseWords(body: string): (r: seq<string>)
    ensures forall k :: 0 <= k < |r| ==> |r[k]| > 2
  {
    var r := Filter(RawWords(body), (w: string) => |w| > 2);
    assert forall k :: 0 <= k < |r| ==> r[k] in r;
    r
  }

  /** The bigrams and trigrams counted from position `i` on, one entry per
      counted occurrence, in the order the source counts them. */
  function PhraseOccurrencesFrom(w: seq<string>, i: nat): seq<string>
    decreases |w| - i
  {
    if i + 1 >= |w| then []
    else if w[i] in PhraseStopWords then PhraseOccurrencesFrom(w, i + 1)
    else
      var bigram := w[i] + " " + w[i + 1];
      var trigram := if i + 2 < |w| then w[i] + " " + w[i + 1] + " " + w[i + 2] else "";
      (if |bigram| > 5 then [bigram] else [])
      + (if i + 2 < |w| && w[i + 1] !in PhraseStopWords && |trigram| > 8 then [trigram] else [])
      + PhraseOccurrencesFrom(w, i + 1)
  }

  /** A counted phrase: two or three consecutive words, the first not a stop
      word, nor the second of a three-word phrase. */
  predicate IsPhraseAt(w: seq<string>, k: nat, p: string) {
    k + 1 < |w| && w[k] !in PhraseStopWords
    && (p == w[k] + " " + w[k + 1]
        || (k + 2 < |w| && w[k + 1] !in PhraseStopWords && p == w[k] + " " + w[k + 1] + " " + w[k + 2]))
  }

  lemma {:induction false} PhraseOccurrenceShape(w: seq<string>, i: nat)
    ensures forall p :: p in PhraseOccurrencesFrom(w, i) ==> exists k :: i <= k && IsPhraseAt(w, k, p)
    decreases |w| - i
  {
    if i + 1 < |w| {
      PhraseOccurrenceShape(w, i + 1);
      forall p | p in PhraseOccurrencesFrom(w, i) ensures exists k :: i <= k && IsPhraseAt(w, k, p) {
        if p !in PhraseOccurrencesFrom(w, i + 1) {
          assert IsPhraseAt(w, i, p);
        }
      }
    }
  }

  /** Words longer than two letters always pass the length guards. */
  lemma {:induction false} PhraseLengthGuards(w: seq<string>, i: nat)
    requires forall k :: 0 <= k < |w| ==> |w[k]| > 2
    requires i + 2 < |w|
    ensures |w[i] + " " + w[i + 1]| > 5
    ensures |w[i] + " " + w[i + 1] + " " + w[i + 2]| > 8
  {
  }

  /** How often a phrase occurs in `occ`. */
  function CountIn(occ: seq<string>): string -> int {
    p => Count(occ, p)
  }

  /** The phrase occurs in `occ` more than once. */
  function RepeatedIn(occ: seq<string>): string -> bool {
    p => Count(occ, p) > 1
  }

  /** The five most frequent of the phrases occurring more than once in `occ`;
      a repeated phrase is left out only when five others are kept, each at
      least as frequent. */
  function RepeatedTop(occ: seq<string>): (r: seq<string>)
    ensures |r| <= 5 && NoDups(r)
    ensures forall i :: 0 <= i < |r| ==> r[i] in occ && Count(occ, r[i]) > 1
    ensures forall i, j :: 0 <= i < j < |r| ==> Count(occ, r[i]) >= Count(occ, r[j])
    ensures forall p :: p in occ && Count(occ, p) > 1 && p !in r
                        ==> |r| == 5 && forall i :: 0 <= i < |r| ==> Count(occ, p) <= Count(occ, r[i])
  {
    var repeated := Filter(Distinct(occ), RepeatedIn(occ));
    FilterNoDups(Distinct(occ), RepeatedIn(occ));
    RepeatedTopDominates(occ);
    TopByKey(repeated, CountIn(occ), 5)
  }

  lemma RepeatedTopDominates(occ: seq<string>)
    ensures var r := TopByKey(Filter(Distinct(occ), RepeatedIn(occ)), CountIn(occ), 5);
            forall p :: p in occ && Count(occ, p) > 1 && p !in r
                        ==> |r| == 5 && forall i :: 0 <= i < |r| ==> Count(occ, p) <= Count(occ, r[i])
  {
    var d := Distinct(occ);
    var rep := Filter(d, RepeatedIn(occ));
    var r := TopByKey(rep, CountIn(occ), 5);
    forall p | p in occ && Count(occ, p) > 1 && p !in r
      ensures |r| == 5 && forall i :: 0 <= i < |r| ==> Count(occ, p) <= Count(occ, r[i])
    {
      var k :| 0 <= k < |occ| && occ[k] == p;
      assert p in d;
      FilterHas(d, RepeatedIn(occ), p);
      var j :| 0 <= j < |rep| && rep[j] == p;
      forall i | 0 <= i < |r| ensures Count(occ, p) <= Count(occ, r[i]) {
        assert CountIn(occ)(rep[j]) <= CountIn(occ)(r[i]);
      }
    }
  }

  function PhraseOccurrences(body: string): seq<string> {
    PhraseOccurrencesFrom(PhraseWords(body), 0)
  }

  /** `extractKeyPhrases`: the five most frequent phrases among those counted
      more than once. */
  function KeyPhrases(body: string): (r: seq<string>)
    ensures |r| <= 5 && NoDups(r)
    ensures forall i :: 0 <= i < |r| ==> Count(PhraseOccurrences(body), r[i]) > 1
    ensures forall i, j :: 0 <= i < j < |r| ==> Count(PhraseOccurrences(body), r[i]) >= Count(PhraseOccurrences(body), r[j])
    ensures forall p :: p in PhraseOccurrences(body) && Count(PhraseOccurrences(body), p) > 1 && p !in r
                        ==> |r| == 5 && forall i :: 0 <= i < |r| ==> Count(PhraseOccurrences(body), p) <= Count(PhraseOccurrences(body), r[i])
  {
    RepeatedTop(PhraseOccurrences(body))
  }

  /** Every key phrase is two or three consecutive words of the text. */
  lemma KeyPhrasesAreWordRuns(body: string)
    ensures forall p :: p in KeyPhrases(body) ==> exists k :: IsPhraseAt(PhraseWords(body), k, p)
  {
    assert KeyPhrases(body) == RepeatedTop(PhraseOccurrencesFrom(PhraseWords(body), 0));
    RepeatedAreRuns(PhraseWords(body));
  }

  lemma RepeatedAreRuns(w: seq<string>)
    ensures forall p :: p in RepeatedTop(PhraseOccurrencesFrom(w, 0)) ==> exists k :: IsPhraseAt(w, k, p)
  {
    var occ := PhraseOccurrencesFrom(w, 0);
    PhraseOccurrenceShape(w, 0);
    forall p | p in RepeatedTop(occ) ensures exists k :: IsPhraseAt(w, k, p) {
      assert p in occ;
    }
  }

  lemma {:induction false} FilterNoDups<T>(s: seq<T>, keep: T -> bool)
    requires NoDups(s)
    ensures NoDups(Filter(s, keep))
  {
    if |s| > 0 {
      FilterNoDups(s[1..], keep);
      assert s[0] !in s[1..] by {
        forall m | 0 <= m < |s| - 1 ensures s[1..][m] != s[0] {
          assert s[1..][m] == s[m + 1];
        }
      }
    }
  }
}

=== FILE: link_insights.dfy ===
/** Link categorisation of the local analyzer
    (server/services/localAnalyzer.ts, `categorizeLinks` and
    `estimateLinkImportance`): each anchor with a non-empty `href` gets a type
    (internal, external, unknown), a category and an importance. */
module LinkInsights {
  import opened Wrappers
  import opened Text
  import opened Rules
  import opened Document
  import opened JsonValue

  datatype LinkType = Internal | External | UnknownType

  datatype LinkCategory =
    | AnchorLink | Navigation | Reference | ContactLink | Other
    | Download | Information | ProductLink | ContentLink
    | Social | Media | Authentication

  datatype LinkImportance =
    | PrimaryNavigation | CallToAction | FooterLink | ContentLinkImportance | VisualLink | StandardLink

  datatype LinkClass = LinkClass(linkType: LinkType, category: LinkCategory)

  datatype LinkEntry = LinkEntry(url: string, text: string, linkClass: LinkClass, importance: LinkImportance)

  function TypeName(t: LinkType): string {
    match t
    case Internal => "internal"
    case External => "external"
    case UnknownType => "unknown"
  }

  function CategoryName(c: LinkCategory): string {
    match c
    case AnchorLink => "anchor"
    case Navigation => "navigation"
    case Reference => "reference"
    case ContactLink => "contact"
    case Other => "other"
    case Download => "download"
    case Information => "information"
    case ProductLink => "product"
    case ContentLink => "content"
    case Social => "social"
    case Media => "media"
    case Authentication => "authentication"
  }

  function ImportanceName(i: LinkImportance): string {
    match i
    case PrimaryNavigation => "Primary Navigation"
    case CallToAction => "Call to Action"
    case FooterLink => "Footer Link"
    case ContentLinkImportance => "Content Link"
    case VisualLink => "Visual Link"
    case StandardLink => "Standard Link"
  }

  const DownloadExtensions: seq<string> := ["pdf", "doc", "docx", "xls", "xlsx", "csv", "txt", "zip", "rar"]

  /** `/\.(pdf|doc|docx|xls|xlsx|csv|txt|zip|rar)$/i`. */
  predicate IsDownload(href: string) {
    exists i :: 0 <= i < |DownloadExtensions| && EndsWith(ToLower(href), "." + DownloadExtensions[i])
  }

  predicate ContainsAny(s: string, parts: seq<string>) {
    exists i :: 0 <= i < |parts| && Contains(s, parts[i])
  }

  /** The first classification, from the shape of `href`. */
  function InitialRules(href: string, domain: string): seq<Rule<LinkClass>> {
    [ Rule(StartsWith(href, "#"), LinkClass(Internal, AnchorLink)),
      Rule(StartsWith(href, "/") || Contains(href, domain), LinkClass(Internal, Navigation)),
      Rule(StartsWith(href, "http"), LinkClass(External, Reference)),
      Rule(StartsWith(href, "mailto:"), LinkClass(External, ContactLink)) ]
  }

  function InternalRefinement(href: string): seq<Rule<LinkCategory>> {
    [ Rule(IsDownload(href), Download),
      Rule(ContainsAny(href, ["contact", "about"]), Information),
      Rule(ContainsAny(href, ["product", "shop", "buy"]), ProductLink),
      Rule(ContainsAny(href, ["blog", "article", "post", "news"]), ContentLink) ]
  }

  function ExternalRefinement(href: string, text: string): seq<Rule<LinkCategory>> {
    [ Rule(ContainsAny(href, ["facebook.com", "twitter.com", "instagram.com", "linkedin.com"]), Social),
      Rule(ContainsAny(href, ["youtube.com", "vimeo.com"]), Media),
      Rule(IsDownload(href), Download),
      Rule(ContainsAny(ToLower(text), ["login", "sign in"]), Authentication) ]
  }

  /** Type and category of a link with `href` (non-empty) and trimmed `text`,
      on a page whose host name is `domain`. */
  function Classify(href: string, text: string, domain: string): LinkClass {
    var first := FirstMatch(InitialRules(href, domain), LinkClass(UnknownType, Other));
    match first.linkType
    case Internal => LinkClass(Internal, FirstMatch(InternalRefinement(href), first.category))
    case External => LinkClass(External, FirstMatch(ExternalRefinement(href, text), first.category))
    case UnknownType => first
  }

  predicate InternalCategory(c: LinkCategory) {
    c in {AnchorLink, Navigation, Download, Information, ProductLink, ContentLink}
  }

  predicate ExternalCategory(c: LinkCategory) {
    c in {Reference, ContactLink, Social, Media, Download, Authentication}
  }

  /** The first classification pairs internal links with the anchor or
      navigation category and external ones with reference or contact. */
  lemma InitialClassFacts(href: string, domain: string)
    ensures var k := FirstMatch(InitialRules(href, domain), LinkClass(UnknownType, Other));
            && (k.linkType == Internal ==> k.category in {AnchorLink, Navigation})
            && (k.linkType == External ==> k.category in {Reference, ContactLink})
            && (k.linkType == UnknownType ==> k.category == Other)
            && (k.category == AnchorLink ==> StartsWith(href, "#"))
  {
    FirstMatchKeeps(InitialRules(href, domain), LinkClass(UnknownType, Other), (k: LinkClass) =>
      (k.linkType == Internal ==> k.category in {AnchorLink, Navigation})
      && (k.linkType == External ==> k.category in {Reference, ContactLink})
      && (k.linkType == UnknownType ==> k.category == Other)
      && (k.category == AnchorLink ==> StartsWith(href, "#")));
  }

  /** Refining an internal link keeps it in an internal category. */
  lemma InternalRefinementFacts(href: string, c: LinkCategory)
    requires c in {AnchorLink, Navigation} && (c == AnchorLink ==> StartsWith(href, "#"))
    ensures var r := FirstMatch(InternalRefinement(href), c);
            InternalCategory(r) && (r == AnchorLink ==> StartsWith(href, "#"))
  {
    FirstMatchKeeps(InternalRefinement(href), c, InternalCategory);
    FirstMatchKeeps(InternalRefinement(href), c, (k: LinkCategory) => k == AnchorLink ==> StartsWith(href, "#"));
  }

  /** Refining an external link keeps it in an external category. */
  lemma ExternalRefinementFacts(href: string, text: string, c: LinkCategory)
    requires c in {Reference, ContactLink}
    ensures ExternalCategory(FirstMatch(ExternalRefinement(href, text), c))
  {
    FirstMatchKeeps(ExternalRefinement(href, text), c, ExternalCategory);
  }

  /** How the first classification and the refinements fit together. */
  lemma ClassifyFacts(href: string, text: string, domain: string)
    ensures var c := Classify(href, text, domain);
            && (c.linkType == Internal ==> InternalCategory(c.category))
            && (c.linkType == External ==> ExternalCategory(c.category))
            && (c.linkType == UnknownType <==> c.category == Other)
            && (c.category == AnchorLink ==> StartsWith(href, "#"))
            && (c.category in {Social, Media, Authentication, Reference, ContactLink} ==> c.linkType == External)
            && (c.category in {Navigation, Information, ProductLink, ContentLink} ==> c.linkType == Internal)
  {
    var first := FirstMatch(InitialRules(href, domain), LinkClass(UnknownType, Other));
    InitialClassFacts(href, domain);
    match first.linkType
    case Internal =>
      InternalRefinementFacts(href, first.category);
      assert Classify(href, text, domain) == LinkClass(Internal, FirstMatch(InternalRefinement(href), first.category));
    case External =>
      ExternalRefinementFacts(href, text, first.category);
      assert Classify(href, text, domain) == LinkClass(External, FirstMatch(ExternalRefinement(href, text), first.category));
    case UnknownType =>
      assert Classify(href, text, domain) == first;
  }

  /** The type depends on `href` and the domain only: unknown exactly when
      `href` has none of the recognised shapes. */
  lemma UnknownTypeExactly(href: string, text: string, domain: string)
    ensures Classify(href, text, domain).linkType == UnknownType
            <==> !StartsWith(href, "#") && !StartsWith(href, "/") && !Contains(href, domain)
                 && !StartsWith(href, "http") && !StartsWith(href, "mailto:")
  {
    var rules := InitialRules(href, domain);
    var dflt := LinkClass(UnknownType, Other);
    if StartsWith(href, "#") {
      FirstMatchPicks(rules, dflt, 0);
    } else if StartsWith(href, "/") || Contains(href, domain) {
      FirstMatchPicks(rules, dflt, 1);
    } else if StartsWith(href, "http") {
      FirstMatchPicks(rules, dflt, 2);
    } else if StartsWith(href, "mailto:") {
      FirstMatchPicks(rules, dflt, 3);
    } else {
      FirstMatchDefault(rules, dflt);
    }
  }

  function ImportanceRules(a: Anchor): seq<Rule<LinkImportance>> {
    [ Rule(a.inNavOrHeader, PrimaryNavigation),
      Rule(a.hasButtonClass || a.displayBlock || a.hasPadding || a.hasBackgroundColor, CallToAction),
      Rule(a.inFooter, FooterLink),
      Rule(a.inContentArea, ContentLinkImportance),
      Rule(a.containsImage, VisualLink) ]
  }

  function LinkImportanceOf(a: Anchor): LinkImportance {
    FirstMatch(ImportanceRules(a), StandardLink)
  }

  /** A link inside `nav`/`header` is primary navigation whatever its style;
      a plain link outside every recognised area is a standard link. */
  lemma LinkImportanceFacts(a: Anchor)
    ensures a.inNavOrHeader ==> LinkImportanceOf(a) == PrimaryNavigation
    ensures LinkImportanceOf(a) == StandardLink
            <==> !a.inNavOrHeader && !a.hasButtonClass && !a.displayBlock && !a.hasPadding
                 && !a.hasBackgroundColor && !a.inFooter && !a.inContentArea && !a.containsImage
    ensures LinkImportanceOf(a) == FooterLink ==> a.inFooter && !a.inNavOrHeader
  {
    var rules := ImportanceRules(a);
    if a.inNavOrHeader {
      FirstMatchPicks(rules, StandardLink, 0);
    } else if rules[1].holds {
      FirstMatchPicks(rules, StandardLink, 1);
    } else if a.inFooter {
      FirstMatchPicks(rules, StandardLink, 2);
    } else if a.inContentArea {
      FirstMatchPicks(rules, StandardLink, 3);
    } else if a.containsImage {
      FirstMatchPicks(rules, StandardLink, 4);
    } else {
      FirstMatchDefault(rules, StandardLink);
    }
  }

  const NoText := "(No text)"

  function EntryOf(a: Anchor, domain: string): (e: LinkEntry)
    requires HasHref(a)
    ensures e.url == a.href.value && e.text != ""
    ensures Trim(a.text) != "" ==> e.text == Trim(a.text)
    ensures Trim(a.text) == "" ==> e.text == NoText
    ensures e.linkClass == Classify(a.href.value, Trim(a.text), domain) && e.importance == LinkImportanceOf(a)
  {
    var text := Trim(a.text);
    LinkEntry(a.href.value, if text != "" then text else NoText,
              Classify(a.href.value, text, domain), LinkImportanceOf(a))
  }

  /** `categorizeLinks`: one entry per anchor with a non-empty `href`, in
      document order. */
  function CategorizeLinks(anchors: seq<Anchor>, domain: string): (r: seq<LinkEntry>)
    ensures |r| <= |anchors|
    ensures AllNamed(r)
    ensures MapsEach(r, Filter(anchors, HasHref), EntryFor(domain))
  {
    if |anchors| == 0 then []
    else
      var rest := CategorizeLinks(anchors[1..], domain);
      var r := if HasHref(anchors[0]) then [EntryOf(anchors[0], domain)] + rest else rest;
      MapsEachFilterStep(r, rest, anchors, HasHref, EntryFor(domain));
      if HasHref(anchors[0]) then
        AllNamedCons(EntryOf(anchors[0], domain), rest);
        r
      else r
  }

  /** The entry of an anchor with an `href`, for the page's `domain`. */
  function EntryFor(domain: string): Anchor --> LinkEntry {
    a requires HasHref(a) => EntryOf(a, domain)
  }

  /** Every entry has a url and a text. */
  predicate AllNamed(es: seq<LinkEntry>) {
    forall i :: 0 <= i < |es| ==> es[i].url != "" && es[i].text != ""
  }

  lemma AllNamedCons(e: LinkEntry, rest: seq<LinkEntry>)
    requires e.url != "" && e.text != "" && AllNamed(rest)
    ensures AllNamed([e] + rest)
  {
    var es := [e] + rest;
    forall i | 0 <= i < |es| ensures es[i].url != "" && es[i].text != "" {
      if i > 0 { assert es[i] == rest[i - 1]; }
    }
  }

  /** The entries keep the anchors' order: their urls are exactly the
      non-empty `href` values. */
  lemma {:induction false} CategorizedUrls(anchors: seq<Anchor>, domain: string)
    ensures var es := CategorizeLinks(anchors, domain);
            |es| == |Hrefs(anchors)| && forall i :: 0 <= i < |es| ==> es[i].url == Hrefs(anchors)[i]
  {
    if |anchors| > 0 {
      CategorizedUrls(anchors[1..], domain);
      var rest := CategorizeLinks(anchors[1..], domain);
      if HasHref(anchors[0]) {
        var e := EntryOf(anchors[0], domain);
        var es, hs := CategorizeLinks(anchors, domain), Hrefs(anchors);
        assert es == [e] + rest;
        assert hs == [anchors[0].href.value] + Hrefs(anchors[1..]);
        forall i | 0 <= i < |es| ensures es[i].url == hs[i] {
          if i > 0 {
            assert es[i] == rest[i - 1];
          }
        }
      } else {
        assert CategorizeLinks(anchors, domain) == rest;
        assert Hrefs(anchors) == Hrefs(anchors[1..]);
      }
    }
  }

  function EntryJson(e: LinkEntry): Obj {
    map[ "url" := JStr(e.url),
         "text" := JStr(e.text),
         "type" := JStr(TypeName(e.linkClass.linkType)),
         "category" := JStr(CategoryName(e.linkClass.category)),
         "importance" := JStr(ImportanceName(e.importance)) ]
  }

  function LinksJson(es: seq<LinkEntry>): (r: seq<Obj>)
    ensures |r| == |es|
    ensures forall i :: 0 <= i < |es| ==> Field(r[i], "url") == Some(JStr(es[i].url))
    ensures forall i :: 0 <= i < |es| ==> r[i].Keys == {"url", "text", "type", "category", "importance"}
  {
    seq(|es|, i requires 0 <= i < |es| => EntryJson(es[i]))
  }
}

=== FILE: local_analyzer.dfy ===
/** `analyzeWebContent` (server/services/localAnalyzer.ts): the option-gated
    assembly of the local analysis from the page classifiers. The clock, the
    locale date formatter and the URL parser are parameters. */
module LocalAnalyzer {
  import opened Wrappers
  import opened Text
  import opened JsonValue
  import opened Document
  import opened ScrapeOptions
  import PageInsights
  import Keywords
  import LinkInsights
  import ImageInsights

  /** What the analyzer takes from its environment: the current year, the
      locale date formatter, and `new URL(u).hostname` (`None` when the
      constructor throws). */
  datatype Env = Env(currentYear: int, formatDate: string -> string, hostname: string -> Option<string>)

  datatype MetadataInsights = MetadataInsights(
    mainTopic: string,
    contentType: PageInsights.ContentType,
    estimatedAge: string,
    keyTerms: seq<string>,
    sentiment: PageInsights.Sentiment,
    readability: PageInsights.Readability)

  datatype ContentInsights = ContentInsights(
    summary: string,
    mainThemes: seq<string>,
    topKeywords: seq<string>,
    keyPhrases: seq<string>,
    quality: PageInsights.Quality)

  /** The analysis object: a section is present only when it was requested. */
  datatype Analysis = Analysis(
    metadata: Option<MetadataInsights>,
    content: Option<ContentInsights>,
    links: Option<seq<LinkInsights.LinkEntry>>,
    images: Option<seq<ImageInsights.ImageEntry>>)

  function MetadataOf(p: Page, env: Env): MetadataInsights {
    MetadataInsights(
      PageInsights.MainTopic(p),
      PageInsights.DetectContentType(p),
      PageInsights.EstimatedAge(p, env.currentYear, env.formatDate),
      Keywords.KeyTerms(p.bodyText),
      PageInsights.AnalyzeSentiment(p),
      PageInsights.EstimateReadability(p))
  }

  function ContentOf(p: Page): ContentInsights {
    ContentInsights(
      PageInsights.GenerateSummary(p),
      PageInsights.IdentifyThemes(p),
      Keywords.TopKeywords(p.bodyText, 10),
      Keywords.KeyPhrases(p.bodyText),
      PageInsights.EstimateQuality(p))
  }

  /** The message of the `TypeError` thrown by `new URL` on a malformed url. */
  const InvalidUrl := "Invalid URL"

  /** `analyzeWebContent(url, html, options)`. The only way it fails is the
      link categoriser's `new URL(url)`, which runs only when links are
      requested. */
  function AnalyzeWebContent(url: string, p: Page, o: Options, env: Env): (r: Result<Analysis>)
    ensures r.Failure? <==> o.parseLinks && env.hostname(url).None?
    ensures r.Failure? ==> r.message == InvalidUrl
    ensures r.Success? ==> (r.value.metadata.Some? <==> o.parseMetadata)
                           && (r.value.content.Some? <==> o.parseText)
                           && (r.value.links.Some? <==> o.parseLinks)
                           && (r.value.images.Some? <==> o.parseImages)
    ensures r.Success? && o.parseLinks
            ==> r.value.links == Some(LinkInsights.CategorizeLinks(p.anchors, env.hostname(url).value))
    ensures r.Success? && o.parseImages ==> r.value.images == Some(ImageInsights.AnalyzeImages(p.images))
    ensures r.Success? && o.parseMetadata ==> r.value.metadata == Some(MetadataOf(p, env))
    ensures r.Success? && o.parseText ==> r.value.content == Some(ContentOf(p))
  {
    var host := env.hostname(url);
    if o.parseLinks && host.None? then Failure(InvalidUrl)
    else
      Success(Analysis(
        if o.parseMetadata then Some(MetadataOf(p, env)) else None,
        if o.parseText then Some(ContentOf(p)) else None,
        if o.parseLinks then Some(LinkInsights.CategorizeLinks(p.anchors, host.value)) else None,
        if o.parseImages then Some(ImageInsights.AnalyzeImages(p.images)) else None))
  }

  function MetadataJson(m: MetadataInsights): Obj {
    map[ "mainTopic" := JStr(m.mainTopic),
         "contentType" := JStr(PageInsights.ContentTypeName(m.contentType)),
         "estimatedAge" := JStr(m.estimatedAge),
         "keyTerms" := StrArr(m.keyTerms),
         "sentiment" := JStr(PageInsights.SentimentName(m.sentiment)),
         "estimatedReadability" := JStr(PageInsights.ReadabilityName(m.readability)) ]
  }

  function ContentJson(c: ContentInsights): Obj {
    map[ "summary" := JStr(c.summary),
         "mainThemes" := StrArr(c.mainThemes),
         "topKeywords" := StrArr(c.topKeywords),
         "keyPhrases" := StrArr(c.keyPhrases),
         "estimatedQuality" := JStr(PageInsights.QualityName(c.quality)) ]
  }

  function OptionalSection(name: string, present: bool, value: Json): (r: Obj)
    ensures r.Keys == if present then {name} else {}
    ensures present ==> r[name] == value
  {
    if present then map[name := value] else map[]
  }

  /** The analysis as the JSON object the scraper and the routes receive. */
  function AnalysisJson(a: Analysis): (r: Obj)
    ensures r.Keys == (if a.metadata.Some? then {"metadata"} else {})
                      + (if a.content.Some? then {"content"} else {})
                      + (if a.links.Some? then {"links"} else {})
                      + (if a.images.Some? then {"images"} else {})
  {
    var m := OptionalSection("metadata", a.metadata.Some?,
                             if a.metadata.Some? then JObj(MetadataJson(a.metadata.value)) else JNull);
    var c := OptionalSection("content", a.content.Some?,
                             if a.content.Some? then JObj(ContentJson(a.content.value)) else JNull);
    var l := OptionalSection("links", a.links.Some?,
                             if a.links.Some? then ObjArr(LinkInsights.LinksJson(a.links.value)) else JNull);
    var i := OptionalSection("images", a.images.Some?,
                             if a.images.Some? then ObjArr(ImageInsights.ImagesJson(a.images.value)) else JNull);
    m + c + l + i
  }

  /** Each section of the analysis object exists exactly when its toggle is
      on; with every toggle off the result is `{}`, whatever the url. */
  lemma SectionsFollowToggles(url: string, p: Page, o: Options, env: Env)
    requires AnalyzeWebContent(url, p, o, env).Success?
    ensures var keys := AnalysisJson(AnalyzeWebContent(url, p, o, env).value).Keys;
            && ("metadata" in keys <==> o.parseMetadata)
            && ("content" in keys <==> o.parseText)
            && ("links" in keys <==> o.parseLinks)
            && ("images" in keys <==> o.parseImages)
    ensures NothingRequested(o) ==> AnalysisJson(AnalyzeWebContent(url, p, o, env).value) == map[]
  {
    var a := AnalyzeWebContent(url, p, o, env).value;
    SectionKeys(a);
  }

  /** The value under each present section key. */
  lemma SectionValues(a: Analysis)
    ensures a.metadata.Some? ==> AnalysisJson(a)["metadata"] == JObj(MetadataJson(a.metadata.value))
    ensures a.content.Some? ==> AnalysisJson(a)["content"] == JObj(ContentJson(a.content.value))
    ensures a.links.Some? ==> AnalysisJson(a)["links"] == ObjArr(LinkInsights.LinksJson(a.links.value))
    ensures a.images.Some? ==> AnalysisJson(a)["images"] == ObjArr(ImageInsights.ImagesJson(a.images.value))
  {
    SectionKeys(a);
  }

  /** The links section as the object holds it. */
  lemma LinksSection(a: Analysis, links: seq<LinkInsights.LinkEntry>)
    requires a.links == Some(links)
    ensures FieldOr(AnalysisJson(a), "links", JNull) == ObjArr(LinkInsights.LinksJson(links))
  {
    SectionValues(a);
  }

  lemma SectionKeys(a: Analysis)
    ensures "metadata" in AnalysisJson(a) <==> a.metadata.Some?
    ensures "content" in AnalysisJson(a) <==> a.content.Some?
    ensures "links" in AnalysisJson(a) <==> a.links.Some?
    ensures "images" in AnalysisJson(a) <==> a.images.Some?
    ensures a.metadata.None? && a.content.None? && a.links.None? && a.images.None? ==> AnalysisJson(a) == map[]
  {
    if a.metadata.None? && a.content.None? && a.links.None? && a.images.None? {
      assert AnalysisJson(a).Keys == {};
    }
  }
}

=== FILE: options.dfy ===
/** The scrape options shared by client and server (shared/schema.ts):
    four section toggles, defaulting to on, and the OpenAI switch and key. */
module ScrapeOptions {
  import opened Wrappers

  datatype Options = Options(
    parseImages: bool,
    parseLinks: bool,
    parseMetadata: bool,
    parseText: bool,
    useOpenAI: bool,
    openAIKey: Option<string>)

  /** The schema defaults: every section on, OpenAI off, no key. */
  const Defaults := Options(true, true, true, true, false, None)

  /** All four section toggles off. */
  predicate NothingRequested(o: Options) {
    !o.parseImages && !o.parseLinks && !o.parseMetadata && !o.parseText
  }
}

=== FILE: page_insights.dfy ===
/** The page-level classifiers of the local analyzer (server/services/localAnalyzer.ts):
    main topic, content type, content age, sentiment, readability, summary,
    themes and content quality. Each reads the page facts only. */
module PageInsights {
  import opened Wrappers
  import opened Text
  import opened Rules
  import opened Document
  import Ranking

  // ---------------------------------------------------------------- main topic

  predicate IsSiteSeparator(c: char) { c == '-' || c == '|' }

  /** `title.replace(/[-|]\s*[^-|]*$/, '')`: the pattern can only match from
      the last `-` or `|` to the end, so that suffix is dropped. */
  function StripSiteSuffix(s: string): (r: string)
    ensures |r| <= |s| && r == s[..|r|]
    ensures (exists i :: 0 <= i < |s| && IsSiteSeparator(s[i])) <==> |r| < |s|
    ensures |r| < |s| ==> IsSiteSeparator(s[|r|]) && forall i :: |r| < i < |s| ==> !IsSiteSeparator(s[i])
  {
    if |s| == 0 then s
    else if IsSiteSeparator(s[|s| - 1]) then s[..|s| - 1]
    else
      var r := StripSiteSuffix(s[..|s| - 1]);
      if |r| == |s| - 1 then s else r
  }

  predicate IsClauseMark(c: char) { c == '.' || c == ',' || c == ':' || c == ';' }

  /** A clause whose trimmed length exceeds 10. */
  predicate IsLongClause(c: string) { |Trim(c)| > 10 }

  /** Clause `k` is the first one longer than 10 once trimmed. */
  predicate IsFirstLong(clauses: seq<string>, k: int) {
    0 <= k < |clauses| && IsLongClause(clauses[k]) && forall j :: 0 <= j < k ==> !IsLongClause(clauses[j])
  }

  /** The index of the first long clause from `k` on, or `|clauses|`. */
  function FirstLongFrom(clauses: seq<string>, k: nat): (r: nat)
    requires k <= |clauses|
    ensures k <= r <= |clauses|
    ensures forall j :: k <= j < r ==> !IsLongClause(clauses[j])
    ensures r < |clauses| ==> IsLongClause(clauses[r])
    decreases |clauses| - k
  {
    if k == |clauses| || IsLongClause(clauses[k]) then k else FirstLongFrom(clauses, k + 1)
  }

  /** `clauses.filter(c => c.trim().length > 10)[0]`: the first long
      clause, none exactly when no clause is long. */
  function FirstLongClause(clauses: seq<string>): (r: Option<string>)
    ensures r.None? <==> forall i :: 0 <= i < |clauses| ==> !IsLongClause(clauses[i])
    ensures r.Some? ==> exists k :: IsFirstLong(clauses, k) && r.value == clauses[k]
  {
    var k := FirstLongFrom(clauses, 0);
    if k < |clauses| then Some(clauses[k]) else None
  }

  const UnknownTopic := "Unknown Topic"

  function MainTopic(p: Page): string {
    var h1 := Trim(FirstH1Text(p.headings));
    if |h1| > 5 then h1
    else
      var title := Trim(TitleText(p));
      if title != "" then Trim(StripSiteSuffix(title))
      else
        DescriptionTopic(AttrOr(MetaByName(p.metas, "description"), ""))
  }

  /** The last resort of `extractMainTopic`: the first long clause of the
      meta description. */
  function DescriptionTopic(desc: string): string {
    if desc == "" then UnknownTopic else ClauseTopic(SplitBy(desc, IsClauseMark))
  }

  function ClauseTopic(clauses: seq<string>): string {
    match FirstLongClause(clauses)
    case Some(c) => Trim(c)
    case None => UnknownTopic
  }

  /** `extractMainTopic` tries an `h1` longer than 5 first, then the title
      without its site suffix: cut before its last `-` or `|` when it has
      one, whole otherwise. */
  lemma MainTopicFromTitle(p: Page)
    ensures var h1 := Trim(FirstH1Text(p.headings));
            |h1| > 5 ==> MainTopic(p) == h1
    ensures var h1, title := Trim(FirstH1Text(p.headings)), Trim(TitleText(p));
            |h1| <= 5 && title != "" && (forall j :: 0 <= j < |title| ==> !IsSiteSeparator(title[j]))
            ==> MainTopic(p) == title
    ensures var h1, title := Trim(FirstH1Text(p.headings)), Trim(TitleText(p));
            |h1| <= 5 && title != "" && (exists j :: 0 <= j < |title| && IsSiteSeparator(title[j]))
            ==> exists k :: 0 <= k < |title| && IsSiteSeparator(title[k])
                            && (forall j :: k < j < |title| ==> !IsSiteSeparator(title[j]))
                            && MainTopic(p) == Trim(title[..k])
  {
    var h1, title := Trim(FirstH1Text(p.headings)), Trim(TitleText(p));
    if |h1| <= 5 && title != "" {
      var r := StripSiteSuffix(title);
      assert MainTopic(p) == Trim(r);
      if |r| == |title| {
        assert r == title;
        TrimOfTrimmed(title);
      } else {
        assert r == title[..|r|];
      }
    }
  }

  /** The description fallback: the first clause longer than 10, trimmed,
      and "Unknown Topic" for an empty description or one without such a
      clause. */
  lemma DescriptionTopicIs(desc: string)
    ensures var clauses := SplitBy(desc, IsClauseMark);
            desc == "" || (forall i :: 0 <= i < |clauses| ==> !IsLongClause(clauses[i]))
            ==> DescriptionTopic(desc) == UnknownTopic
    ensures var clauses := SplitBy(desc, IsClauseMark);
            forall k :: desc != "" && IsFirstLong(clauses, k) ==> DescriptionTopic(desc) == Trim(clauses[k])
  {
    if desc == "" {
      assert DescriptionTopic(desc) == UnknownTopic;
    } else {
      var clauses := SplitBy(desc, IsClauseMark);
      assert DescriptionTopic(desc) == ClauseTopic(clauses);
      ClauseTopicIs(clauses);
    }
  }

  lemma ClauseTopicIs(clauses: seq<string>)
    ensures (forall i :: 0 <= i < |clauses| ==> !IsLongClause(clauses[i])) ==> ClauseTopic(clauses) == UnknownTopic
    ensures forall k :: IsFirstLong(clauses, k) ==> ClauseTopic(clauses) == Trim(clauses[k])
  {
    forall k | IsFirstLong(clauses, k)
      ensures ClauseTopic(clauses) == Trim(clauses[k])
    {
      FirstLongClauseIs(clauses, k);
    }
  }

  /** Without a long `h1` or a title, the topic is the description
      fallback. */
  lemma MainTopicFromDescription(p: Page)
    requires |Trim(FirstH1Text(p.headings))| <= 5 && Trim(TitleText(p)) == ""
    ensures MainTopic(p) == DescriptionTopic(AttrOr(MetaByName(p.metas, "description"), ""))
  {
  }

  lemma FirstLongClauseIs(clauses: seq<string>, k: nat)
    requires IsFirstLong(clauses, k)
    ensures FirstLongClause(clauses) == Some(clauses[k])
  {
    var i := FirstLongFrom(clauses, 0);
    assert !(i < k) && !(k < i);
  }

  lemma {:induction false} TrimOfTrimmed(s: string)
    requires |s| > 0 ==> !IsWhitespace(s[0]) && !IsWhitespace(s[|s| - 1])
    ensures Trim(s) == s
  {
  }

  lemma TrimDropsTrailingSpace(t: string)
    requires |t| > 0 && !IsWhitespace(t[0]) && !IsWhitespace(t[|t| - 1])
    ensures Trim(t + " ") == t
  {
    assert (t + " ")[..|t|] == t;
  }

  /** A title "Name - Brand" (no `-`/`|` inside either part) with no long
      `h1` gives the topic "Name". */
  lemma MainTopicDropsBrand(p: Page, name: string, brand: string)
    requires |Trim(FirstH1Text(p.headings))| <= 5
    requires p.titles == [name + " - " + brand]
    requires |name| > 0 && !IsWhitespace(name[0]) && !IsWhitespace(name[|name| - 1])
    requires |brand| > 0 && !IsWhitespace(brand[|brand| - 1])
    requires forall i :: 0 <= i < |name| ==> !IsSiteSeparator(name[i])
    requires forall i :: 0 <= i < |brand| ==> !IsSiteSeparator(brand[i])
    ensures MainTopic(p) == name
  {
    var title := name + " - " + brand;
    assert TitleText(p) == title by {
      assert Concat(p.titles) == title + Concat([]);
    }
    TrimOfTrimmed(title);
    var r := StripSiteSuffix(title);
    assert IsSiteSeparator(title[|name| + 1]);
    assert forall i :: |name| + 1 < i < |title| ==> !IsSiteSeparator(title[i]) by {
      forall i | |name| + 1 < i < |title| ensures !IsSiteSeparator(title[i]) {
        if i == |name| + 2 {
          assert title[i] == ' ';
        } else {
          assert title[i] == brand[i - |name| - 3];
        }
      }
    }
    assert |r| < |title|;
    assert !(|r| < |name| + 1);
    assert |r| == |name| + 1;
    assert r == name + " ";
    TrimDropsTrailingSpace(name);
  }

  /** Without a long `h1`, a title or a long description clause, the topic is
      "Unknown Topic". */
  lemma MainTopicUnknown(p: Page)
    requires |Trim(FirstH1Text(p.headings))| <= 5
    requires Trim(TitleText(p)) == ""
    requires forall c :: c in SplitBy(AttrOr(MetaByName(p.metas, "description"), ""), IsClauseMark) ==> |Trim(c)| <= 10
    ensures MainTopic(p) == UnknownTopic
  {
  }

  // -------------------------------------------------------------- content type

  datatype ContentType = ProductPage | ArticleBlog | ContactPage | Homepage | AboutPage | GeneralWebPage

  function ContentTypeName(t: ContentType): string {
    match t
    case ProductPage => "Product Page"
    case ArticleBlog => "Article/Blog"
    case ContactPage => "Contact Page"
    case Homepage => "Homepage"
    case AboutPage => "About Page"
    case GeneralWebPage => "General Web Page"
  }

  predicate ProductSignals(p: Page) {
    var c := p.counts;
    c.productClass > 0 || c.productId > 0 || c.productItemtype > 0
    || Contains(ToLower(p.bodyText), "add to cart") || c.buyButtons > 0
  }

  predicate ArticleSignals(p: Page) {
    var c := p.counts;
    c.articles > 0 || c.postClass > 0 || c.blogClass > 0 || c.articleItemtype > 0
    || (|p.times| > 0 && |p.paragraphs| > 5)
  }

  predicate ContactSignals(p: Page) {
    var c := p.counts;
    c.forms > 0 && (c.emailTypeInputs > 0 || c.emailNamedInputs > 0)
    && (c.textareas > 0 || c.messageNamedInputs > 0)
  }

  predicate HomeSignals(p: Page) {
    (p.bodyId.Some? && Contains(p.bodyId.value, "home"))
    || (p.bodyClass.Some? && Contains(p.bodyClass.value, "home"))
    || (p.counts.navs > 0 && p.counts.sections > 2)
  }

  predicate AboutSignals(p: Page) {
    CountContaining(H1Texts(p.headings), "About") > 0 || CountContaining(p.titles, "About") > 0
    || p.counts.aboutClass > 0 || p.counts.aboutId > 0
  }

  function ContentTypeRules(p: Page): seq<Rule<ContentType>> {
    [ Rule(ProductSignals(p), ProductPage),
      Rule(ArticleSignals(p), ArticleBlog),
      Rule(ContactSignals(p), ContactPage),
      Rule(HomeSignals(p), Homepage),
      Rule(AboutSignals(p), AboutPage) ]
  }

  function DetectContentType(p: Page): ContentType {
    FirstMatch(ContentTypeRules(p), GeneralWebPage)
  }

  /** Each content type is chosen exactly when its signals are present and
      those of every earlier type are absent. */
  lemma DetectContentTypePriority(p: Page)
    ensures DetectContentType(p) == ProductPage <==> ProductSignals(p)
    ensures DetectContentType(p) == ArticleBlog <==> !ProductSignals(p) && ArticleSignals(p)
    ensures DetectContentType(p) == ContactPage <==> !ProductSignals(p) && !ArticleSignals(p) && ContactSignals(p)
    ensures DetectContentType(p) == Homepage
            <==> !ProductSignals(p) && !ArticleSignals(p) && !ContactSignals(p) && HomeSignals(p)
    ensures DetectContentType(p) == AboutPage
            <==> !ProductSignals(p) && !ArticleSignals(p) && !ContactSignals(p) && !HomeSignals(p) && AboutSignals(p)
    ensures DetectContentType(p) == GeneralWebPage
            <==> !ProductSignals(p) && !ArticleSignals(p) && !ContactSignals(p) && !HomeSignals(p) && !AboutSignals(p)
  {
    var rules := ContentTypeRules(p);
    if ProductSignals(p) {
      FirstMatchPicks(rules, GeneralWebPage, 0);
    } else if ArticleSignals(p) {
      FirstMatchPicks(rules, GeneralWebPage, 1);
    } else if ContactSignals(p) {
      FirstMatchPicks(rules, GeneralWebPage, 2);
    } else if HomeSignals(p) {
      FirstMatchPicks(rules, GeneralWebPage, 3);
    } else if AboutSignals(p) {
      FirstMatchPicks(rules, GeneralWebPage, 4);
    } else {
      FirstMatchDefault(rules, GeneralWebPage);
    }
  }

  // --------------------------------------------------------------- content age

  /** JavaScript's `©`. */
  const CopyrightSign: char := 0xA9 as char

  predicate IsYearDash(c: char) {
    c == '-' || c == 0x2013 as char || c == 0x2014 as char
  }

  predicate AllDigits(s: string) {
    forall i :: 0 <= i < |s| ==> IsAsciiDigit(s[i])
  }

  /** Length of the alternative of `(?:©|copyright|copy;)` matching at `i`
      (case-insensitively), 0 when none does. */
  function CopyrightWordAt(s: string, i: nat): nat
    requires i <= |s|
  {
    if i < |s| && s[i] == CopyrightSign then 1
    else if i + 9 <= |s| && ToLower(s[i..i + 9]) == "copyright" then 9
    else if i + 5 <= |s| && ToLower(s[i..i + 5]) == "copy;" then 5
    else 0
  }

  function SkipWhitespace(s: string, i: nat): (j: nat)
    requires i <= |s|
    ensures i <= j <= |s|
    decreases |s| - i
  {
    if i < |s| && IsWhitespace(s[i]) then SkipWhitespace(s, i + 1) else i
  }

  /** Four digits at `q`. */
  predicate YearDigitsAt(s: string, q: nat) {
    q + 4 <= |s| && AllDigits(s[q..q + 4])
  }

  /** A year range `YYYY-YYYY` (or with an en or em dash) at `q`. */
  predicate YearRangeAt(s: string, q: nat) {
    YearDigitsAt(s, q) && q + 9 <= |s| && IsYearDash(s[q + 4]) && YearDigitsAt(s, q + 5)
  }

  /** `(?:\d{4}[-–—])?(\d{4})` at `q`: the captured year digits. A match
      needs four digits at `q`; the optional group is tried first, so a full
      range captures its second year and anything else the first. */
  function YearAt(s: string, q: nat): (r: Option<string>)
    requires q <= |s|
    ensures r.Some? ==> |r.value| == 4 && AllDigits(r.value)
    ensures r.Some? <==> YearDigitsAt(s, q)
    ensures YearRangeAt(s, q) ==> r == Some(s[q + 5..q + 9])
    ensures !YearRangeAt(s, q) && YearDigitsAt(s, q) ==> r == Some(s[q..q + 4])
  {
    if YearRangeAt(s, q) then Some(s[q + 5..q + 9])
    else if YearDigitsAt(s, q) then Some(s[q..q + 4])
    else None
  }

  /** The capture of the copyright pattern matched at `k` exactly, if it
      matches there. */
  function CopyrightMatchAt(s: string, k: nat): Option<string>
    requires k <= |s|
  {
    var w := CopyrightWordAt(s, k);
    if w > 0 then YearAt(s, SkipWhitespace(s, k + w)) else None
  }

  /** The first position from `i` on where the copyright pattern matches,
      or `|s| + 1` when there is none. */
  function CopyrightMatchFrom(s: string, i: nat): (k: nat)
    requires i <= |s|
    ensures i <= k <= |s| + 1
    ensures forall j :: i <= j < k && j <= |s| ==> CopyrightMatchAt(s, j).None?
    ensures k <= |s| ==> CopyrightMatchAt(s, k).Some?
    decreases |s| - i
  {
    if CopyrightMatchAt(s, i).Some? then i
    else if i < |s| then CopyrightMatchFrom(s, i + 1)
    else |s| + 1
  }

  /** `footer.match(/(?:©|copyright|copy;)\s*(?:\d{4}[-–—])?(\d{4})/i)[1]`:
      the capture of the leftmost match, none exactly when the pattern
      matches nowhere. */
  function CopyrightYear(footer: string): (r: Option<string>)
    ensures r.Some? ==> |r.value| == 4 && AllDigits(r.value)
    ensures r.None? <==> forall k :: 0 <= k <= |footer| ==> CopyrightMatchAt(footer, k).None?
    ensures r.Some? ==> exists k :: 0 <= k <= |footer| && r == CopyrightMatchAt(footer, k)
                                    && forall j :: 0 <= j < k ==> CopyrightMatchAt(footer, j).None?
  {
    var k := CopyrightMatchFrom(footer, 0);
    if k <= |footer| then CopyrightMatchAt(footer, k) else None
  }

  /** `estimateContentAge`: the locale date formatter is a parameter; the
      `try`/`catch` around it is dead code, since `new Date(x)` and
      `toLocaleDateString()` never throw. */
  function EstimatedAge(p: Page, currentYear: int, formatDate: string -> string): (r: string)
  {
    var published := AttrOr(MetaByProperty(p.metas, "article:published_time"), "");
    var updated := AttrOr(FirstDatetime(p.times), "");
    if published != "" then "Published on " + formatDate(published)
    else if updated != "" then "Last updated " + formatDate(updated)
    else
      match CopyrightYear(p.footerText)
      case Some(digits) =>
        var year := DigitsValue(digits, 10);
        if year == currentYear then "Updated this year (" + NatToString(year) + ")"
        else "Last copyright year: " + NatToString(year)
      case None => "Age unknown"
  }

  /** `estimateContentAge` tries, in order: the publish date, the first
      `time[datetime]`, the footer's copyright year (as "this year" exactly
      when it is the current one); then "Age unknown". */
  lemma EstimatedAgePriority(p: Page, currentYear: int, formatDate: string -> string)
    ensures var published := AttrOr(MetaByProperty(p.metas, "article:published_time"), "");
            published != "" ==> EstimatedAge(p, currentYear, formatDate) == "Published on " + formatDate(published)
    ensures var published := AttrOr(MetaByProperty(p.metas, "article:published_time"), "");
            var updated := AttrOr(FirstDatetime(p.times), "");
            published == "" && updated != "" ==> EstimatedAge(p, currentYear, formatDate) == "Last updated " + formatDate(updated)
    ensures var published := AttrOr(MetaByProperty(p.metas, "article:published_time"), "");
            var updated := AttrOr(FirstDatetime(p.times), "");
            published == "" && updated == "" ==>
              && (CopyrightYear(p.footerText).None? ==> EstimatedAge(p, currentYear, formatDate) == "Age unknown")
              && (CopyrightYear(p.footerText).Some? ==>
                    var year := DigitsValue(CopyrightYear(p.footerText).value, 10);
                    && (year == currentYear ==> EstimatedAge(p, currentYear, formatDate) == "Updated this year (" + NatToString(year) + ")")
                    && (year != currentYear ==> EstimatedAge(p, currentYear, formatDate) == "Last copyright year: " + NatToString(year)))
  {
  }

  /** A footer starting "© YYYY" (not a year range), with no publish or
      update date, reports that year, as "this year" exactly when it is the
      current one. */
  lemma CopyrightAge(p: Page, currentYear: int, formatDate: string -> string, digits: string, rest: string)
    requires MetaByProperty(p.metas, "article:published_time") == None
    requires FirstDatetime(p.times) == None
    requires |digits| == 4 && AllDigits(digits)
    requires |rest| == 0 || !IsYearDash(rest[0])
    requires p.footerText == [CopyrightSign, ' '] + digits + rest
    ensures CopyrightYear(p.footerText) == Some(digits)
    ensures DigitsValue(digits, 10) != currentYear
            ==> EstimatedAge(p, currentYear, formatDate) == "Last copyright year: " + NatToString(DigitsValue(digits, 10))
    ensures DigitsValue(digits, 10) == currentYear
            ==> EstimatedAge(p, currentYear, formatDate) == "Updated this year (" + NatToString(currentYear) + ")"
  {
    var s := p.footerText;
    assert s[0] == CopyrightSign;
    assert CopyrightWordAt(s, 0) == 1;
    assert s[1] == ' ' && s[2] == digits[0];
    assert SkipWhitespace(s, 2) == 2;
    assert SkipWhitespace(s, 1) == 2;
    assert s[2..6] == digits;
    assert |s| > 6 ==> s[6] == rest[0];
    assert YearAt(s, 2) == Some(digits);
  }

  // ----------------------------------------------------------------- sentiment

  const PositiveWords: seq<string> := [
    "good", "great", "best", "excellent", "amazing", "wonderful", "fantastic",
    "love", "happy", "positive", "beautiful", "outstanding", "perfect", "easy",
    "helpful", "useful", "recommend", "awesome", "incredible", "enjoy", "benefit"]

  const NegativeWords: seq<string> := [
    "bad", "worst", "terrible", "awful", "horrible", "poor", "negative",
    "difficult", "hard", "complaint", "issue", "problem", "hate", "dislike",
    "disappointing", "expensive", "failed", "broken", "avoid", "waste", "unfortunately"]

  /** `\b` between `s[i-1]` and `s[i]`. */
  predicate WordBoundary(s: string, i: nat)
    requires i <= |s|
  {
    (i > 0 && IsWordChar(s[i - 1])) != (i < |s| && IsWordChar(s[i]))
  }

  predicate WholeWordAt(s: string, w: string, i: nat) {
    i + |w| <= |s| && s[i..i + |w|] == w && WordBoundary(s, i) && WordBoundary(s, i + |w|)
  }

  /** Matches of `\bw\b` at or after `i`. For a word made of `\w` characters
      two matches cannot overlap, so counting every position is what the
      global regular expression counts. */
  function WholeWordCountFrom(s: string, w: string, i: nat): nat
    requires i <= |s|
    decreases |s| - i
  {
    (if WholeWordAt(s, w, i) then 1 else 0) + (if i < |s| then WholeWordCountFrom(s, w, i + 1) else 0)
  }

  function Hits(s: string, words: seq<string>): nat {
    if |words| == 0 then 0 else WholeWordCountFrom(s, words[0], 0) + Hits(s, words[1..])
  }

  datatype Sentiment = Positive | Negative | Neutral

  function SentimentName(s: Sentiment): string {
    match s
    case Positive => "Positive"
    case Negative => "Negative"
    case Neutral => "Neutral"
  }

  /** The score `(pos - neg) / total` compared with +-0.25, cross-multiplied. */
  function SentimentOf(pos: nat, neg: nat): Sentiment {
    var total := pos + neg;
    if total == 0 then Neutral
    else if 4 * (pos - neg) > total then Positive
    else if 4 * (neg - pos) > total then Negative
    else Neutral
  }

  /** The source's formula in rational arithmetic. */
  function SentimentByScore(pos: nat, neg: nat): Sentiment {
    var total := pos + neg;
    if total == 0 then Neutral
    else
      var score := (pos - neg) as real / total as real;
      if score > 0.25 then Positive else if score < -0.25 then Negative else Neutral
  }

  lemma DivAbove(a: real, t: real, c: real)
    requires t > 0.0
    ensures a / t > c <==> a > c * t
  {
    var q := a / t;
    assert a == q * t;
    if q > c {
      assert q * t > c * t;
    }
    if a > c * t {
      assert q * t > c * t;
    }
  }

  lemma DivBelow(a: real, t: real, c: real)
    requires t > 0.0
    ensures a / t < c <==> a < c * t
  {
    var q := a / t;
    assert a == q * t;
    if q < c {
      assert q * t < c * t;
    }
    if a < c * t {
      assert q * t < c * t;
    }
  }

  /** The integer thresholds agree with the source's ratio thresholds. */
  lemma SentimentMatchesScore(pos: nat, neg: nat)
    ensures SentimentOf(pos, neg) == SentimentByScore(pos, neg)
  {
    var total := pos + neg;
    if total > 0 {
      var d := (pos - neg) as real;
      DivAbove(d, total as real, 0.25);
      DivBelow(d, total as real, -0.25);
    }
  }

  /** Swapping the two counts swaps Positive and Negative. */
  lemma SentimentSymmetric(pos: nat, neg: nat)
    ensures SentimentOf(pos, neg) == Positive <==> SentimentOf(neg, pos) == Negative
    ensures SentimentOf(pos, neg) == Neutral <==> SentimentOf(neg, pos) == Neutral
  {
  }

  function AnalyzeSentiment(p: Page): Sentiment {
    var text := ToLower(p.bodyText);
    SentimentOf(Hits(text, PositiveWords), Hits(text, NegativeWords))
  }

  /** No listed word gives Neutral; only positive words give Positive. */
  lemma SentimentExtremes(p: Page)
    ensures Hits(ToLower(p.bodyText), PositiveWords) == 0 && Hits(ToLower(p.bodyText), NegativeWords) == 0
            ==> AnalyzeSentiment(p) == Neutral
    ensures Hits(ToLower(p.bodyText), PositiveWords) > 0 && Hits(ToLower(p.bodyText), NegativeWords) == 0
            ==> AnalyzeSentiment(p) == Positive
    ensures Hits(ToLower(p.bodyText), NegativeWords) > 0 && Hits(ToLower(p.bodyText), PositiveWords) == 0
            ==> AnalyzeSentiment(p) == Negative
  {
  }

  // --------------------------------------------------------------- readability

  predicate IsSentenceEnd(c: char) { c == '.' || c == '!' || c == '?' }

  /** `s.trim().length > 0`. */
  predicate HasContent(s: string) { |Trim(s)| > 0 }

  /** `w.match(/[a-z0-9]/i)`. */
  predicate HasAsciiAlnum(w: string) { exists i :: 0 <= i < |w| && IsAsciiAlnum(w[i]) }

  /** Longer than 9 characters, the stand-in for "three or more syllables". */
  predicate IsComplexWord(w: string) { |w| > 9 }

  datatype TextStats = TextStats(sentences: nat, words: nat, complex: nat)

  function ParagraphStats(raw: string): TextStats {
    var t := Trim(raw);
    if t == "" then TextStats(0, 0, 0)
    else
      var words := Filter(SplitBy(t, IsWhitespace), HasAsciiAlnum);
      TextStats(|Filter(SplitBy(t, IsSentenceEnd), HasContent)|, |words|, |Filter(words, IsComplexWord)|)
  }

  function Totals(ps: seq<string>): TextStats {
    if |ps| == 0 then TextStats(0, 0, 0)
    else
      var a := ParagraphStats(ps[0]);
      var b := Totals(ps[1..]);
      TextStats(a.sentences + b.sentences, a.words + b.words, a.complex + b.complex)
  }

  datatype Readability = UnknownReadability | AcademicAdvanced | Intermediate | EasyToRead

  function ReadabilityName(r: Readability): string {
    match r
    case UnknownReadability => "Unknown readability"
    case AcademicAdvanced => "Academic/Advanced"
    case Intermediate => "Intermediate"
    case EasyToRead => "Easy to read"
  }

  /** Words per sentence over 20 or 14, and complex words over 15% or 10%,
      cross-multiplied. */
  function ReadabilityOf(s: TextStats): Readability {
    if s.sentences == 0 || s.words == 0 then UnknownReadability
    else if s.words > 20 * s.sentences || 100 * s.complex > 15 * s.words then AcademicAdvanced
    else if s.words > 14 * s.sentences || 100 * s.complex > 10 * s.words then Intermediate
    else EasyToRead
  }

  /** The source's formula with the average and the percentage as ratios. */
  function ReadabilityByRatios(s: TextStats): Readability {
    if s.sentences == 0 || s.words == 0 then UnknownReadability
    else
      var avg := s.words as real / s.sentences as real;
      var percent := (s.complex as real / s.words as real) * 100.0;
      if avg > 20.0 || percent > 15.0 then AcademicAdvanced
      else if avg > 14.0 || percent > 10.0 then Intermediate
      else EasyToRead
  }

  lemma PercentAbove(c: real, w: real, bound: real)
    requires w > 0.0
    ensures (c / w) * 100.0 > bound <==> 100.0 * c > bound * w
  {
    DivAbove(c, w, bound / 100.0);
    assert (c / w) * 100.0 > bound <==> c / w > bound / 100.0;
    assert (bound / 100.0) * w * 100.0 == bound * w;
  }

  /** The integer thresholds agree with the source's ratio thresholds. */
  lemma ReadabilityMatchesRatios(s: TextStats)
    ensures ReadabilityOf(s) == ReadabilityByRatios(s)
  {
    if s.sentences > 0 && s.words > 0 {
      DivAbove(s.words as real, s.sentences as real, 20.0);
      DivAbove(s.words as real, s.sentences as real, 14.0);
      PercentAbove(s.complex as real, s.words as real, 15.0);
      PercentAbove(s.complex as real, s.words as real, 10.0);
    }
  }

  function EstimateReadability(p: Page): Readability {
    if |p.paragraphs| == 0 then UnknownReadability else ReadabilityOf(Totals(p.paragraphs))
  }

  /** The level is "Unknown readability" exactly when there is no paragraph,
      no sentence or no word; long sentences or many complex words make it
      "Academic/Advanced". */
  lemma ReadabilityLevels(p: Page)
    ensures EstimateReadability(p) == UnknownReadability
            <==> |p.paragraphs| == 0 || Totals(p.paragraphs).sentences == 0 || Totals(p.paragraphs).words == 0
    ensures var t := Totals(p.paragraphs);
            |p.paragraphs| > 0 && t.sentences > 0 && t.words > 0
            ==> (EstimateReadability(p) == AcademicAdvanced <==> t.words > 20 * t.sentences || 100 * t.complex > 15 * t.words)
  {
  }

  // ------------------------------------------------------------------- summary

  /** Trimmed length strictly between 50 and 300. */
  predicate SummaryLength(raw: string) { 50 < |Trim(raw)| < 300 }

  /** The index of the first paragraph of summary length from `k` on, or
      `|ps|`. */
  function FirstSummaryFrom(ps: seq<string>, k: nat): (r: nat)
    requires k <= |ps|
    ensures k <= r <= |ps|
    ensures forall j :: k <= j < r ==> !SummaryLength(ps[j])
    ensures r < |ps| ==> SummaryLength(ps[r])
    decreases |ps| - k
  {
    if k == |ps| || SummaryLength(ps[k]) then k else FirstSummaryFrom(ps, k + 1)
  }

  /** A summary-length paragraph with none before it is the one found. */
  lemma FirstSummaryFound(ps: seq<string>)
    ensures forall i :: 0 <= i < |ps| && SummaryLength(ps[i]) && (forall j :: 0 <= j < i ==> !SummaryLength(ps[j]))
                        ==> FirstSummaryFrom(ps, 0) == i
  {
    var k := FirstSummaryFrom(ps, 0);
    forall i | 0 <= i < |ps| && SummaryLength(ps[i]) && (forall j :: 0 <= j < i ==> !SummaryLength(ps[j]))
      ensures k == i
    {
      assert k <= i;
      assert SummaryLength(ps[k]);
    }
  }

  function FirstSummaryParagraph(ps: seq<string>): (r: Option<string>)
    ensures r.Some? ==> SummaryLength(r.value)
    ensures r.None? <==> forall i :: 0 <= i < |ps| ==> !SummaryLength(ps[i])
    ensures forall i :: 0 <= i < |ps| && SummaryLength(ps[i]) && (forall j :: 0 <= j < i ==> !SummaryLength(ps[j]))
                        ==> r == Some(ps[i])
  {
    var k := FirstSummaryFrom(ps, 0);
    FirstSummaryFound(ps);
    if k < |ps| then Some(ps[k]) else None
  }

  function GenerateSummary(p: Page): (r: string)
    ensures forall i :: 0 <= i < |p.paragraphs| && SummaryLength(p.paragraphs[i])
                        && (forall j :: 0 <= j < i ==> !SummaryLength(p.paragraphs[j]))
                        ==> r == Trim(p.paragraphs[i])
    ensures (exists i :: 0 <= i < |p.paragraphs| && SummaryLength(p.paragraphs[i])) ==> 50 < |r| < 300
    ensures (forall i :: 0 <= i < |p.paragraphs| ==> !SummaryLength(p.paragraphs[i]))
            && (Trim(TitleText(p)) == "" || AttrOr(MetaByName(p.metas, "description"), "") == "")
            ==> |r| <= 253
    ensures var title, desc := Trim(TitleText(p)), AttrOr(MetaByName(p.metas, "description"), "");
            (forall i :: 0 <= i < |p.paragraphs| ==> !SummaryLength(p.paragraphs[i])) && title != "" && desc != ""
            ==> r == title + " - " + desc
    ensures var title, desc := Trim(TitleText(p)), AttrOr(MetaByName(p.metas, "description"), "");
            var body := CollapseWhitespace(p.bodyText);
            (forall i :: 0 <= i < |p.paragraphs| ==> !SummaryLength(p.paragraphs[i])) && (title == "" || desc == "")
            ==> (|body| <= 250 ==> r == body) && (|body| > 250 ==> r == body[..250] + "...")
  {
    match FirstSummaryParagraph(p.paragraphs)
    case Some(par) => Trim(par)
    case None =>
      var title := Trim(TitleText(p));
      var desc := AttrOr(MetaByName(p.metas, "description"), "");
      if title != "" && desc != "" then title + " - " + desc
      else
        var body := CollapseWhitespace(p.bodyText);
        if |body| > 250 then body[..250] + "..." else body
  }

  // -------------------------------------------------------------------- themes

  /** Every text is longer than `lo` and shorter than `hi` characters. */
  predicate LengthsWithin(ts: seq<string>, lo: int, hi: int) {
    forall i :: 0 <= i < |ts| ==> lo < |ts[i]| < hi
  }

  lemma LengthsAppend(a: seq<string>, b: seq<string>, lo: int, hi: int)
    requires LengthsWithin(a, lo, hi) && LengthsWithin(b, lo, hi)
    ensures LengthsWithin(a + b, lo, hi)
  {
    var ts := a + b;
    forall i | 0 <= i < |ts| ensures lo < |ts[i]| < hi {
      if i >= |a| { assert ts[i] == b[i - |a|]; }
    }
  }

  lemma LengthsWiden(ts: seq<string>, lo: int, hi: int, lo': int, hi': int)
    requires LengthsWithin(ts, lo, hi) && lo' <= lo && hi <= hi'
    ensures LengthsWithin(ts, lo', hi')
  {
  }

  /** An `h1`-`h3` whose trimmed text is longer than 3 and shorter than 60. */
  predicate IsHeadingTheme(h: HeadingNode) { h.level <= 3 && 3 < |Trim(h.text)| < 60 }

  function HeadingText(h: HeadingNode): string { Trim(h.text) }

  /** The trimmed texts of the theme headings, in document order. */
  function HeadingThemes(hs: seq<HeadingNode>): (r: seq<string>)
    ensures LengthsWithin(r, 3, 60)
    ensures r == Select(hs, IsHeadingTheme, HeadingText)
  {
    if |hs| == 0 then []
    else
      var t := HeadingText(hs[0]);
      var rest := HeadingThemes(hs[1..]);
      assert Select(hs, IsHeadingTheme, HeadingText)
          == (if IsHeadingTheme(hs[0]) then [t] else []) + Select(hs[1..], IsHeadingTheme, HeadingText);
      if IsHeadingTheme(hs[0]) then
        LengthsAppend([t], rest, 3, 60);
        [t] + rest
      else rest
  }

  /** A bold text longer than 3 and shorter than 40 once trimmed. */
  predicate IsBoldTheme(t: string) { 3 < |Trim(t)| < 40 }

  /** The trimmed theme bold texts, in document order. */
  function BoldThemes(bs: seq<string>): (r: seq<string>)
    ensures LengthsWithin(r, 3, 40)
    ensures r == Select(bs, IsBoldTheme, Trim)
  {
    if |bs| == 0 then []
    else
      var t := Trim(bs[0]);
      var rest := BoldThemes(bs[1..]);
      if 3 < |t| < 40 then
        LengthsAppend([t], rest, 3, 40);
        [t] + rest
      else rest
  }

  /** `text.replace(/^[-*•]/, '').trim()`. */
  function StripBullet(t: string): (r: string)
    ensures |r| <= |t|
  {
    if |t| > 0 && (t[0] == '-' || t[0] == '*' || t[0] == 0x2022 as char) then Trim(t[1..]) else Trim(t)
  }

  /** A list item longer than 5 and shorter than 100 once trimmed. */
  predicate IsItemTheme(t: string) { 5 < |Trim(t)| < 100 }

  function ItemTheme(t: string): string { StripBullet(Trim(t)) }

  /** The bullet-stripped theme items, in document order. */
  function ItemThemes(items: seq<string>): (r: seq<string>)
    ensures LengthsWithin(r, -1, 100)
    ensures r == Select(items, IsItemTheme, ItemTheme)
  {
    if |items| == 0 then []
    else
      var t := Trim(items[0]);
      var rest := ItemThemes(items[1..]);
      if 5 < |t| < 100 then
        var b := StripBullet(t);
        LengthsAppend([b], rest, -1, 100);
        [b] + rest
      else rest
  }

  /** Items of the lists with 2 to 5 `li` children. Nested lists repeat their
      items, which does not change a first-occurrence set. */
  predicate IsThemeList(l: ListNode) { 1 < l.childItems < 6 }

  function ListItemThemes(l: ListNode): seq<string> { ItemThemes(l.itemTexts) }

  function ListThemes(ls: seq<ListNode>): (r: seq<string>)
    ensures LengthsWithin(r, -1, 100)
    ensures r == Flatten(Select(ls, IsThemeList, ListItemThemes))
  {
    if |ls| == 0 then []
    else
      var rest := ListThemes(ls[1..]);
      FlattenSelectStep(ls, IsThemeList, ListItemThemes);
      if IsThemeList(ls[0]) then
        var items := ListItemThemes(ls[0]);
        LengthsAppend(items, rest, -1, 100);
        items + rest
      else rest
  }

  /** Headings, then bold texts, then list items; each shorter than 100. */
  function ThemeCandidates(p: Page): (r: seq<string>)
    ensures LengthsWithin(r, -1, 100)
  {
    var hs, bs, ls := HeadingThemes(p.headings), BoldThemes(p.boldTexts), ListThemes(p.lists);
    LengthsWiden(hs, 3, 60, -1, 100);
    LengthsWiden(bs, 3, 40, -1, 100);
    LengthsAppend(hs, bs, -1, 100);
    LengthsAppend(hs + bs, ls, -1, 100);
    hs + bs + ls
  }

  /** The first `n` distinct texts of `cs`, in first-occurrence order. */
  lemma FirstDistinctFacts(cs: seq<string>, n: nat)
    requires LengthsWithin(cs, -1, 100)
    ensures var d := Ranking.Distinct(cs); var r := d[..Ranking.Min(n, |d|)];
      |r| <= n && Ranking.NoDups(r)
      && (forall i :: 0 <= i < |r| ==> r[i] in cs && |r[i]| < 100)
      && (|d| <= n ==> forall c :: c in cs ==> c in r)
  {
    var d := Ranking.Distinct(cs);
    var r := d[..Ranking.Min(n, |d|)];
    forall i | 0 <= i < |r| ensures r[i] in cs && |r[i]| < 100 {
      assert r[i] == d[i];
      var k :| 0 <= k < |cs| && cs[k] == r[i];
    }
    forall c | c in cs ensures c in d {
      var k :| 0 <= k < |cs| && cs[k] == c;
    }
    assert |d| <= n ==> r == d;
  }

  /** `Array.from(themes).slice(0, 5)` over a set filled in document order. */
  function IdentifyThemes(p: Page): (r: seq<string>)
    ensures |r| <= 5 && Ranking.NoDups(r)
    ensures forall i :: 0 <= i < |r| ==> r[i] in ThemeCandidates(p) && |r[i]| < 100
    ensures |Ranking.Distinct(ThemeCandidates(p))| <= 5
            ==> forall c :: c in ThemeCandidates(p) ==> c in r
    ensures var d := Ranking.Distinct(ThemeCandidates(p));
            |r| == Ranking.Min(5, |d|) && r == d[..|r|]
  {
    var cs := ThemeCandidates(p);
    var d := Ranking.Distinct(cs);
    FirstDistinctFacts(cs, 5);
    d[..Ranking.Min(5, |d|)]
  }

  // ------------------------------------------------------------------- quality

  datatype Quality = Excellent | Good | Average | Basic

  function QualityName(q: Quality): string {
    match q
    case Excellent => "Excellent"
    case Good => "Good"
    case Average => "Average"
    case Basic => "Basic"
  }

  /** `bodyText.trim().split(/\s+/).length`: an empty body still splits into
      one (empty) piece. */
  function QualityWordCount(p: Page): nat {
    var n := |Tokens(p.bodyText)|;
    if n == 0 then 1 else n
  }

  /** Points for length: 2 above 1000 words, 1 above 500. */
  function LengthPoints(wc: nat): (r: nat)
    ensures r <= 2
    ensures r == 2 <==> wc > 1000
    ensures r == 0 <==> wc <= 500
  {
    if wc > 1000 then 2 else if wc > 500 then 1 else 0
  }

  /** The six one-point criteria: more than 3 `h1`-`h3`, more than 2 lists,
      more than 2 images, a video embed, more than 3 absolute links, more
      than 5 bold or italic elements. */
  function QualityCriteria(p: Page): (r: seq<bool>)
    ensures |r| == 6
  {
    [ UpperHeadingCount(p.headings) > 3, |p.lists| > 2, |p.images| > 2,
      p.counts.videoEmbeds > 0, AbsoluteLinkCount(p.anchors) > 3,
      |p.boldTexts| + p.counts.italics > 5 ]
  }

  function Point(b: bool): nat { if b then 1 else 0 }

  /** Length points plus one point per criterion met. */
  function QualityScore(p: Page): (score: nat)
    ensures score <= 8
    ensures score == LengthPoints(QualityWordCount(p)) + Ranking.Count(QualityCriteria(p), true)
    ensures score == 8 <==> QualityWordCount(p) > 1000 && forall i :: 0 <= i < 6 ==> QualityCriteria(p)[i]
    ensures score == 0 <==> QualityWordCount(p) <= 500 && forall i :: 0 <= i < 6 ==> !QualityCriteria(p)[i]
  {
    var cs := QualityCriteria(p);
    CountBools(cs);
    LengthPoints(QualityWordCount(p))
    + Point(UpperHeadingCount(p.headings) > 3)
    + Point(|p.lists| > 2)
    + Point(|p.images| > 2)
    + Point(p.counts.videoEmbeds > 0)
    + Point(AbsoluteLinkCount(p.anchors) > 3)
    + Point(|p.boldTexts| + p.counts.italics > 5)
  }

  /** The count of six flags is the sum of their points; it is 6 exactly
      when all hold and 0 exactly when none does. */
  lemma CountBools(cs: seq<bool>)
    requires |cs| == 6
    ensures Ranking.Count(cs, true)
         == Point(cs[0]) + Point(cs[1]) + Point(cs[2]) + Point(cs[3]) + Point(cs[4]) + Point(cs[5])
  {
    forall k | 0 <= k < 6
      ensures Ranking.Count(cs[k..], true) == Point(cs[k]) + Ranking.Count(cs[k + 1..], true)
    {
      assert cs[k..][1..] == cs[k + 1..];
    }
    assert cs[6..] == [];
    assert cs[0..] == cs;
  }

  /** 7 and up is "Excellent", 5-6 "Good", 3-4 "Average", below 3 "Basic". */
  function QualityOf(score: nat): (r: Quality)
    ensures r == Excellent <==> score >= 7
    ensures r == Good <==> 5 <= score < 7
    ensures r == Average <==> 3 <= score < 5
    ensures r == Basic <==> score < 3
  {
    if score >= 7 then Excellent else if score >= 5 then Good else if score >= 3 then Average else Basic
  }

  function EstimateQuality(p: Page): (r: Quality)
    ensures r == Excellent <==> QualityScore(p) >= 7
    ensures r == Good <==> 5 <= QualityScore(p) < 7
    ensures r == Average <==> 3 <= QualityScore(p) < 5
    ensures r == Basic <==> QualityScore(p) < 3
  {
    QualityOf(QualityScore(p))
  }

  /** A page of at most 500 words scores at most 6 and is never "Excellent";
      a higher score never gives a lower rating. */
  lemma QualityFacts(p: Page, s1: nat, s2: nat)
    ensures QualityWordCount(p) <= 500 ==> QualityScore(p) <= 6 && EstimateQuality(p) != Excellent
    ensures s1 <= s2 && QualityOf(s1) == Excellent ==> QualityOf(s2) == Excellent
    ensures s1 <= s2 && QualityOf(s2) == Basic ==> QualityOf(s1) == Basic
  {
  }
}

=== FILE: ranking.dfy ===
/** Frequency ranking as the analyzer does it: count each distinct item, sort
    by count (descending, stable, as `Array.prototype.sort` is) and keep the
    first `n`. */
module Ranking {

  /** Number of occurrences of `x` in `xs`. */
  function Count<T(==)>(xs: seq<T>, x: T): nat {
    if |xs| == 0 then 0 else (if xs[0] == x then 1 else 0) + Count(xs[1..], x)
  }

  lemma {:induction false} CountPositive<T>(xs: seq<T>, x: T)
    requires x in xs
    ensures Count(xs, x) >= 1
  {
    if xs[0] != x {
      assert x in xs[1..];
      CountPositive(xs[1..], x);
    }
  }

  predicate NoDups<T(==)>(s: seq<T>) {
    forall i, j :: 0 <= i < j < |s| ==> s[i] != s[j]
  }

  /** The distinct items, in order of first occurrence (the key order of a
      JavaScript object filled by counting). */
  function Distinct<T(==)>(xs: seq<T>): (r: seq<T>)
    ensures forall i :: 0 <= i < |r| ==> r[i] in xs
    ensures forall i :: 0 <= i < |xs| ==> xs[i] in r
    ensures NoDups(r)
  {
    if |xs| == 0 then []
    else
      var d := Distinct(xs[..|xs| - 1]);
      var x := xs[|xs| - 1];
      assert xs == xs[..|xs| - 1] + [x];
      if x in d then d else d + [x]
  }

  /** The position of the first occurrence of `x`. */
  function FirstIndex<T(==)>(xs: seq<T>, x: T): (r: nat)
    requires x in xs
    ensures r < |xs| && xs[r] == x
    ensures forall j :: 0 <= j < r ==> xs[j] != x
  {
    if xs[0] == x then 0 else 1 + FirstIndex(xs[1..], x)
  }

  /** An occurrence with none before it is the first one. */
  lemma FirstIndexIs<T>(xs: seq<T>, x: T, k: nat)
    requires k < |xs| && xs[k] == x
    requires forall j :: 0 <= j < k ==> xs[j] != x
    ensures FirstIndex(xs, x) == k
  {
  }

  /** `Distinct` lists the items in the order of their first occurrence. */
  lemma {:induction false} DistinctFirstOccurrenceOrder<T>(xs: seq<T>)
    ensures forall i, j :: 0 <= i < j < |Distinct(xs)| ==>
              FirstIndex(xs, Distinct(xs)[i]) < FirstIndex(xs, Distinct(xs)[j])
  {
    if |xs| > 0 {
      var p := xs[..|xs| - 1];
      var x := xs[|xs| - 1];
      var d := Distinct(p);
      DistinctFirstOccurrenceOrder(p);
      assert xs == p + [x];
      var r := Distinct(xs);
      assert r == if x in d then d else d + [x];
      forall i, j | 0 <= i < j < |r| ensures FirstIndex(xs, r[i]) < FirstIndex(xs, r[j]) {
        assert r[i] == d[i] && d[i] in p;
        FirstIndexPrefix(p, x, d[i]);
        if j < |d| {
          assert r[j] == d[j] && d[j] in p;
          FirstIndexPrefix(p, x, d[j]);
        } else {
          assert x !in p;
          FirstIndexIs(xs, x, |xs| - 1);
        }
      }
    }
  }

  /** Appending an item leaves earlier first occurrences where they were. */
  lemma FirstIndexPrefix<T>(p: seq<T>, x: T, y: T)
    requires y in p
    ensures FirstIndex(p + [x], y) == FirstIndex(p, y)
  {
    FirstIndexIs(p + [x], y, FirstIndex(p, y));
  }

  predicate SortedDesc<T>(s: seq<T>, key: T -> int) {
    forall i, j :: 0 <= i < j < |s| ==> key(s[i]) >= key(s[j])
  }

  /** Inserts `x` ahead of every item whose key is not larger, so that among
      equal keys the earlier input item stays first. */
  function Insert<T(==)>(x: T, s: seq<T>, key: T -> int): (r: seq<T>)
    ensures |r| == |s| + 1
  {
    if |s| == 0 || key(s[0]) <= key(x) then [x] + s
    else [s[0]] + Insert(x, s[1..], key)
  }

  lemma {:induction false} InsertMembers<T>(x: T, s: seq<T>, key: T -> int)
    ensures forall i :: 0 <= i < |Insert(x, s, key)| ==> Insert(x, s, key)[i] == x || Insert(x, s, key)[i] in s
    ensures x in Insert(x, s, key) && forall i :: 0 <= i < |s| ==> s[i] in Insert(x, s, key)
  {
    if |s| > 0 && key(s[0]) > key(x) {
      InsertMembers(x, s[1..], key);
      assert s == [s[0]] + s[1..];
    }
  }

  lemma {:induction false} InsertSorted<T>(x: T, s: seq<T>, key: T -> int)
    requires SortedDesc(s, key)
    ensures SortedDesc(Insert(x, s, key), key)
  {
    if |s| > 0 && key(s[0]) > key(x) {
      var rest := Insert(x, s[1..], key);
      InsertSorted(x, s[1..], key);
      InsertMembers(x, s[1..], key);
      assert forall i :: 0 <= i < |rest| ==> key(rest[i]) <= key(s[0]) by {
        forall i | 0 <= i < |rest| ensures key(rest[i]) <= key(s[0]) {
          if rest[i] != x {
            var m :| 0 <= m < |s[1..]| && s[1..][m] == rest[i];
            assert s[m + 1] == rest[i];
          }
        }
      }
    }
  }

  lemma {:induction false} InsertNoDups<T>(x: T, s: seq<T>, key: T -> int)
    ensures NoDups(s) && x !in s ==> NoDups(Insert(x, s, key))
  {
    if NoDups(s) && x !in s && |s| > 0 && key(s[0]) > key(x) {
      var rest := Insert(x, s[1..], key);
      assert s == [s[0]] + s[1..];
      InsertNoDups(x, s[1..], key);
      InsertMembers(x, s[1..], key);
      assert forall m :: 0 <= m < |s| - 1 ==> s[1..][m] != s[0] by {
        forall m | 0 <= m < |s| - 1 ensures s[1..][m] != s[0] {
          assert s[1..][m] == s[m + 1];
        }
      }
      assert s[0] !in s[1..];
      assert forall i :: 0 <= i < |rest| ==> rest[i] != s[0];
    }
  }

  function SortDesc<T(==)>(s: seq<T>, key: T -> int): (r: seq<T>)
    ensures |r| == |s|
  {
    if |s| == 0 then [] else Insert(s[0], SortDesc(s[1..], key), key)
  }

  lemma {:induction false} SortDescMembers<T>(s: seq<T>, key: T -> int)
    ensures forall i :: 0 <= i < |SortDesc(s, key)| ==> SortDesc(s, key)[i] in s
    ensures forall i :: 0 <= i < |s| ==> s[i] in SortDesc(s, key)
  {
    if |s| > 0 {
      var rest := SortDesc(s[1..], key);
      SortDescMembers(s[1..], key);
      InsertMembers(s[0], rest, key);
      var r := SortDesc(s, key);
      assert r == Insert(s[0], rest, key);
      forall i | 0 <= i < |r| ensures r[i] in s {
        if r[i] != s[0] {
          var m :| 0 <= m < |rest| && rest[m] == r[i];
          assert rest[m] in s[1..];
        }
      }
      forall i | 0 <= i < |s| ensures s[i] in r {
        if i > 0 {
          assert s[i] == s[1..][i - 1];
        }
      }
    }
  }

  lemma {:induction false} SortDescSorted<T>(s: seq<T>, key: T -> int)
    ensures SortedDesc(SortDesc(s, key), key)
  {
    if |s| > 0 {
      SortDescSorted(s[1..], key);
      InsertSorted(s[0], SortDesc(s[1..], key), key);
    }
  }

  lemma {:induction false} SortDescNoDups<T>(s: seq<T>, key: T -> int)
    requires NoDups(s)
    ensures NoDups(SortDesc(s, key))
  {
    if |s| > 0 {
      var rest := SortDesc(s[1..], key);
      assert NoDups(s[1..]);
      SortDescNoDups(s[1..], key);
      SortDescMembers(s[1..], key);
      assert s[0] !in rest by {
        forall m | 0 <= m < |rest| ensures rest[m] != s[0] {
          var k :| 0 <= k < |s[1..]| && s[1..][k] == rest[m];
          assert s[1..][k] == s[k + 1];
        }
      }
      InsertNoDups(s[0], rest, key);
    }
  }

  /** Where `Insert` puts `x`: after every item with a larger key. */
  function InsertPoint<T>(x: T, s: seq<T>, key: T -> int): (k: nat)
    ensures k <= |s|
    ensures forall m :: 0 <= m < k ==> key(s[m]) > key(x)
  {
    if |s| == 0 || key(s[0]) <= key(x) then 0 else 1 + InsertPoint(x, s[1..], key)
  }

  lemma {:induction false} InsertSplit<T>(x: T, s: seq<T>, key: T -> int)
    ensures Insert(x, s, key) == s[..InsertPoint(x, s, key)] + [x] + s[InsertPoint(x, s, key)..]
  {
    if |s| > 0 && key(s[0]) > key(x) {
      InsertSplit(x, s[1..], key);
      var k := InsertPoint(x, s[1..], key);
      assert s[..k + 1] == [s[0]] + s[1..][..k];
      assert s[k + 1..] == s[1..][k..];
    }
  }

  /** In a list without repeats, the item at position `m` is first found there. */
  lemma NoDupsIndex<T>(s: seq<T>, m: nat)
    requires NoDups(s) && m < |s|
    ensures FirstIndex(s, s[m]) == m
  {
    FirstIndexIs(s, s[m], m);
  }

  /** Inserting into a list without repeats moves every item at or after
      the insertion point one place on. */
  lemma InsertPositions<T>(x: T, t: seq<T>, key: T -> int)
    requires NoDups(t) && x !in t
    ensures var r := Insert(x, t, key);
            && x in r && FirstIndex(r, x) == InsertPoint(x, t, key)
            && forall m :: 0 <= m < |t| ==>
                 t[m] in r && FirstIndex(r, t[m]) == if m < InsertPoint(x, t, key) then m else m + 1
  {
    var r := Insert(x, t, key);
    var k := InsertPoint(x, t, key);
    InsertSplit(x, t, key);
    InsertNoDups(x, t, key);
    assert r[k] == x;
    NoDupsIndex(r, k);
    forall m | 0 <= m < |t|
      ensures t[m] in r && FirstIndex(r, t[m]) == if m < k then m else m + 1
    {
      if m < k { assert r[m] == t[m]; } else { assert r[m + 1] == t[m]; }
      NoDupsIndex(r, if m < k then m else m + 1);
    }
  }

  /** The sort is stable: of two distinct items with equal keys, the one
      earlier in the input comes first in the output. */
  lemma {:induction false} SortDescStable<T>(s: seq<T>, key: T -> int)
    requires NoDups(s)
    ensures forall i, j :: 0 <= i < j < |s| && key(s[i]) == key(s[j]) ==>
              s[i] in SortDesc(s, key) && s[j] in SortDesc(s, key)
              && FirstIndex(SortDesc(s, key), s[i]) < FirstIndex(SortDesc(s, key), s[j])
  {
    if |s| > 0 {
      var t := s[1..];
      var rest := SortDesc(t, key);
      assert NoDups(t);
      SortDescStable(t, key);
      SortDescMembers(t, key);
      SortDescNoDups(t, key);
      assert s[0] !in t;
      InsertPositions(s[0], rest, key);
      var k := InsertPoint(s[0], rest, key);
      var r := SortDesc(s, key);
      assert r == Insert(s[0], rest, key);
      forall i, j | 0 <= i < j < |s| && key(s[i]) == key(s[j])
        ensures s[i] in r && s[j] in r && FirstIndex(r, s[i]) < FirstIndex(r, s[j])
      {
        assert s[j] == t[j - 1] && s[j] in rest;
        var mj := FirstIndex(rest, s[j]);
        if i == 0 {
          assert key(rest[mj]) == key(s[0]);
          assert mj >= k;
        } else {
          assert s[i] == t[i - 1] && s[i] in rest;
          assert FirstIndex(rest, s[i]) < mj;
        }
      }
    }
  }

  /** Sorting keeps exactly the same items and orders them by descending key. */
  lemma SortDescSpec<T>(s: seq<T>, key: T -> int)
    ensures forall i :: 0 <= i < |SortDesc(s, key)| ==> SortDesc(s, key)[i] in s
    ensures forall i :: 0 <= i < |s| ==> s[i] in SortDesc(s, key)
    ensures SortedDesc(SortDesc(s, key), key)
    ensures NoDups(s) ==> NoDups(SortDesc(s, key))
  {
    SortDescMembers(s, key);
    SortDescSorted(s, key);
    if NoDups(s) {
      SortDescNoDups(s, key);
    }
  }

  function Min(a: nat, b: nat): nat { if a < b then a else b }

  /** The first `n` items by descending key. */
  function TopByKey<T(==)>(s: seq<T>, key: T -> int, n: nat): (r: seq<T>)
    ensures |r| == Min(n, |s|)
    ensures SortedDesc(r, key)
    ensures forall i :: 0 <= i < |r| ==> r[i] in s
    ensures NoDups(s) ==> NoDups(r)
    ensures forall j :: 0 <= j < |s| && s[j] !in r ==> |r| == n && forall i :: 0 <= i < |r| ==> key(s[j]) <= key(r[i])
  {
    var sorted := SortDesc(s, key);
    SortDescSpec(s, key);
    TopDominates(s, sorted, key, Min(n, |sorted|));
    sorted[..Min(n, |sorted|)]
  }

  /** Every item left out of a prefix of a sorted list ranks no higher than
      any item kept. */
  lemma TopDominates<T>(s: seq<T>, sorted: seq<T>, key: T -> int, k: nat)
    requires k <= |sorted| && SortedDesc(sorted, key)
    requires forall i :: 0 <= i < |s| ==> s[i] in sorted
    ensures forall j :: 0 <= j < |s| && s[j] !in sorted[..k] ==> k < |sorted| && forall i :: 0 <= i < k ==> key(s[j]) <= key(sorted[i])
  {
    assert forall j :: 0 <= j < k ==> sorted[j] in sorted[..k] by {
      forall j | 0 <= j < k ensures sorted[j] in sorted[..k] {
        assert sorted[..k][j] == sorted[j];
      }
    }
    forall j | 0 <= j < |s| && s[j] !in sorted[..k]
      ensures k < |sorted| && forall i :: 0 <= i < k ==> key(s[j]) <= key(sorted[i])
    {
      var m :| 0 <= m < |sorted| && sorted[m] == s[j];
      assert m >= k;
    }
  }

  /** The first `n` distinct items by descending key: each comes from `s`,
      and an item left out ranks no higher than any item kept. */
  lemma TopOfDistinct<T>(s: seq<T>, key: T -> int, n: nat)
    ensures var r := TopByKey(Distinct(s), key, n);
            && |r| <= n && NoDups(r) && SortedDesc(r, key)
            && (forall i :: 0 <= i < |r| ==> r[i] in s)
            && forall x :: x in s && x !in r ==> |r| == n && forall i :: 0 <= i < |r| ==> key(x) <= key(r[i])
  {
    var d := Distinct(s);
    var r := TopByKey(d, key, n);
    forall x | x in s && x !in r ensures |r| == n && forall i :: 0 <= i < |r| ==> key(x) <= key(r[i]) {
      var k :| 0 <= k < |s| && s[k] == x;
      var j :| 0 <= j < |d| && d[j] == x;
    }
  }
}

=== FILE: routes.dfy ===
/** The HTTP handlers of ai-web-scraper-deployment/server/routes.ts:
    `POST /api/scrape` (validate, serve a fresh cached scrape, otherwise
    scrape, add the AI or local insights and store), `GET /api/scrapes/recent`
    and `GET /api/scrapes/:id`, the last two without `rawHtml` unless asked.

    The request body's schema check, the clock, the fetch, the HTML parser,
    the URL parser and the OpenAI call are parameters (`Env`). */
module Routes {
  import opened Wrappers
  import opened Text
  import opened JsonValue
  import opened Document
  import opened ScrapeOptions
  import Storage
  import Scraper
  import LocalAnalyzer
  import LinkInsights

  datatype Response = Response(status: int, body: Json)

  /** The outcome of `urlInputSchema.safeParse(req.body)`. */
  datatype ScrapeRequest = Rejected(message: string) | Accepted(url: string, options: Options)

  /** What `analyzeWithOpenAI` did: returned an analysis object, or threw. */
  datatype AiOutcome = AiReturned(analysis: Obj) | AiThrew

  /** Everything the handler takes from outside: the time in milliseconds
      (read once per request), the ISO formatter of a time, the fetch
      outcome, the parser, the analyzer's environment and the OpenAI
      outcome. */
  datatype Env = Env(
    now: int,
    iso: int -> string,
    fetch: Scraper.FetchOutcome,
    parse: string -> Page,
    analyzer: LocalAnalyzer.Env,
    openAI: AiOutcome)

  /** `{ message }` with the given status. */
  function Message(status: int, message: string): Response {
    Response(status, JObj(map["message" := JStr(message)]))
  }

  /** The catch-all handler: `error.message || fallback`. */
  function ServerError(message: string, fallback: string): (r: Response)
    ensures r.status == 500
    ensures r.body == JObj(map["message" := JStr(if message != "" then message else fallback)])
  {
    Message(500, if message != "" then message else fallback)
  }

  const OneHourMs := 3600000

  // ---------------------------------------------------------------- caching

  /** A stored scrape younger than an hour at time `now`. */
  predicate Fresh(x: Storage.Scrape, now: int) {
    x.scrapeDate > now - OneHourMs
  }

  /** The cache check as written: only the scrape `getScrapeByUrl` returns,
      the OLDEST for the url, is looked at. */
  function CachedScrapeAsWritten(s: Storage.MemStorage, url: string, now: int): (r: Option<Storage.Scrape>)
    requires Storage.Valid(s)
    ensures r.Some? ==> r.value.url == url && r.value in s.scrapes && Fresh(r.value, now)
  {
    var existing := Storage.GetScrapeByUrl(s, url);
    if existing.Some? && Fresh(existing.value, now) then existing else None
  }

  /** Once the first scrape of a url is older than an hour, a scrape of the
      same url made a minute ago is not served from the cache. */
  lemma StaleFirstScrapeHidesFreshOne(o: Options)
    ensures var first := Storage.Scrape(1, "u", 0, JNull, JNull, JNull, JNull, None, o);
            var second := Storage.Scrape(2, "u", 7140000, JNull, JNull, JNull, JNull, None, o);
            var s := Storage.MemStorage([], [first, second], 1, 3);
            && Storage.Valid(s)
            && Fresh(second, 7200000)
            && CachedScrapeAsWritten(s, "u", 7200000) == None
  {
    var first := Storage.Scrape(1, "u", 0, JNull, JNull, JNull, JNull, None, o);
    var second := Storage.Scrape(2, "u", 7140000, JNull, JNull, JNull, JNull, None, o);
    var s := Storage.MemStorage([], [first, second], 1, 3);
    assert Storage.GetScrapeByUrl(s, "u") == Some(first);
  }

  /** The newest stored scrape of `url` (largest id), if any. */
  function LatestFor(ss: seq<Storage.Scrape>, url: string): (r: Option<nat>)
    ensures r.Some? <==> exists i :: 0 <= i < |ss| && ss[i].url == url
    ensures r.Some? ==> r.value < |ss| && ss[r.value].url == url
                        && forall j :: r.value < j < |ss| ==> ss[j].url != url
  {
    if |ss| == 0 then None
    else if ss[|ss| - 1].url == url then Some(|ss| - 1)
    else
      var r := LatestFor(ss[..|ss| - 1], url);
      assert forall i :: 0 <= i < |ss| - 1 ==> ss[..|ss| - 1][i] == ss[i];
      r
  }

  /** The cache check as the comment above it describes it: a scrape of the
      url from the last hour, the newest one when there are several. */
  function CachedScrape(s: Storage.MemStorage, url: string, now: int): (r: Option<Storage.Scrape>)
    requires Storage.Valid(s)
  {
    match LatestFor(s.scrapes, url)
    case Some(i) => if Fresh(s.scrapes[i], now) then Some(s.scrapes[i]) else None
    case None => None
  }

  /** The cache hits exactly when the newest scrape of the url is fresh;
      when scrapes are stored in time order, that is exactly when some
      scrape of the url is fresh. */
  lemma CachedScrapeHits(s: Storage.MemStorage, url: string, now: int)
    requires Storage.Valid(s)
    ensures CachedScrape(s, url, now).Some? ==>
              var x := CachedScrape(s, url, now).value;
              x.url == url && Fresh(x, now) && x in s.scrapes
              && forall i :: 0 <= i < |s.scrapes| && s.scrapes[i].url == url ==> s.scrapes[i].id <= x.id
    ensures (forall i, j :: 0 <= i < j < |s.scrapes| ==> s.scrapes[i].scrapeDate <= s.scrapes[j].scrapeDate)
            ==> (CachedScrape(s, url, now).Some?
                 <==> exists i :: 0 <= i < |s.scrapes| && s.scrapes[i].url == url && Fresh(s.scrapes[i], now))
  {
    match LatestFor(s.scrapes, url)
    case Some(k) =>
      assert forall i :: 0 <= i < |s.scrapes| && s.scrapes[i].url == url ==> i <= k;
    case None =>
  }

  /** The two checks agree while a url has been scraped at most once. */
  lemma CacheAgreesOnSingleScrape(s: Storage.MemStorage, url: string, now: int)
    requires Storage.Valid(s)
    requires forall i, j :: 0 <= i < j < |s.scrapes| && s.scrapes[i].url == url ==> s.scrapes[j].url != url
    ensures CachedScrape(s, url, now) == CachedScrapeAsWritten(s, url, now)
  {
    match LatestFor(s.scrapes, url)
    case Some(k) =>
      var first := Storage.GetScrapeByUrl(s, url).value;
      assert first == s.scrapes[first.id - 1];
      assert first.id - 1 == k;
    case None =>
  }

  /** Which cache check the handler runs: `OldestMatch` is the program's
      check, `NewestMatch` the corrected one. */
  datatype CachePolicy = OldestMatch | NewestMatch

  /** The scrape the handler serves from the cache under `policy`. */
  function CacheLookup(policy: CachePolicy, s: Storage.MemStorage, url: string, now: int): (r: Option<Storage.Scrape>)
    requires Storage.Valid(s)
    ensures r.Some? ==> r.value.url == url && r.value in s.scrapes && Fresh(r.value, now)
    ensures policy == NewestMatch && r.Some?
            ==> forall i :: 0 <= i < |s.scrapes| && s.scrapes[i].url == url ==> s.scrapes[i].id <= r.value.id
    ensures policy == OldestMatch && r.Some?
            ==> forall i :: 0 <= i < |s.scrapes| && s.scrapes[i].url == url ==> r.value.id <= s.scrapes[i].id
  {
    match policy
    case OldestMatch =>
      var r := CachedScrapeAsWritten(s, url, now);
      OldestMatchIsFirst(s, url, now);
      r
    case NewestMatch =>
      CachedScrapeHits(s, url, now);
      CachedScrape(s, url, now)
  }

  lemma OldestMatchIsFirst(s: Storage.MemStorage, url: string, now: int)
    requires Storage.Valid(s)
    ensures var r := CachedScrapeAsWritten(s, url, now);
            r.Some? ==> forall i :: 0 <= i < |s.scrapes| && s.scrapes[i].url == url ==> r.value.id <= s.scrapes[i].id
  {
    var first := Storage.GetScrapeByUrl(s, url);
    if first.Some? {
      forall i | 0 <= i < |s.scrapes| && s.scrapes[i].url == url ensures first.value.id <= s.scrapes[i].id {
        assert first.value == s.scrapes[first.value.id - 1];
      }
    }
  }

  // ----------------------------------------------------------- enrichment

  /** The record built from `scrapedData` before storing. */
  datatype Record = Record(metadata: Obj, content: Obj, links: Json, images: Json, rawHtml: string)

  function RecordOf(d: Scraper.ScrapedData): Record {
    Record(d.metadata, d.content, ObjArr(d.links), ObjArr(d.images), d.rawHtml)
  }

  const OpenAIFailedNote := "OpenAI analysis failed, using local analysis instead"

  /** `{ ...scrapedData, metadata: { ...metadata, aiInsights, error? },
      content: { ...content, aiInsights }, links: a.links || links,
      images: a.images || images }`. */
  function WithInsights(rec: Record, a: Obj, note: Option<string>): (r: Record)
    ensures r.metadata.Keys == rec.metadata.Keys + {"aiInsights"} + (if note.Some? then {"error"} else {})
    ensures r.metadata["aiInsights"] == FieldOr(a, "metadata", JObj(map[]))
    ensures note.Some? ==> r.metadata["error"] == JStr(note.value)
    ensures forall k :: k in rec.metadata && k != "aiInsights" && (note.None? || k != "error")
                        ==> r.metadata[k] == rec.metadata[k]
    ensures r.content == rec.content["aiInsights" := FieldOr(a, "content", JObj(map[]))]
    ensures r.links == FieldOr(a, "links", rec.links) && r.images == FieldOr(a, "images", rec.images)
    ensures r.rawHtml == rec.rawHtml
  {
    var meta := rec.metadata["aiInsights" := FieldOr(a, "metadata", JObj(map[]))];
    Record(
      if note.Some? then meta["error" := JStr(note.value)] else meta,
      rec.content["aiInsights" := FieldOr(a, "content", JObj(map[]))],
      FieldOr(a, "links", rec.links),
      FieldOr(a, "images", rec.images),
      rec.rawHtml)
  }

  /** OpenAI is asked only when it is switched on and a key is given. */
  predicate WantsOpenAI(o: Options) {
    o.useOpenAI && o.openAIKey.Some? && o.openAIKey.value != ""
  }

  /** The local analysis as the object the routes receive; a malformed url
      makes it throw. */
  function LocalInsights(url: string, o: Options, html: string, env: Env): Result<Obj> {
    match LocalAnalyzer.AnalyzeWebContent(url, env.parse(html), o, env.analyzer)
    case Success(a) => Success(LocalAnalyzer.AnalysisJson(a))
    case Failure(m) => Failure(m)
  }

  /** The insights step of the handler: nothing without html; OpenAI when
      wanted, falling back to the local analysis with a note when it throws;
      the local analysis otherwise. */
  function Enhance(url: string, o: Options, d: Scraper.ScrapedData, env: Env): (r: Result<Record>)
    ensures d.rawHtml == "" ==> r == Success(RecordOf(d))
    ensures d.rawHtml != "" && WantsOpenAI(o) && env.openAI.AiReturned?
            ==> r == Success(WithInsights(RecordOf(d), env.openAI.analysis, None))
    ensures d.rawHtml != "" && !(WantsOpenAI(o) && env.openAI.AiReturned?)
            ==> (r.Success? <==> LocalInsights(url, o, d.rawHtml, env).Success?)
                && (r.Success? ==> r.value == WithInsights(RecordOf(d), LocalInsights(url, o, d.rawHtml, env).value,
                                                           if WantsOpenAI(o) then Some(OpenAIFailedNote) else None))
    ensures r.Failure? ==> d.rawHtml != "" && LocalInsights(url, o, d.rawHtml, env).Failure?
                           && r.message == LocalInsights(url, o, d.rawHtml, env).message
  {
    var rec := RecordOf(d);
    if d.rawHtml == "" then Success(rec)
    else if WantsOpenAI(o) && env.openAI.AiReturned? then
      Success(WithInsights(rec, env.openAI.analysis, None))
    else
      var note := if WantsOpenAI(o) then Some(OpenAIFailedNote) else None;
      match LocalInsights(url, o, d.rawHtml, env)
      case Success(a) => Success(WithInsights(rec, a, note))
      case Failure(m) => Failure(m)
  }

  // ---------------------------------------------------------------- output

  /** The options as `JSON.stringify` writes them: a missing key is left out. */
  function OptionsJson(o: Options): (r: Obj)
    ensures "openAIKey" in r <==> o.openAIKey.Some?
  {
    map[ "parseImages" := JBool(o.parseImages),
         "parseLinks" := JBool(o.parseLinks),
         "parseMetadata" := JBool(o.parseMetadata),
         "parseText" := JBool(o.parseText),
         "useOpenAI" := JBool(o.useOpenAI) ]
    + (if o.openAIKey.Some? then map["openAIKey" := JStr(o.openAIKey.value)] else map[])
  }

  /** A stored scrape as sent; `rawHtml` only when `withHtml`. */
  function ScrapeJson(x: Storage.Scrape, iso: int -> string, withHtml: bool): (r: Json)
    ensures r.JObj?
    ensures "rawHtml" in r.fields <==> withHtml
    ensures withHtml ==> r.fields["rawHtml"] == StrOrNull(x.rawHtml)
    ensures r.fields.Keys - {"rawHtml"} == {"id", "url", "scrapeDate", "metadata", "content", "links", "images", "options"}
    ensures r.fields["id"] == JNum(x.id as real) && r.fields["url"] == JStr(x.url)
  {
    var rest := map[
      "id" := JNum(x.id as real),
      "url" := JStr(x.url),
      "scrapeDate" := JStr(iso(x.scrapeDate)),
      "metadata" := x.metadata,
      "content" := x.content,
      "links" := x.links,
      "images" := x.images,
      "options" := JObj(OptionsJson(x.options))];
    JObj(if withHtml then rest["rawHtml" := StrOrNull(x.rawHtml)] else rest)
  }

  // -------------------------------------------------------------- handlers

  const ScrapeFallback := "Failed to scrape the website"

  /** `POST /api/scrape`: the new storage and the response. The program
      runs it with `OldestMatch`. */
  function HandleScrape(s: Storage.MemStorage, req: ScrapeRequest, env: Env, policy: CachePolicy): (r: (Storage.MemStorage, Response))
    requires Storage.Valid(s)
    ensures Storage.Valid(r.0)
    ensures req.Rejected? ==> r == (s, Message(400, req.message))
    ensures r.1.status == 200 || r.0 == s
    ensures r.1.status in {200, 400, 500}
  {
    match req
    case Rejected(msg) => (s, Message(400, msg))
    case Accepted(url, o) =>
      var cached := CacheLookup(policy, s, url, env.now);
      if cached.Some? then (s, Response(200, ScrapeJson(cached.value, env.iso, true)))
      else
        match Scraper.ScrapeWebsite(url, o, env.iso(env.now), env.fetch, env.parse, env.analyzer)
        case Failure(m) => (s, ServerError(m, ScrapeFallback))
        case Success(d) =>
          match Enhance(url, o, d, env)
          case Failure(m) => (s, ServerError(m, ScrapeFallback))
          case Success(rec) =>
            var ins := Storage.InsertScrape(url, JObj(rec.metadata), JObj(rec.content), rec.links, rec.images,
                                            Some(rec.rawHtml), o);
            var (s2, saved) := Storage.CreateScrape(s, ins, env.now);
            (s2, Response(200, ScrapeJson(saved, env.iso, true)))
  }

  /** A fresh cached scrape is sent back whole (html included) and nothing
      is fetched or stored. */
  lemma CacheHitServesStored(s: Storage.MemStorage, url: string, o: Options, env: Env, policy: CachePolicy)
    requires Storage.Valid(s) && CacheLookup(policy, s, url, env.now).Some?
    ensures HandleScrape(s, Accepted(url, o), env, policy)
            == (s, Response(200, ScrapeJson(CacheLookup(policy, s, url, env.now).value, env.iso, true)))
  {
  }

  /** The finding at the handler: with the first scrape of "u" stale and a
      second one a minute old, the program's check misses and a failed
      fetch answers 500, where the corrected check serves the second
      scrape. */
  lemma StaleFirstScrapeHandled(o: Options, env: Env)
    requires env.now == 7200000 && env.fetch.FetchFailed?
    ensures var first := Storage.Scrape(1, "u", 0, JNull, JNull, JNull, JNull, None, o);
            var second := Storage.Scrape(2, "u", 7140000, JNull, JNull, JNull, JNull, None, o);
            var s := Storage.MemStorage([], [first, second], 1, 3);
            && Storage.Valid(s)
            && HandleScrape(s, Accepted("u", o), env, OldestMatch).1.status == 500
            && HandleScrape(s, Accepted("u", o), env, NewestMatch) == (s, Response(200, ScrapeJson(second, env.iso, true)))
  {
    var first := Storage.Scrape(1, "u", 0, JNull, JNull, JNull, JNull, None, o);
    var second := Storage.Scrape(2, "u", 7140000, JNull, JNull, JNull, JNull, None, o);
    var s := Storage.MemStorage([], [first, second], 1, 3);
    StaleFirstScrapeHidesFreshOne(o);
    assert CacheLookup(OldestMatch, s, "u", env.now) == None;
    FetchFailureIsServerError(s, "u", o, env, OldestMatch);
    assert LatestFor(s.scrapes, "u") == Some(1);
    assert CacheLookup(NewestMatch, s, "u", env.now) == Some(second);
  }

  /** A failed fetch stores nothing and answers 500 with the scraper's
      message. */
  lemma FetchFailureIsServerError(s: Storage.MemStorage, url: string, o: Options, env: Env, policy: CachePolicy)
    requires Storage.Valid(s) && CacheLookup(policy, s, url, env.now).None? && env.fetch.FetchFailed?
    ensures HandleScrape(s, Accepted(url, o), env, policy)
            == (s, Message(500, Scraper.FailurePrefix + env.fetch.message))
  {
  }

  /** A successful scrape is stored under the next id with the time of the
      request, and the response is that stored scrape with its html. */
  lemma NewScrapeStored(s: Storage.MemStorage, url: string, o: Options, env: Env, policy: CachePolicy)
    requires Storage.Valid(s) && CacheLookup(policy, s, url, env.now).None?
    requires HandleScrape(s, Accepted(url, o), env, policy).1.status == 200
    ensures var (s2, resp) := HandleScrape(s, Accepted(url, o), env, policy);
            && |s2.scrapes| == |s.scrapes| + 1
            && s2.scrapes[..|s.scrapes|] == s.scrapes
            && var saved := s2.scrapes[|s.scrapes|];
            && saved.id == s.scrapeCurrentId && saved.url == url && saved.scrapeDate == env.now
            && saved.options == o
            && resp.body == ScrapeJson(saved, env.iso, true)
  {
  }

  /** A record the insights step accepts is what the handler stores, as the
      next scrape. */
  lemma StoresEnhancedRecord(s: Storage.MemStorage, url: string, o: Options, env: Env,
                             d: Scraper.ScrapedData, rec: Record, policy: CachePolicy)
    requires Storage.Valid(s) && CacheLookup(policy, s, url, env.now).None?
    requires Scraper.ScrapeWebsite(url, o, env.iso(env.now), env.fetch, env.parse, env.analyzer) == Success(d)
    requires Enhance(url, o, d, env) == Success(rec)
    ensures var (s2, resp) := HandleScrape(s, Accepted(url, o), env, policy);
            && resp.status == 200
            && |s2.scrapes| == |s.scrapes| + 1
            && s2.scrapes[|s.scrapes|].links == Storage.OrDefault(rec.links, JArr([]))
  {
    var ins := Storage.InsertScrape(url, JObj(rec.metadata), JObj(rec.content), rec.links, rec.images,
                                    Some(rec.rawHtml), o);
    var (s2, saved) := Storage.CreateScrape(s, ins, env.now);
    assert HandleScrape(s, Accepted(url, o), env, policy) == (s2, Response(200, ScrapeJson(saved, env.iso, true)));
    assert s2.scrapes[|s.scrapes|] == saved;
  }

  /** With links requested and a well-formed url, the local analysis object
      holds the categorised links. */
  lemma LocalInsightsLinks(url: string, o: Options, html: string, env: Env)
    requires o.parseLinks && env.analyzer.hostname(url).Some?
    ensures LocalInsights(url, o, html, env).Success?
    ensures FieldOr(LocalInsights(url, o, html, env).value, "links", JNull)
            == ObjArr(LinkInsights.LinksJson(LinkInsights.CategorizeLinks(env.parse(html).anchors,
                                                                          env.analyzer.hostname(url).value)))
  {
    var r := LocalAnalyzer.AnalyzeWebContent(url, env.parse(html), o, env.analyzer);
    assert r.Success?;
    assert LocalInsights(url, o, html, env) == Success(LocalAnalyzer.AnalysisJson(r.value));
    LocalAnalyzer.LinksSection(r.value, LinkInsights.CategorizeLinks(env.parse(html).anchors, env.analyzer.hostname(url).value));
  }

  /** Without OpenAI, with links requested and a page to analyse, the
      record's links are the analyzer's categorised entries. */
  lemma LocalEnhanceLinks(url: string, o: Options, d: Scraper.ScrapedData, env: Env)
    requires d.rawHtml != "" && o.parseLinks && !WantsOpenAI(o)
    requires env.analyzer.hostname(url).Some?
    ensures Enhance(url, o, d, env).Success?
    ensures Enhance(url, o, d, env).value.links
            == ObjArr(LinkInsights.LinksJson(LinkInsights.CategorizeLinks(env.parse(d.rawHtml).anchors,
                                                                          env.analyzer.hostname(url).value)))
  {
    LocalInsightsLinks(url, o, d.rawHtml, env);
    var insights := LocalInsights(url, o, d.rawHtml, env).value;
    assert Enhance(url, o, d, env) == Success(WithInsights(RecordOf(d), insights, None));
  }

  /** With the local analysis, links requested and a non-empty page, the
      stored links are the analyzer's categorised entries: they replace the
      extracted links, whose `attributes` are not kept. */
  lemma LocalLinksReplaceExtracted(s: Storage.MemStorage, url: string, o: Options, env: Env, html: string, policy: CachePolicy)
    requires Storage.Valid(s) && CacheLookup(policy, s, url, env.now).None?
    requires env.fetch == Scraper.Fetched(html) && html != ""
    requires o.parseLinks && !WantsOpenAI(o)
    requires env.analyzer.hostname(url).Some?
    ensures var (s2, resp) := HandleScrape(s, Accepted(url, o), env, policy);
            && resp.status == 200
            && |s2.scrapes| == |s.scrapes| + 1
            && s2.scrapes[|s.scrapes|].links
               == ObjArr(LinkInsights.LinksJson(LinkInsights.CategorizeLinks(env.parse(html).anchors,
                                                                             env.analyzer.hostname(url).value)))
  {
    var d := Scraper.ScrapeWebsite(url, o, env.iso(env.now), env.fetch, env.parse, env.analyzer).value;
    assert d.rawHtml == html;
    LocalEnhanceLinks(url, o, d, env);
    var rec := Enhance(url, o, d, env).value;
    assert Truthy(rec.links);
    StoresEnhancedRecord(s, url, o, env, d, rec, policy);
  }

  /** Without the switch and a key, the OpenAI outcome plays no part. */
  lemma OpenAIOnlyWhenWanted(s: Storage.MemStorage, req: ScrapeRequest, env: Env, other: AiOutcome, policy: CachePolicy)
    requires Storage.Valid(s)
    requires req.Accepted? && !WantsOpenAI(req.options)
    ensures HandleScrape(s, req, env, policy) == HandleScrape(s, req, env.(openAI := other), policy)
  {
    var url, o := req.url, req.options;
    var scraped := Scraper.ScrapeWebsite(url, o, env.iso(env.now), env.fetch, env.parse, env.analyzer);
    if CacheLookup(policy, s, url, env.now).None? && scraped.Success? {
      EnhanceIgnoresOpenAI(url, o, scraped.value, env, other);
    }
  }

  lemma EnhanceIgnoresOpenAI(url: string, o: Options, d: Scraper.ScrapedData, env: Env, other: AiOutcome)
    requires !WantsOpenAI(o)
    ensures Enhance(url, o, d, env) == Enhance(url, o, d, env.(openAI := other))
  {
    assert LocalInsights(url, o, d.rawHtml, env) == LocalInsights(url, o, d.rawHtml, env.(openAI := other));
  }

  /** When OpenAI throws, the local insights are used and the metadata says
      so. */
  lemma OpenAIFailureFallsBack(url: string, o: Options, d: Scraper.ScrapedData, env: Env)
    requires d.rawHtml != "" && WantsOpenAI(o) && env.openAI == AiThrew
    requires LocalInsights(url, o, d.rawHtml, env).Success?
    ensures var r := Enhance(url, o, d, env);
            && r.Success?
            && r.value.metadata["error"] == JStr(OpenAIFailedNote)
            && r.value.metadata["aiInsights"]
               == FieldOr(LocalInsights(url, o, d.rawHtml, env).value, "metadata", JObj(map[]))
  {
  }

  /** The insights the fallback stores: the local metadata insights when
      metadata is requested, `{}` otherwise. */
  lemma FallbackMetadataInsights(url: string, o: Options, d: Scraper.ScrapedData, env: Env)
    requires d.rawHtml != "" && WantsOpenAI(o) && env.openAI == AiThrew
    requires LocalInsights(url, o, d.rawHtml, env).Success?
    ensures Enhance(url, o, d, env).Success?
    ensures o.parseMetadata
            ==> Enhance(url, o, d, env).value.metadata["aiInsights"]
                == JObj(LocalAnalyzer.MetadataJson(LocalAnalyzer.MetadataOf(env.parse(d.rawHtml), env.analyzer)))
    ensures !o.parseMetadata ==> Enhance(url, o, d, env).value.metadata["aiInsights"] == JObj(map[])
  {
    var a := LocalAnalyzer.AnalyzeWebContent(url, env.parse(d.rawHtml), o, env.analyzer).value;
    assert LocalInsights(url, o, d.rawHtml, env).value == LocalAnalyzer.AnalysisJson(a);
    OpenAIFailureFallsBack(url, o, d, env);
    MetadataSection(a);
  }

  /** `a.metadata || {}` on the local analysis object. */
  lemma MetadataSection(a: LocalAnalyzer.Analysis)
    ensures a.metadata.Some?
            ==> FieldOr(LocalAnalyzer.AnalysisJson(a), "metadata", JObj(map[])) == JObj(LocalAnalyzer.MetadataJson(a.metadata.value))
    ensures a.metadata.None? ==> FieldOr(LocalAnalyzer.AnalysisJson(a), "metadata", JObj(map[])) == JObj(map[])
  {
    LocalAnalyzer.SectionValues(a);
    LocalAnalyzer.SectionKeys(a);
  }

  /** `GET /api/scrapes/recent`: the ten newest, without html. */
  function HandleRecent(s: Storage.MemStorage, iso: int -> string): (r: Response)
    ensures r.status == 200 && r.body.JArr?
    ensures |r.body.items| == |Storage.GetRecentScrapes(s, Storage.DefaultRecentLimit)|
    ensures forall i :: 0 <= i < |r.body.items| ==> r.body.items[i].JObj? && "rawHtml" !in r.body.items[i].fields
    ensures var recent := Storage.GetRecentScrapes(s, Storage.DefaultRecentLimit);
            forall i :: 0 <= i < |recent| ==> r.body.items[i] == ScrapeJson(recent[i], iso, false)
  {
    var recent := Storage.GetRecentScrapes(s, Storage.DefaultRecentLimit);
    Response(200, JArr(seq(|recent|, i requires 0 <= i < |recent| => ScrapeJson(recent[i], iso, false))))
  }

  /** `GET /api/scrapes/:id[?includeHtml=...]`. */
  function HandleGetById(s: Storage.MemStorage, idParam: string, includeHtml: Option<string>, iso: int -> string): (r: Response)
    requires Storage.Valid(s)
    ensures ParseInt(idParam).None? ==> r == Message(400, "Invalid ID format")
    ensures ParseInt(idParam).Some? && Storage.GetScrape(s, ParseInt(idParam).value).None?
            ==> r == Message(404, "Scrape not found")
    ensures r.status == 200 ==>
              var x := Storage.GetScrape(s, ParseInt(idParam).value);
              && x.Some?
              && r.body == ScrapeJson(x.value, iso, includeHtml == Some("true"))
  {
    match ParseInt(idParam)
    case None => Message(400, "Invalid ID format")
    case Some(id) =>
      match Storage.GetScrape(s, id)
      case None => Message(404, "Scrape not found")
      case Some(x) => Response(200, ScrapeJson(x, iso, includeHtml == Some("true")))
  }

  /** The html is sent only for `includeHtml=true`, and any stored id
      written in decimal finds its scrape. */
  lemma GetByIdHtmlOnlyWhenAsked(s: Storage.MemStorage, id: int, includeHtml: Option<string>, iso: int -> string)
    requires Storage.Valid(s) && 1 <= id <= |s.scrapes|
    ensures var r := HandleGetById(s, IntToString(id), includeHtml, iso);
            && r.status == 200
            && r.body.JObj?
            && ("rawHtml" in r.body.fields <==> includeHtml == Some("true"))
            && r.body.fields["id"] == JNum(id as real)
  {
    ParseIntOfIntToString(id);
  }
}

=== FILE: rules.dfy ===
/** Ordered rule tables: the analyzer's `if / else if` chains, evaluated top to
    bottom, the first rule whose condition holds giving the label. */
module Rules {

  datatype Rule<L> = Rule(holds: bool, outcome: L)

  function FirstMatch<L>(rules: seq<Rule<L>>, default: L): L {
    if |rules| == 0 then default
    else if rules[0].holds then rules[0].outcome
    else FirstMatch(rules[1..], default)
  }

  /** A rule that holds, with no holding rule before it, decides the outcome. */
  lemma {:induction false} FirstMatchPicks<L>(rules: seq<Rule<L>>, default: L, i: nat)
    requires i < |rules| && rules[i].holds
    requires forall j :: 0 <= j < i ==> !rules[j].holds
    ensures FirstMatch(rules, default) == rules[i].outcome
  {
    if i > 0 {
      FirstMatchPicks(rules[1..], default, i - 1);
    }
  }

  /** When no rule holds, the default is the outcome. */
  lemma {:induction false} FirstMatchDefault<L>(rules: seq<Rule<L>>, default: L)
    requires forall j :: 0 <= j < |rules| ==> !rules[j].holds
    ensures FirstMatch(rules, default) == default
  {
    if |rules| > 0 {
      FirstMatchDefault(rules[1..], default);
    }
  }

  /** When some rule holds, the outcome is that of a holding rule. */
  lemma {:induction false} FirstMatchHolding<L>(rules: seq<Rule<L>>, default: L, k: nat)
    requires k < |rules| && rules[k].holds
    ensures exists i :: 0 <= i <= k && rules[i].holds && FirstMatch(rules, default) == rules[i].outcome
  {
    if !rules[0].holds {
      FirstMatchHolding(rules[1..], default, k - 1);
      var i :| 0 <= i <= k - 1 && rules[1..][i].holds && FirstMatch(rules[1..], default) == rules[1..][i].outcome;
      assert rules[i + 1] == rules[1..][i];
    }
  }

  /** The outcome is the default or that of the first rule that holds. */
  lemma {:induction false} FirstMatchCases<L>(rules: seq<Rule<L>>, default: L)
    ensures || (FirstMatch(rules, default) == default && forall j :: 0 <= j < |rules| ==> !rules[j].holds)
            || exists i :: 0 <= i < |rules| && rules[i].holds && FirstMatch(rules, default) == rules[i].outcome
                           && forall j :: 0 <= j < i ==> !rules[j].holds
  {
    if |rules| > 0 && !rules[0].holds {
      FirstMatchCases(rules[1..], default);
      if FirstMatch(rules[1..], default) == default && forall j :: 0 <= j < |rules| - 1 ==> !rules[1..][j].holds {
        assert forall j :: 0 <= j < |rules| ==> !rules[j].holds by {
          forall j | 0 <= j < |rules| ensures !rules[j].holds {
            if j > 0 { assert rules[j] == rules[1..][j - 1]; }
          }
        }
      } else {
        var i :| 0 <= i < |rules| - 1 && rules[1..][i].holds && FirstMatch(rules[1..], default) == rules[1..][i].outcome
                 && forall j :: 0 <= j < i ==> !rules[1..][j].holds;
        assert rules[i + 1] == rules[1..][i];
        assert forall j :: 0 <= j < i + 1 ==> !rules[j].holds by {
          forall j | 0 <= j < i + 1 ensures !rules[j].holds {
            if j > 0 { assert rules[j] == rules[1..][j - 1]; }
          }
        }
      }
    }
  }

  /** A property of the default and of the outcome of every rule that holds
      is a property of the result. */
  lemma FirstMatchKeeps<L>(rules: seq<Rule<L>>, default: L, p: L -> bool)
    requires p(default)
    requires forall j :: 0 <= j < |rules| && rules[j].holds ==> p(rules[j].outcome)
    ensures p(FirstMatch(rules, default))
  {
    FirstMatchCases(rules, default);
  }
}

=== FILE: scraper.dfy ===
/** `scrapeWebsite` (ai-web-scraper-deployment/server/services/scraper.ts):
    fetch the page, extract the requested sections, then enrich them with the
    local analysis. The HTTP fetch, the clock and the HTML parser are
    parameters. */
module Scraper {
  import opened Wrappers
  import opened JsonValue
  import opened Document
  import opened ScrapeOptions
  import opened KeyedMerge
  import Extractor
  import LocalAnalyzer
  import LinkInsights
  import ImageInsights

  /** What `axios.get` gave: the body text, or the error's message. */
  datatype FetchOutcome = Fetched(html: string) | FetchFailed(message: string)

  /** The `result` object of `scrapeWebsite`. */
  datatype ScrapedData = ScrapedData(
    url: string,
    scrapeDate: string,
    metadata: Obj,
    content: Obj,
    links: seq<Obj>,
    images: seq<Obj>,
    rawHtml: string)

  /** The sections extracted from the page, each empty when its toggle is
      off. */
  function Extract(url: string, scrapeDate: string, p: Page, o: Options, html: string): ScrapedData {
    ScrapedData(
      url,
      scrapeDate,
      if o.parseMetadata then Extractor.ExtractMetadata(p, url) else map[],
      if o.parseText then Extractor.ContentJson(Extractor.ExtractContent(p)) else map[],
      if o.parseLinks then Extractor.LinksJson(Extractor.ExtractLinks(p.anchors, url)) else [],
      if o.parseImages then Extractor.ImagesJson(Extractor.ExtractImages(p.images)) else [],
      html)
  }

  /** Merges the analysis into the extracted sections: objects are spread,
      links are merged by `url` and images by `src`. A section the analysis
      lacks, or whose toggle is off, is left as extracted. */
  function Enrich(d: ScrapedData, a: LocalAnalyzer.Analysis, o: Options): (r: ScrapedData)
    ensures r.url == d.url && r.scrapeDate == d.scrapeDate && r.rawHtml == d.rawHtml
    ensures a.metadata.None? || !o.parseMetadata ==> r.metadata == d.metadata
    ensures a.content.None? || !o.parseText ==> r.content == d.content
    ensures a.links.None? || !o.parseLinks ==> r.links == d.links
    ensures a.metadata.Some? && o.parseMetadata
            ==> r.metadata == Spread(d.metadata, LocalAnalyzer.MetadataJson(a.metadata.value))
    ensures a.content.Some? && o.parseText
            ==> r.content == Spread(d.content, LocalAnalyzer.ContentJson(a.content.value))
    ensures a.images.None? || !o.parseImages ==> r.images == d.images
    ensures a.links.Some? && o.parseLinks
            ==> KeysOf(r.links, "url") == Ranking.Distinct(KeysOf(d.links, "url")) && |r.links| <= |d.links|
    ensures a.images.Some? && o.parseImages
            ==> KeysOf(r.images, "src") == Ranking.Distinct(KeysOf(d.images, "src")) && |r.images| <= |d.images|
  {
    var linkEntries := if a.links.Some? then LinkInsights.LinksJson(a.links.value) else [];
    var imageEntries := if a.images.Some? then ImageInsights.ImagesJson(a.images.value) else [];
    MergedKeys(d.links, linkEntries, "url");
    MergedKeys(d.images, imageEntries, "src");
    d.(
      metadata := if a.metadata.Some? && o.parseMetadata
                  then Spread(d.metadata, LocalAnalyzer.MetadataJson(a.metadata.value)) else d.metadata,
      content := if a.content.Some? && o.parseText
                 then Spread(d.content, LocalAnalyzer.ContentJson(a.content.value)) else d.content,
      links := if a.links.Some? && o.parseLinks then MergeByKey(d.links, linkEntries, "url") else d.links,
      images := if a.images.Some? && o.parseImages then MergeByKey(d.images, imageEntries, "src") else d.images)
  }

  const FailurePrefix := "Failed to scrape website: "

  /** `scrapeWebsite(url, options)`, with the fetch outcome, the ISO time
      stamp of `new Date()`, the parser and the analyzer's environment given.
      A failing analysis is logged and swallowed: the extracted data is
      returned as is. */
  function ScrapeWebsite(url: string, o: Options, nowIso: string, fetch: FetchOutcome,
                         parse: string -> Page, env: LocalAnalyzer.Env): (r: Result<ScrapedData>)
    ensures r.Failure? <==> fetch.FetchFailed?
    ensures r.Failure? ==> r.message == FailurePrefix + fetch.message
    ensures r.Success? ==> r.value.url == url && r.value.scrapeDate == nowIso && r.value.rawHtml == fetch.html
    ensures r.Success? && !o.parseMetadata ==> r.value.metadata == map[]
    ensures r.Success? && !o.parseText ==> r.value.content == map[]
    ensures r.Success? && !o.parseLinks ==> r.value.links == []
    ensures r.Success? && !o.parseImages ==> r.value.images == []
  {
    match fetch
    case FetchFailed(msg) => Failure(FailurePrefix + msg)
    case Fetched(html) =>
      var p := parse(html);
      var d := Extract(url, nowIso, p, o, html);
      match LocalAnalyzer.AnalyzeWebContent(url, p, o, env)
      case Success(a) => Success(Enrich(d, a, o))
      case Failure(_) => Success(d)
  }

  /** When the analysis fails (only a malformed url does that, and only with
      links requested), the result is exactly the extracted data. */
  lemma AnalysisFailureKeepsExtraction(url: string, o: Options, nowIso: string, html: string,
                                       parse: string -> Page, env: LocalAnalyzer.Env)
    requires o.parseLinks && env.hostname(url).None?
    ensures ScrapeWebsite(url, o, nowIso, Fetched(html), parse, env)
            == Success(Extract(url, nowIso, parse(html), o, html))
  {
  }

  /** Metadata and content keep every extracted field name and gain the
      analysis' names. */
  lemma SectionsGainAnalysis(url: string, o: Options, nowIso: string, html: string,
                             parse: string -> Page, env: LocalAnalyzer.Env)
    requires LocalAnalyzer.AnalyzeWebContent(url, parse(html), o, env).Success?
    ensures var r := ScrapeWebsite(url, o, nowIso, Fetched(html), parse, env).value;
            var a := LocalAnalyzer.AnalyzeWebContent(url, parse(html), o, env).value;
            var d := Extract(url, nowIso, parse(html), o, html);
            && (o.parseMetadata ==> r.metadata.Keys == d.metadata.Keys + LocalAnalyzer.MetadataJson(a.metadata.value).Keys
                                    && "mainTopic" in r.metadata && "other" in r.metadata)
            && (o.parseText ==> r.content.Keys == d.content.Keys + LocalAnalyzer.ContentJson(a.content.value).Keys
                                && "summary" in r.content && "stats" in r.content)
  {
    MetadataGainsAnalysis(url, o, nowIso, html, parse, env);
    ContentGainsAnalysis(url, o, nowIso, html, parse, env);
  }

  /** On a field name both sides carry, the analysis wins: every field of the
      metadata and content insights reaches the result with its value. */
  lemma SectionsTakeAnalysis(url: string, o: Options, nowIso: string, html: string,
                             parse: string -> Page, env: LocalAnalyzer.Env)
    requires LocalAnalyzer.AnalyzeWebContent(url, parse(html), o, env).Success?
    ensures var r := ScrapeWebsite(url, o, nowIso, Fetched(html), parse, env).value;
            var m := LocalAnalyzer.MetadataJson(LocalAnalyzer.MetadataOf(parse(html), env));
            var c := LocalAnalyzer.ContentJson(LocalAnalyzer.ContentOf(parse(html)));
            && (o.parseMetadata ==> forall k :: k in m ==> k in r.metadata && r.metadata[k] == m[k])
            && (o.parseText ==> forall k :: k in c ==> k in r.content && r.content[k] == c[k])
  {
    MetadataFromAnalysis(url, o, nowIso, html, parse, env);
    ContentFromAnalysis(url, o, nowIso, html, parse, env);
  }

  lemma MetadataGainsAnalysis(url: string, o: Options, nowIso: string, html: string,
                              parse: string -> Page, env: LocalAnalyzer.Env)
    requires LocalAnalyzer.AnalyzeWebContent(url, parse(html), o, env).Success?
    ensures var r := ScrapeWebsite(url, o, nowIso, Fetched(html), parse, env).value;
            var a := LocalAnalyzer.AnalyzeWebContent(url, parse(html), o, env).value;
            var d := Extract(url, nowIso, parse(html), o, html);
            o.parseMetadata ==> r.metadata.Keys == d.metadata.Keys + LocalAnalyzer.MetadataJson(a.metadata.value).Keys
                                && "mainTopic" in r.metadata && "other" in r.metadata
  {
    MetadataFromAnalysis(url, o, nowIso, html, parse, env);
  }

  lemma ContentGainsAnalysis(url: string, o: Options, nowIso: string, html: string,
                             parse: string -> Page, env: LocalAnalyzer.Env)
    requires LocalAnalyzer.AnalyzeWebContent(url, parse(html), o, env).Success?
    ensures var r := ScrapeWebsite(url, o, nowIso, Fetched(html), parse, env).value;
            var a := LocalAnalyzer.AnalyzeWebContent(url, parse(html), o, env).value;
            var d := Extract(url, nowIso, parse(html), o, html);
            o.parseText ==> r.content.Keys == d.content.Keys + LocalAnalyzer.ContentJson(a.content.value).Keys
                            && "summary" in r.content && "stats" in r.content
  {
    ContentFromAnalysis(url, o, nowIso, html, parse, env);
  }

  /** The metadata is the extracted metadata spread with the analysis'. */
  lemma MetadataFromAnalysis(url: string, o: Options, nowIso: string, html: string,
                             parse: string -> Page, env: LocalAnalyzer.Env)
    requires LocalAnalyzer.AnalyzeWebContent(url, parse(html), o, env).Success?
    ensures o.parseMetadata
            ==> ScrapeWebsite(url, o, nowIso, Fetched(html), parse, env).value.metadata
                == Spread(Extractor.ExtractMetadata(parse(html), url),
                          LocalAnalyzer.MetadataJson(LocalAnalyzer.MetadataOf(parse(html), env)))
  {
  }

  /** The content is the extracted content spread with the analysis'. */
  lemma ContentFromAnalysis(url: string, o: Options, nowIso: string, html: string,
                            parse: string -> Page, env: LocalAnalyzer.Env)
    requires LocalAnalyzer.AnalyzeWebContent(url, parse(html), o, env).Success?
    ensures o.parseText
            ==> ScrapeWebsite(url, o, nowIso, Fetched(html), parse, env).value.content
                == Spread(Extractor.ContentJson(Extractor.ExtractContent(parse(html))),
                          LocalAnalyzer.ContentJson(LocalAnalyzer.ContentOf(parse(html))))
  {
  }

  /** The keys the links are merged on: the analyzer's entries and the
      extracted links both carry, in order, the anchors' non-empty hrefs. */
  function HrefKeys(anchors: seq<Anchor>): (r: seq<Option<Json>>)
    ensures |r| == |Hrefs(anchors)|
  {
    var hs := Hrefs(anchors);
    seq(|hs|, i requires 0 <= i < |hs| => Some(JStr(hs[i])))
  }

  lemma ExtractedLinkKeys(anchors: seq<Anchor>, url: string)
    ensures KeysOf(Extractor.LinksJson(Extractor.ExtractLinks(anchors, url)), "url") == HrefKeys(anchors)
  {
    Extractor.ExtractedUrls(anchors, url);
  }

  lemma CategorizedLinkKeys(anchors: seq<Anchor>, host: string)
    ensures KeysOf(LinkInsights.LinksJson(LinkInsights.CategorizeLinks(anchors, host)), "url") == HrefKeys(anchors)
  {
    LinkInsights.CategorizedUrls(anchors, host);
  }

  /** The same for images and their non-empty sources. */
  function SrcKeys(images: seq<Image>): (r: seq<Option<Json>>)
    ensures |r| == |Srcs(images)|
  {
    var ss := Srcs(images);
    seq(|ss|, i requires 0 <= i < |ss| => Some(JStr(ss[i])))
  }

  lemma ExtractedImageKeys(images: seq<Image>)
    ensures KeysOf(Extractor.ImagesJson(Extractor.ExtractImages(images)), "src") == SrcKeys(images)
  {
    Extractor.ExtractedSrcs(images);
  }

  lemma AnalyzedImageKeys(images: seq<Image>)
    ensures KeysOf(ImageInsights.ImagesJson(ImageInsights.AnalyzeImages(images)), "src") == SrcKeys(images)
  {
    ImageInsights.AnalyzedSrcs(images);
  }

  /** The merged links: one per distinct href, each with the analyzer's
      category, importance, text and type, and each still holding the
      extracted `attributes`. */
  lemma LinkMergeEnriched(anchors: seq<Anchor>, url: string, host: string)
    ensures var m := MergeByKey(Extractor.LinksJson(Extractor.ExtractLinks(anchors, url)),
                                LinkInsights.LinksJson(LinkInsights.CategorizeLinks(anchors, host)), "url");
            && KeysOf(m, "url") == Ranking.Distinct(HrefKeys(anchors))
            && forall i :: 0 <= i < |m| ==>
                 {"category", "importance", "text", "type"} <= m[i].Keys && "attributes" in m[i]
  {
    ExtractedLinkKeys(anchors, url);
    CategorizedLinkKeys(anchors, host);
    LinkMergeOver(Extractor.LinksJson(Extractor.ExtractLinks(anchors, url)),
                  LinkInsights.LinksJson(LinkInsights.CategorizeLinks(anchors, host)));
  }

  /** Merging analyzer link entries over extracted links with the same urls. */
  lemma LinkMergeOver(base: seq<Obj>, enh: seq<Obj>)
    requires KeysOf(base, "url") == KeysOf(enh, "url")
    requires forall b :: 0 <= b < |base| ==> base[b].Keys == {"url", "text", "type", "attributes"}
    requires forall m :: 0 <= m < |enh| ==> enh[m].Keys == {"url", "text", "type", "category", "importance"}
    ensures var m := MergeByKey(base, enh, "url");
            && KeysOf(m, "url") == Ranking.Distinct(KeysOf(base, "url"))
            && forall i :: 0 <= i < |m| ==>
                 {"category", "importance", "text", "type"} <= m[i].Keys && "attributes" in m[i]
  {
    var added: set<string> := {"category", "importance", "text", "type"};
    forall m | 0 <= m < |enh| ensures added <= enh[m].Keys && "attributes" !in enh[m] {
      assert enh[m].Keys == {"url", "text", "type", "category", "importance"};
    }
    forall b | 0 <= b < |base| ensures "attributes" in base[b] {
      assert base[b].Keys == {"url", "text", "type", "attributes"};
    }
    MergeOverSameKeys(base, enh, "url", added, "attributes");
  }

  lemma ImageMergeEnriched(images: seq<Image>)
    ensures var m := MergeByKey(Extractor.ImagesJson(Extractor.ExtractImages(images)),
                                ImageInsights.ImagesJson(ImageInsights.AnalyzeImages(images)), "src");
            && KeysOf(m, "src") == Ranking.Distinct(SrcKeys(images))
            && forall i :: 0 <= i < |m| ==>
                 {"purpose", "importance", "context"} <= m[i].Keys && "size" in m[i] && m[i]["size"] == JNull
  {
    ExtractedImageKeys(images);
    AnalyzedImageKeys(images);
    ImageMergeOver(Extractor.ImagesJson(Extractor.ExtractImages(images)),
                   ImageInsights.ImagesJson(ImageInsights.AnalyzeImages(images)));
  }

  /** Merging analyzer image entries over extracted images with the same
      sources; the extracted `size` survives. */
  lemma ImageMergeOver(base: seq<Obj>, enh: seq<Obj>)
    requires KeysOf(base, "src") == KeysOf(enh, "src")
    requires forall b :: 0 <= b < |base| ==> "size" in base[b] && base[b]["size"] == JNull
    requires forall m :: 0 <= m < |enh| ==> enh[m].Keys == {"src", "purpose", "importance", "context"}
    ensures var m := MergeByKey(base, enh, "src");
            && KeysOf(m, "src") == Ranking.Distinct(KeysOf(base, "src"))
            && forall i :: 0 <= i < |m| ==>
                 {"purpose", "importance", "context"} <= m[i].Keys && "size" in m[i] && m[i]["size"] == JNull
  {
    var added: set<string> := {"purpose", "importance", "context"};
    forall m | 0 <= m < |enh| ensures added <= enh[m].Keys && "size" !in enh[m] {
      assert enh[m].Keys == {"src", "purpose", "importance", "context"};
    }
    MergeOverSameKeys(base, enh, "src", added, "size");
    var m := MergeByKey(base, enh, "src");
    forall i | 0 <= i < |m| ensures m[i]["size"] == JNull {
      var b :| 0 <= b < |base| && m[i]["size"] == base[b]["size"];
    }
  }

  /** With a successful analysis every extracted link is enriched by the
      analyzer's entry for its href. */
  lemma EveryLinkEnriched(url: string, o: Options, nowIso: string, html: string,
                          parse: string -> Page, env: LocalAnalyzer.Env)
    requires o.parseLinks && LocalAnalyzer.AnalyzeWebContent(url, parse(html), o, env).Success?
    ensures var r := ScrapeWebsite(url, o, nowIso, Fetched(html), parse, env).value;
            && KeysOf(r.links, "url") == Ranking.Distinct(HrefKeys(parse(html).anchors))
            && forall i :: 0 <= i < |r.links| ==>
                 {"category", "importance", "text", "type"} <= r.links[i].Keys && "attributes" in r.links[i]
  {
    assert ScrapeWebsite(url, o, nowIso, Fetched(html), parse, env).value.links
           == MergeByKey(Extractor.LinksJson(Extractor.ExtractLinks(parse(html).anchors, url)),
                         LinkInsights.LinksJson(LinkInsights.CategorizeLinks(parse(html).anchors, env.hostname(url).value)),
                         "url");
    LinkMergeEnriched(parse(html).anchors, url, env.hostname(url).value);
  }

  /** With a successful analysis every extracted image is enriched by the
      analyzer's entry for its source. */
  lemma EveryImageEnriched(url: string, o: Options, nowIso: string, html: string,
                           parse: string -> Page, env: LocalAnalyzer.Env)
    requires o.parseImages && LocalAnalyzer.AnalyzeWebContent(url, parse(html), o, env).Success?
    ensures var r := ScrapeWebsite(url, o, nowIso, Fetched(html), parse, env).value;
            && KeysOf(r.images, "src") == Ranking.Distinct(SrcKeys(parse(html).images))
            && forall i :: 0 <= i < |r.images| ==>
                 {"purpose", "importance", "context"} <= r.images[i].Keys
                 && "size" in r.images[i] && r.images[i]["size"] == JNull
  {
    assert ScrapeWebsite(url, o, nowIso, Fetched(html), parse, env).value.images
           == MergeByKey(Extractor.ImagesJson(Extractor.ExtractImages(parse(html).images)),
                         ImageInsights.ImagesJson(ImageInsights.AnalyzeImages(parse(html).images)),
                         "src");
    ImageMergeEnriched(parse(html).images);
  }
}

=== FILE: storage.dfy ===
/** `MemStorage` (ai-web-scraper-deployment/server/storage.ts): users and
    scrapes held in insertion-ordered maps keyed by ids counted up from 1.

    Because an id is never reused or overwritten, each map is a sequence in
    id order here: the entry with id `n` sits at index `n - 1` (`Valid`).
    The clock is a parameter: `now` is the millisecond time stamp that
    `new Date()` would give. */
module Storage {
  import opened Wrappers
  import opened JsonValue
  import opened ScrapeOptions
  import opened Ranking

  datatype User = User(id: int, username: string, password: string)

  datatype InsertUser = InsertUser(username: string, password: string)

  /** A stored scrape; `scrapeDate` is the creation time in milliseconds. */
  datatype Scrape = Scrape(
    id: int,
    url: string,
    scrapeDate: int,
    metadata: Json,
    content: Json,
    links: Json,
    images: Json,
    rawHtml: Option<string>,
    options: Options)

  /** The insert record; a missing section is `JNull`, a missing html `None`. */
  datatype InsertScrape = InsertScrape(
    url: string,
    metadata: Json,
    content: Json,
    links: Json,
    images: Json,
    rawHtml: Option<string>,
    options: Options)

  datatype MemStorage = MemStorage(
    users: seq<User>,
    scrapes: seq<Scrape>,
    userCurrentId: int,
    scrapeCurrentId: int)

  /** The constructor: both maps empty, both counters at 1. */
  const Empty := MemStorage([], [], 1, 1)

  /** Ids are 1, 2, ... in insertion order and the counters are one past the
      last. */
  predicate Valid(s: MemStorage) {
    && s.userCurrentId == |s.users| + 1
    && s.scrapeCurrentId == |s.scrapes| + 1
    && (forall i :: 0 <= i < |s.users| ==> s.users[i].id == i + 1)
    && (forall i :: 0 <= i < |s.scrapes| ==> s.scrapes[i].id == i + 1)
  }

  lemma EmptyValid()
    ensures Valid(Empty)
    ensures GetScrape(Empty, 1) == None && GetUser(Empty, 1) == None
  {
  }

  // ------------------------------------------------------------------- users

  /** `Array.from(values).find(pred)` over the users, by index. */
  function FindUser(us: seq<User>, pred: User -> bool): (r: Option<User>)
    ensures r.Some? <==> exists i :: 0 <= i < |us| && pred(us[i])
    ensures r.Some? ==> exists i :: 0 <= i < |us| && us[i] == r.value && pred(us[i])
                                    && forall j :: 0 <= j < i ==> !pred(us[j])
  {
    if |us| == 0 then None
    else if pred(us[0]) then Some(us[0])
    else
      var r := FindUser(us[1..], pred);
      assert forall i :: 0 <= i < |us| - 1 ==> us[1..][i] == us[i + 1];
      if r.Some? then
        var i :| 0 <= i < |us| - 1 && us[1..][i] == r.value && pred(us[1..][i])
                 && forall j :: 0 <= j < i ==> !pred(us[1..][j]);
        assert forall j :: 0 <= j < i + 1 ==> !pred(us[j]) by {
          forall j | 0 <= j < i + 1 ensures !pred(us[j]) {
            if j > 0 { assert us[j] == us[1..][j - 1]; }
          }
        }
        r
      else
        assert forall i :: 0 <= i < |us| ==> !pred(us[i]) by {
          forall i | 0 <= i < |us| ensures !pred(us[i]) {
            if i > 0 { assert us[i] == us[1..][i - 1]; }
          }
        }
        r
  }

  /** `getUser(id)`: `users.get(id)`. */
  function GetUser(s: MemStorage, id: int): (r: Option<User>)
    requires Valid(s)
    ensures r.Some? <==> 1 <= id <= |s.users|
    ensures r.Some? ==> r.value == s.users[id - 1]
  {
    if 1 <= id <= |s.users| then Some(s.users[id - 1]) else None
  }

  /** `getUserByUsername(name)`: the earliest created user with that name. */
  function GetUserByUsername(s: MemStorage, username: string): (r: Option<User>)
    ensures r.Some? <==> exists i :: 0 <= i < |s.users| && s.users[i].username == username
    ensures r.Some? ==> r.value.username == username && r.value in s.users
    ensures r.Some? ==> exists i :: 0 <= i < |s.users| && s.users[i] == r.value
                                    && forall j :: 0 <= j < i ==> s.users[j].username != username
  {
    FindUser(s.users, (u: User) => u.username == username)
  }

  /** `createUser(u)`: the next id, the user stored under it. */
  function CreateUser(s: MemStorage, u: InsertUser): (r: (MemStorage, User))
    requires Valid(s)
    ensures Valid(r.0)
    ensures r.1 == User(s.userCurrentId, u.username, u.password)
    ensures r.0.userCurrentId == s.userCurrentId + 1
    ensures GetUser(r.0, r.1.id) == Some(r.1)
    ensures forall id :: id != r.1.id ==> GetUser(r.0, id) == GetUser(s, id)
    ensures r.0.scrapes == s.scrapes && r.0.scrapeCurrentId == s.scrapeCurrentId
  {
    var user := User(s.userCurrentId, u.username, u.password);
    (s.(users := s.users + [user], userCurrentId := s.userCurrentId + 1), user)
  }

  // ----------------------------------------------------------------- scrapes

  /** `getScrape(id)`: `scrapes.get(id)`. */
  function GetScrape(s: MemStorage, id: int): (r: Option<Scrape>)
    requires Valid(s)
    ensures r.Some? <==> 1 <= id <= |s.scrapes|
    ensures r.Some? ==> r.value == s.scrapes[id - 1] && r.value.id == id
  {
    if 1 <= id <= |s.scrapes| then Some(s.scrapes[id - 1]) else None
  }

  /** `Array.from(values).find(pred)` over the scrapes, by index. */
  function FindScrape(ss: seq<Scrape>, pred: Scrape -> bool): (r: Option<nat>)
    ensures r.Some? <==> exists i :: 0 <= i < |ss| && pred(ss[i])
    ensures r.Some? ==> r.value < |ss| && pred(ss[r.value]) && forall j :: 0 <= j < r.value ==> !pred(ss[j])
  {
    if |ss| == 0 then None
    else if pred(ss[0]) then Some(0)
    else
      var r := FindScrape(ss[1..], pred);
      assert forall i :: 0 <= i < |ss| - 1 ==> ss[1..][i] == ss[i + 1];
      if r.Some? then
        assert forall j :: 0 <= j < r.value + 1 ==> !pred(ss[j]) by {
          forall j | 0 <= j < r.value + 1 ensures !pred(ss[j]) {
            if j > 0 { assert ss[j] == ss[1..][j - 1]; }
          }
        }
        Some(r.value + 1)
      else
        assert forall i :: 0 <= i < |ss| ==> !pred(ss[i]) by {
          forall i | 0 <= i < |ss| ensures !pred(ss[i]) {
            if i > 0 { assert ss[i] == ss[1..][i - 1]; }
          }
        }
        None
  }

  /** `getScrapeByUrl(url)`: the stored scrape for `url` with the smallest
      id, that is the OLDEST one. */
  function GetScrapeByUrl(s: MemStorage, url: string): (r: Option<Scrape>)
    requires Valid(s)
    ensures r.Some? <==> exists i :: 0 <= i < |s.scrapes| && s.scrapes[i].url == url
    ensures r.Some? ==> r.value.url == url && GetScrape(s, r.value.id) == r
                        && forall i :: 0 <= i < r.value.id - 1 ==> s.scrapes[i].url != url
  {
    match FindScrape(s.scrapes, (x: Scrape) => x.url == url)
    case Some(i) => Some(s.scrapes[i])
    case None => None
  }

  /** `insertScrape.x || fallback`. */
  function OrDefault(j: Json, fallback: Json): (r: Json)
    ensures Truthy(j) ==> r == j
    ensures !Truthy(j) ==> r == fallback
  {
    if Truthy(j) then j else fallback
  }

  /** `insertScrape.rawHtml || null`. */
  function HtmlOrNull(h: Option<string>): (r: Option<string>)
    ensures r.Some? <==> h.Some? && h.value != ""
    ensures r.Some? ==> r == h
  {
    if h.Some? && h.value != "" then h else None
  }

  /** `createScrape(insert)`: the next id, the current time, and the
      defaults `{}`/`[]`/`null` for falsy sections. */
  function CreateScrape(s: MemStorage, ins: InsertScrape, now: int): (r: (MemStorage, Scrape))
    requires Valid(s)
    ensures Valid(r.0)
    ensures r.1.id == s.scrapeCurrentId && r.1.url == ins.url && r.1.scrapeDate == now && r.1.options == ins.options
    ensures r.1.metadata == OrDefault(ins.metadata, JObj(map[]))
    ensures r.1.content == OrDefault(ins.content, JObj(map[]))
    ensures r.1.links == OrDefault(ins.links, JArr([]))
    ensures r.1.images == OrDefault(ins.images, JArr([]))
    ensures r.1.rawHtml == HtmlOrNull(ins.rawHtml)
    ensures GetScrape(r.0, r.1.id) == Some(r.1)
    ensures forall id :: id != r.1.id ==> GetScrape(r.0, id) == GetScrape(s, id)
    ensures r.0.users == s.users && r.0.userCurrentId == s.userCurrentId
    ensures r.0.scrapes == s.scrapes + [r.1]
  {
    var scrape := Scrape(
      s.scrapeCurrentId, ins.url, now,
      OrDefault(ins.metadata, JObj(map[])),
      OrDefault(ins.content, JObj(map[])),
      OrDefault(ins.links, JArr([])),
      OrDefault(ins.images, JArr([])),
      HtmlOrNull(ins.rawHtml),
      ins.options);
    (s.(scrapes := s.scrapes + [scrape], scrapeCurrentId := s.scrapeCurrentId + 1), scrape)
  }

  /** Every stored section is truthy: an object or array in place of a
      missing one. */
  lemma CreatedSectionsTruthy(s: MemStorage, ins: InsertScrape, now: int)
    requires Valid(s)
    ensures var c := CreateScrape(s, ins, now).1;
            Truthy(c.metadata) && Truthy(c.content) && Truthy(c.links) && Truthy(c.images)
  {
  }

  /** Two creates in a row get consecutive ids, and the first stays
      readable. */
  lemma ConsecutiveIds(s: MemStorage, a: InsertScrape, b: InsertScrape, t1: int, t2: int)
    requires Valid(s)
    ensures var (s1, x) := CreateScrape(s, a, t1);
            var (s2, y) := CreateScrape(s1, b, t2);
            y.id == x.id + 1 && GetScrape(s2, x.id) == Some(x) && GetScrape(s2, y.id) == Some(y)
  {
  }

  /** JavaScript `xs.slice(0, end)`: a negative `end` counts from the back. */
  function SliceTo<T>(xs: seq<T>, end: int): (r: seq<T>)
    ensures end >= 0 ==> r == xs[..Min(end, |xs|)]
    ensures end < 0 ==> |r| == (if |xs| + end > 0 then |xs| + end else 0) && r == xs[..|r|]
  {
    if end >= 0 then xs[..Min(end, |xs|)]
    else if |xs| + end > 0 then xs[..|xs| + end]
    else []
  }

  function ScrapeTime(x: Scrape): int { x.scrapeDate }

  /** `getRecentScrapes(limit)`: the scrapes in insertion order, stably
      sorted newest first, cut at `limit`. */
  function GetRecentScrapes(s: MemStorage, limit: int): seq<Scrape> {
    SliceTo(SortDesc(s.scrapes, ScrapeTime), limit)
  }

  const DefaultRecentLimit := 10

  /** With a non-negative limit the result is the `limit` newest scrapes:
      newest first, each stored, no repeats, and every scrape left out is no
      newer than any returned one. */
  lemma RecentAreNewest(s: MemStorage, limit: int)
    requires Valid(s) && limit >= 0
    ensures var r := GetRecentScrapes(s, limit);
            && |r| == Min(limit, |s.scrapes|)
            && SortedDesc(r, ScrapeTime)
            && (forall i :: 0 <= i < |r| ==> r[i] in s.scrapes)
            && NoDups(r)
            && forall j :: 0 <= j < |s.scrapes| && s.scrapes[j] !in r ==>
                 forall i :: 0 <= i < |r| ==> s.scrapes[j].scrapeDate <= r[i].scrapeDate
  {
    var r := GetRecentScrapes(s, limit);
    assert NoDups(s.scrapes) by {
      forall i, j | 0 <= i < j < |s.scrapes| ensures s.scrapes[i] != s.scrapes[j] {
        assert s.scrapes[i].id != s.scrapes[j].id;
      }
    }
    assert r == TopByKey(s.scrapes, ScrapeTime, limit);
  }

  /** A negative limit drops that many of the oldest from the sorted list. */
  lemma RecentNegativeLimit(s: MemStorage, limit: int)
    requires limit < 0
    ensures |GetRecentScrapes(s, limit)| == (if |s.scrapes| + limit > 0 then |s.scrapes| + limit else 0)
    ensures GetRecentScrapes(s, limit) == SortDesc(s.scrapes, ScrapeTime)[..|GetRecentScrapes(s, limit)|]
  {
    SortDescSpec(s.scrapes, ScrapeTime);
  }
}

=== FILE: text.dfy ===
/** The string primitives the scraper's JavaScript relies on, written out as
    explicit functions: `\s` and `trim()`, `\w`, ASCII lower-casing, `startsWith`,
    `includes`, `split` on a character class, and `parseInt` / number printing. */
module Text {
  import opened Wrappers

  /** JavaScript's `\s`, which is also the set `trim()` removes: tab, line
      feed, vertical tab, form feed, carriage return, space, no-break space,
      the Unicode space separators, line and paragraph separators, and the
      byte order mark. */
  const WhitespaceChars: set<char> := {
    9 as char, 10 as char, 11 as char, 12 as char, 13 as char, ' ', 0xA0 as char, 0x1680 as char,
    0x2000 as char, 0x2001 as char, 0x2002 as char, 0x2003 as char, 0x2004 as char, 0x2005 as char,
    0x2006 as char, 0x2007 as char, 0x2008 as char, 0x2009 as char, 0x200A as char,
    0x2028 as char, 0x2029 as char, 0x202F as char, 0x205F as char, 0x3000 as char, 0xFEFF as char }

  predicate IsWhitespace(c: char) { c in WhitespaceChars }

  predicate IsAsciiDigit(c: char) { '0' <= c <= '9' }

  predicate IsAsciiAlnum(c: char) {
    IsAsciiDigit(c) || 'a' <= c <= 'z' || 'A' <= c <= 'Z'
  }

  /** JavaScript's `\w` (no `u` flag): `[A-Za-z0-9_]`. */
  predicate IsWordChar(c: char) { IsAsciiAlnum(c) || c == '_' }

  predicate NotEmpty(s: string) { |s| > 0 }

  /** Has a character other than whitespace, i.e. `s.trim().length > 0`. */
  predicate NotBlank(s: string) { exists i :: 0 <= i < |s| && !IsWhitespace(s[i]) }

  function LowerChar(c: char): char {
    if 'A' <= c <= 'Z' then (c as int + 32) as char else c
  }

  /** `toLowerCase()`, restricted to ASCII letters. */
  function ToLower(s: string): (r: string)
    ensures |r| == |s|
  {
    seq(|s|, i requires 0 <= i < |s| => LowerChar(s[i]))
  }

  predicate StartsWith(s: string, prefix: string) {
    |prefix| <= |s| && s[..|prefix|] == prefix
  }

  predicate EndsWith(s: string, suffix: string) {
    |suffix| <= |s| && s[|s| - |suffix|..] == suffix
  }

  /** `s.includes(part)`; the empty string is contained in every string. */
  predicate Contains(s: string, part: string)
    decreases |s|
  {
    StartsWith(s, part) || (|s| > 0 && Contains(s[1..], part))
  }

  /** `s.trimStart()`: drops the leading whitespace, and only that. */
  function TrimStart(s: string): (r: string)
    ensures |r| <= |s| && r == s[|s| - |r|..]
    ensures |r| > 0 ==> !IsWhitespace(r[0])
    ensures forall i :: 0 <= i < |s| - |r| ==> IsWhitespace(s[i])
  {
    if |s| > 0 && IsWhitespace(s[0]) then TrimStart(s[1..]) else s
  }

  /** `s.trimEnd()`: drops the trailing whitespace, and only that. */
  function TrimEnd(s: string): (r: string)
    ensures |r| <= |s| && r == s[..|r|]
    ensures |r| > 0 ==> !IsWhitespace(r[|r| - 1])
    ensures forall i :: |r| <= i < |s| ==> IsWhitespace(s[i])
  {
    if |s| > 0 && IsWhitespace(s[|s| - 1]) then TrimEnd(s[..|s| - 1]) else s
  }

  /** `s.trim()`. */
  function Trim(s: string): (r: string)
    ensures |r| <= |s|
    ensures |r| > 0 ==> !IsWhitespace(r[0]) && !IsWhitespace(r[|r| - 1])
  {
    TrimEnd(TrimStart(s))
  }

  /** Trimming keeps exactly the blank-ness of a string. */
  lemma TrimEmptyIffBlank(s: string)
    ensures Trim(s) == "" <==> !NotBlank(s)
  {
    var t := TrimStart(s);
    if Trim(s) == "" {
      assert |t| == 0;
    } else {
      assert !IsWhitespace(Trim(s)[0]);
      assert Trim(s)[0] == t[0] == s[|s| - |t|];
    }
  }

  function Filter<T>(s: seq<T>, keep: T -> bool): (r: seq<T>)
    ensures |r| <= |s|
    ensures forall x :: x in r ==> x in s && keep(x)
  {
    if |s| == 0 then [] else (if keep(s[0]) then [s[0]] else []) + Filter(s[1..], keep)
  }

  lemma FilterKeepsAll<T>(s: seq<T>, keep: T -> bool)
    requires forall i :: 0 <= i < |s| ==> keep(s[i])
    ensures Filter(s, keep) == s
  {
  }

  /** An item of `s` that `keep` accepts is kept. */
  lemma {:induction false} FilterHas<T>(s: seq<T>, keep: T -> bool, x: T)
    requires x in s && keep(x)
    ensures x in Filter(s, keep)
  {
    if s[0] != x {
      assert x in s[1..];
      FilterHas(s[1..], keep, x);
    }
  }

  /** JavaScript's `filter(keep).map(f)`: the images under `f` of the items
      `keep` accepts, in order. */
  function Select<T, U(==)>(s: seq<T>, keep: T -> bool, f: T -> U): (r: seq<U>)
    ensures |r| <= |s|
    ensures forall y :: y in r ==> exists i :: 0 <= i < |s| && keep(s[i]) && y == f(s[i])
    ensures forall i :: 0 <= i < |s| && keep(s[i]) ==> f(s[i]) in r
  {
    if |s| == 0 then []
    else
      var rest := Select(s[1..], keep, f);
      assert forall i :: 0 <= i < |s| - 1 ==> s[1..][i] == s[i + 1];
      (if keep(s[0]) then [f(s[0])] else []) + rest
  }

  /** Selecting from two parts in turn selects from the whole, in order. */
  lemma {:induction false} SelectAppend<T, U>(a: seq<T>, b: seq<T>, keep: T -> bool, f: T -> U)
    ensures Select(a + b, keep, f) == Select(a, keep, f) + Select(b, keep, f)
  {
    if |a| > 0 {
      assert (a + b)[0] == a[0] && (a + b)[1..] == a[1..] + b;
      SelectAppend(a[1..], b, keep, f);
    } else {
      assert a + b == b;
    }
  }

  /** `es` is `xs` mapped by `f`: `es[k] == f(xs[k])` for every `k`. */
  ghost predicate MapsEach<T, U>(es: seq<U>, xs: seq<T>, f: T --> U) {
    && |es| == |xs|
    && forall k :: 0 <= k < |es| ==> f.requires(xs[k]) && es[k] == f(xs[k])
  }

  lemma MapsEachCons<T, U>(e: U, es: seq<U>, x: T, xs: seq<T>, f: T --> U)
    requires f.requires(x) && e == f(x) && MapsEach(es, xs, f)
    ensures MapsEach([e] + es, [x] + xs, f)
  {
    var es', xs' := [e] + es, [x] + xs;
    forall k | 0 < k < |es'| ensures f.requires(xs'[k]) && es'[k] == f(xs'[k]) {
      assert es'[k] == es[k - 1] && xs'[k] == xs[k - 1];
    }
  }

  /** One step of a filter-map: mapping the head, when kept, in front of
      the mapped tail maps the filtered whole. */
  lemma MapsEachFilterStep<T, U>(r: seq<U>, rest: seq<U>, xs: seq<T>, keep: T -> bool, f: T --> U)
    requires |xs| > 0 && MapsEach(rest, Filter(xs[1..], keep), f)
    requires keep(xs[0]) ==> f.requires(xs[0]) && r == [f(xs[0])] + rest
    requires !keep(xs[0]) ==> r == rest
    ensures MapsEach(r, Filter(xs, keep), f)
  {
    if keep(xs[0]) {
      assert Filter(xs, keep) == [xs[0]] + Filter(xs[1..], keep);
      MapsEachCons(f(xs[0]), rest, xs[0], Filter(xs[1..], keep), f);
    } else {
      assert Filter(xs, keep) == Filter(xs[1..], keep);
    }
  }

  /** The items of the sequences of `ss`, one sequence after another. */
  function Flatten<T(==)>(ss: seq<seq<T>>): (r: seq<T>)
    ensures forall x :: x in r ==> exists i :: 0 <= i < |ss| && x in ss[i]
    ensures forall i, x :: 0 <= i < |ss| && x in ss[i] ==> x in r
  {
    if |ss| == 0 then []
    else
      var rest := Flatten(ss[1..]);
      assert forall i :: 0 <= i < |ss| - 1 ==> ss[1..][i] == ss[i + 1];
      ss[0] + rest
  }

  /** Flattening a selection of sequences peels off the first element's. */
  lemma FlattenSelectStep<T, U>(xs: seq<T>, keep: T -> bool, f: T -> seq<U>)
    requires |xs| > 0
    ensures Flatten(Select(xs, keep, f))
         == (if keep(xs[0]) then f(xs[0]) else []) + Flatten(Select(xs[1..], keep, f))
  {
    var rest := Select(xs[1..], keep, f);
    var ss := Select(xs, keep, f);
    if keep(xs[0]) {
      assert ss == [f(xs[0])] + rest;
      assert ss[0] == f(xs[0]) && ss[1..] == rest;
      assert Flatten(ss) == ss[0] + Flatten(ss[1..]);
      assert Flatten(ss) == f(xs[0]) + Flatten(rest);
    } else {
      assert ss == rest;
      assert Flatten(ss) == [] + Flatten(rest);
    }
  }

  function Concat(ss: seq<string>): string {
    if |ss| == 0 then "" else ss[0] + Concat(ss[1..])
  }

  /** `ss.join(sep)`. */
  function Join(ss: seq<string>, sep: string): string {
    if |ss| == 0 then ""
    else if |ss| == 1 then ss[0]
    else ss[0] + sep + Join(ss[1..], sep)
  }

  /** `s.split(c)` for a single-character class `isSep`: the pieces between the
      separators, empty pieces included (so `split(/X+/)` differs only in empty
      pieces, which every caller filters out). */
  function SplitBy(s: string, isSep: char -> bool): (r: seq<string>)
    ensures |r| >= 1
    ensures forall k, i :: 0 <= k < |r| && 0 <= i < |r[k]| ==> !isSep(r[k][i])
    decreases |s|
  {
    if |s| == 0 then [""]
    else
      var rest := SplitBy(s[1..], isSep);
      if isSep(s[0]) then [""] + rest
      else [[s[0]] + rest[0]] + rest[1..]
  }

  /** The non-empty whitespace-delimited tokens: `s.split(/\s+/).filter(Boolean)`. */
  function Tokens(s: string): (r: seq<string>)
    ensures forall k :: 0 <= k < |r| ==> |r[k]| > 0
    ensures forall k, i :: 0 <= k < |r| && 0 <= i < |r[k]| ==> !IsWhitespace(r[k][i])
  {
    var pieces := SplitBy(s, IsWhitespace);
    var r := Filter(pieces, NotEmpty);
    assert forall k :: 0 <= k < |r| ==> r[k] in pieces;
    r
  }

  /** `s.replace(/\s+/g, ' ').trim()`: whitespace runs collapsed to one space,
      none at either end; that is the tokens joined by single spaces. */
  function CollapseWhitespace(s: string): string {
    Join(Tokens(s), " ")
  }

  predicate NoWhitespace(w: string) {
    forall i :: 0 <= i < |w| ==> !IsWhitespace(w[i])
  }

  lemma {:induction false} SplitWord(w: string, t: string, isSep: char -> bool)
    requires forall i :: 0 <= i < |w| ==> !isSep(w[i])
    ensures SplitBy(w + t, isSep) == [w + SplitBy(t, isSep)[0]] + SplitBy(t, isSep)[1..]
    decreases |w|
  {
    if |w| > 0 {
      assert (w + t)[1..] == w[1..] + t;
      SplitWord(w[1..], t, isSep);
      assert [w[0]] + (w[1..] + SplitBy(t, isSep)[0]) == w + SplitBy(t, isSep)[0];
    } else {
      assert w + t == t;
      assert w + SplitBy(t, isSep)[0] == SplitBy(t, isSep)[0];
    }
  }

  lemma {:induction false} SplitJoined(ws: seq<string>)
    requires |ws| > 0
    requires forall k :: 0 <= k < |ws| ==> NoWhitespace(ws[k])
    ensures SplitBy(Join(ws, " "), IsWhitespace) == ws
    decreases |ws|
  {
    if |ws| == 1 {
      SplitWord(ws[0], "", IsWhitespace);
      assert ws[0] + "" == ws[0];
    } else {
      var t := Join(ws[1..], " ");
      SplitJoined(ws[1..]);
      assert Join(ws, " ") == ws[0] + (" " + t);
      SplitWord(ws[0], " " + t, IsWhitespace);
      assert (" " + t)[1..] == t;
      assert SplitBy(" " + t, IsWhitespace) == [""] + ws[1..];
      assert ws[0] + "" == ws[0];
    }
  }

  /** Round trip: tokenising words joined by single spaces gives the words back. */
  lemma TokensOfJoin(ws: seq<string>)
    requires forall k :: 0 <= k < |ws| ==> |ws[k]| > 0 && NoWhitespace(ws[k])
    ensures Tokens(Join(ws, " ")) == ws
  {
    if |ws| > 0 {
      SplitJoined(ws);
      FilterKeepsAll(ws, NotEmpty);
    } else {
      assert SplitBy("", IsWhitespace) == [""];
    }
  }

  // ---- numbers ----

  function DigitChar(d: nat): char
    requires d < 10
  {
    ('0' as int + d) as char
  }

  /** The value of an ASCII digit or letter as a digit (letters count from 10). */
  function DigitValue(c: char): nat {
    if IsAsciiDigit(c) then c as int - '0' as int
    else if 'a' <= c <= 'z' then c as int - 'a' as int + 10
    else if 'A' <= c <= 'Z' then c as int - 'A' as int + 10
    else 36
  }

  predicate IsDigitIn(c: char, radix: nat) { DigitValue(c) < radix }

  /** The value of a digit string read most-significant first. */
  function DigitsValue(d: string, radix: nat): nat {
    if |d| == 0 then 0
    else DigitsValue(d[..|d| - 1], radix) * radix + DigitValue(d[|d| - 1])
  }

  /** The longest prefix made of digits of `radix`. */
  function DigitPrefix(s: string, radix: nat): (r: string)
    ensures |r| <= |s| && r == s[..|r|]
    ensures forall i :: 0 <= i < |r| ==> IsDigitIn(r[i], radix)
    ensures |r| < |s| ==> !IsDigitIn(s[|r|], radix)
  {
    if |s| > 0 && IsDigitIn(s[0], radix) then [s[0]] + DigitPrefix(s[1..], radix) else ""
  }

  /** Decimal notation of a natural number, as `String(n)` prints it. */
  function NatToString(n: nat): (r: string)
    ensures |r| > 0
    ensures forall i :: 0 <= i < |r| ==> IsAsciiDigit(r[i])
  {
    if n < 10 then [DigitChar(n)] else NatToString(n / 10) + [DigitChar(n % 10)]
  }

  function IntToString(n: int): (r: string) {
    if n < 0 then "-" + NatToString(-n) else NatToString(n)
  }

  /** JavaScript's `parseInt(s)` with no radix: leading whitespace, an optional
      sign, a `0x`/`0X` prefix selecting hexadecimal, then the longest run of
      digits; `None` stands for `NaN` (no digit at all). */
  function ParseInt(s: string): (r: Option<int>)
  {
    var t := TrimStart(s);
    var negative := |t| > 0 && t[0] == '-';
    var u := if |t| > 0 && (t[0] == '-' || t[0] == '+') then t[1..] else t;
    match ParseMagnitude(u)
    case None => None
    case Some(m) => Some(if negative then 0 - m else m)
  }

  /** The unsigned part: hexadecimal after `0x`/`0X`, decimal otherwise. */
  function ParseMagnitude(u: string): (r: Option<nat>)
  {
    if |u| >= 2 && u[0] == '0' && (u[1] == 'x' || u[1] == 'X') then
      var d := DigitPrefix(u[2..], 16);
      if |d| == 0 then None else Some(DigitsValue(d, 16))
    else
      var d := DigitPrefix(u, 10);
      if |d| == 0 then None else Some(DigitsValue(d, 10))
  }

  lemma {:induction false} DigitsOfNat(n: nat)
    ensures DigitsValue(NatToString(n), 10) == n
    ensures DigitPrefix(NatToString(n), 10) == NatToString(n)
  {
    var r := NatToString(n);
    if n >= 10 {
      DigitsOfNat(n / 10);
      assert r[..|r| - 1] == NatToString(n / 10);
    }
    DigitPrefixAll(r, 10);
  }

  lemma {:induction false} DigitPrefixAll(s: string, radix: nat)
    requires forall i :: 0 <= i < |s| ==> IsDigitIn(s[i], radix)
    ensures DigitPrefix(s, radix) == s
    decreases |s|
  {
    if |s| > 0 {
      DigitPrefixAll(s[1..], radix);
    }
  }

  /** The unsigned, non-hexadecimal case of `ParseInt` on a decimal numeral. */
  lemma ParseDecimalDigits(t: string, m: nat)
    requires t == NatToString(m)
    ensures !(|t| >= 2 && t[0] == '0' && (t[1] == 'x' || t[1] == 'X'))
    ensures DigitPrefix(t, 10) == t && |t| > 0 && DigitsValue(t, 10) == m
  {
    DigitsOfNat(m);
    if |t| >= 2 {
      assert IsAsciiDigit(t[1]);
    }
  }

  /** Round trip: `parseInt(String(n)) == n` for every integer. */
  lemma ParseIntOfIntToString(n: int)
    ensures ParseInt(IntToString(n)) == Some(n)
  {
    var s := IntToString(n);
    var m: nat := if n < 0 then -n else n;
    var digits := NatToString(m);
    ParseDecimalDigits(digits, m);
    assert !IsWhitespace(s[0]) by {
      assert s[0] == '-' || IsAsciiDigit(s[0]);
    }
    assert TrimStart(s) == s;
    if n < 0 {
      assert s[1..] == digits;
    } else {
      assert s == digits;
      assert s[0] != '-' && s[0] != '+';
    }
  }
}

=== FILE: wrappers.dfy ===
/** Optional values and success-or-failure results, used where the source has
    `undefined`/`null` or throws. */
module Wrappers {

  datatype Option<+T> = None | Some(value: T) {

    /** The value, or `default` when absent (the source's `x ?? default`). */
    function GetOr(default: T): T {
      match this
      case Some(v) => v
      case None => default
    }
  }

  /** A computation that returns a value or throws an error carrying a message. */
  datatype Result<+R> = Success(value: R) | Failure(message: string)
}
